=== FILE: README.md ===
# beauty: a Dafny model of the ray tracer's core

This project models the renderer of **beauty**, a small C++ ray tracer, and proves properties
of the model. It covers:

- the geometry tests: the ray–triangle acceptance rule, the case analysis of the ray–sphere
  test, the half-space classifier and `BoundingBox::Split`;
- the relaxed 3-d tree over triangle indices: construction by round-robin axis and median
  centroid, distribution of straddling triangles, and the nearest-triangle query. The tree
  class runs the query as written; a corrected query stands beside it (see "## Findings");
- the scene: the brute-force nearest-primitive scans, the shadow rule of
  `ComputePhongIllumination`, and the token-level scene-file loader with its sticky
  stream-failure flag;
- the rendering configuration: a lenient `key value` reader and a fixed six-line writer,
  with a save/load round trip;
- the ARGB32 image buffer: pixel and channel addressing, and `Clear`;
- the ray tracer: the recursive `TraceRay`, the quantisation of a colour into pixel bytes,
  and the three passes that fill an image (single-thread render, striped parallel render and
  adaptive anti-aliasing), with the workers run one after another.

Coordinates and colours are reals. The numerical kernels (the 3x3 solve of the triangle test,
`sqrt`, `normalize`, `cos`/`sin`, the slab ray-box test, float division and
`Camera::CastRay`) are function values that the caller passes in, as the `Glm` and `Kernels`
records. Every property holds whatever these functions are, unless a lemma names an explicit
hypothesis about them (`SolveExact`, `SqrtExact`, `BoxSound`, `ExactDivision`).

Files and modules:

| file | module | models |
|---|---|---|
| Wrappers.dfy | `Wrappers` | `Option` |
| Primitives.dfy | `Primitives` | vectors, colours, 3x3 matrices, triangles, spheres, lights, bounding boxes |
| MathFunctions.dfy | `MathFunctions` | renderer/geometries/MathFunctions.cpp |
| HitScan.dfy | `HitScan` | the "nearest hit so far" scan shared by the three linear searches |
| KdTree.dfy | `KdTree` | renderer/scene/KdTree.cpp, KdTree.h |
| SceneParser.dfy | `SceneParser` | `ParseAttribute` and the `ifstream` word reads of Scene.cpp |
| SceneFormat.dfy | `SceneFormat` | the attribute layout of each object block |
| Scene.dfy | `Scene` | renderer/scene/Scene.cpp (scans, lighting, `Load`) |
| RenderingConfig.dfy | `Config` | renderer/parsing/RenderingConfig.cpp, RenderingConfig.h |
| ImgBuffer.dfy | `Image` | renderer/img_buffer/ImgBuffer.h |
| RayTracer.dfy | `RayTracing` | renderer/ray_tracer/RayTracer.cpp, RayTracer.h |

Where the headers and the .cpp files disagree, the model follows the .cpp files:

- `RenderingConfig.h` declares neither `mNumThreads` nor `mUseKdTree`, but `RenderingConfig.cpp`
  reads and writes both. The model adds them, with defaults of one thread and no k-d tree.
- `Scene.h` declares a one-argument `Load` and a `vec3` background. `Scene.cpp` defines a
  two-argument `Load` and stores a `vec4` background.
- `BoundingBox` is used by `Primitives.cpp` but is not declared in `Primitives.h`. The model
  gives it `mMin`/`mMax` 3-vectors.
- `RayTracer.h` takes the image buffer by rvalue reference; the .cpp takes an lvalue
  reference. The model passes one `ImgBuffer` object.

## Model

| member | source | states |
|---|---|---|
| Primitives.Centroid | renderer/scene/KdTree.cpp:25-27 | each coordinate of the centre of mass is the mean of that coordinate over the three vertices |
| Primitives.Split | renderer/geometries/Primitives.cpp:8-18 | side > 0 replaces only min[axis]; side <= 0 (0 included) replaces only max[axis]; the other two axes are copied unchanged |
| Primitives.SplitContained | renderer/geometries/Primitives.cpp:8-18 | a split value inside the box's extent on that axis gives a child box contained in the parent |
| Primitives.SplitChildrenMeet | renderer/geometries/Primitives.cpp:12-15 | left.max[axis] == right.min[axis] == value for the two children of one split |
| Primitives.SplitCovers | renderer/geometries/Primitives.cpp:8-18 | every point of the parent box lies in the left child or in the right child |
| Primitives.SplitKeeps | renderer/geometries/Primitives.cpp:8-18 | a parent-box point on a child's side of the plane lies in that child |
| MathFunctions.IntersectionRayTriangle | renderer/geometries/MathFunctions.cpp:24-32 | t is the solved first component; the weights are (1-u-v, u, v); the point is O + t ray; the hit is reported iff t > eps, u > 0, v > 0 and u + v <= 1 |
| MathFunctions.TriangleHitWeights | renderer/geometries/MathFunctions.cpp:28-32 | a reported hit has t > eps and three non-negative barycentric weights that sum to 1 |
| MathFunctions.TriangleHitOnTriangle | renderer/geometries/MathFunctions.cpp:24-28 | with an exact solver the reported intersection is the barycentric point of the triangle |
| MathFunctions.BarycentricBetweenVertices | renderer/geometries/MathFunctions.cpp:28-32 | a point with such weights lies between the vertices' least and greatest coordinate on every axis |
| MathFunctions.OrderedRoots | renderer/geometries/MathFunctions.cpp:57-63 | the two roots 0.5(-b +/- sqrt(delta)) come out in increasing order |
| MathFunctions.SphereTestCases | renderer/geometries/MathFunctions.cpp:35-89 | delta < 0 misses (below -eps directly, in [-eps, 0) through the NaN square root); in the tangent case the hit is at t = -b/2 with no check on t; with two roots the hit exists iff the larger root exceeds eps, is the smaller root when that exceeds eps (outward normal) and else the larger (inward normal); the point is O + t r |
| MathFunctions.IntersectionRaySphere | renderer/geometries/MathFunctions.cpp:35-89 | a discriminant below -eps misses; a hit point is O + t r; with two roots a hit lies beyond eps. Its full case analysis is SphereTestCases and the on-sphere reading of its distance is OnSphereIffQuadratic with SphereHitSolvesQuadratic |
| MathFunctions.SphereHitDistance | renderer/geometries/MathFunctions.cpp:48-80 | a hit's distance is one of the two roots, or -b/2 in the tangent case |
| MathFunctions.SphereHitSolvesQuadratic | renderer/geometries/MathFunctions.cpp:38-80 | with an exact square root a two-root hit solves t^2 + b t + c = 0, and a tangent hit misses it by less than eps/4 |
| MathFunctions.SphereRootSolves | renderer/geometries/MathFunctions.cpp:57-58 | both roots of the sphere's quadratic solve it |
| MathFunctions.SphereTangentNearlySolves | renderer/geometries/MathFunctions.cpp:48-50 | for delta in [0, eps) the value of the quadratic at -b/2 lies in (-eps/4, 0] |
| MathFunctions.OnSphereIffQuadratic | renderer/geometries/MathFunctions.cpp:38-41 | for a unit ray, \|O + t r - C\|^2 - R^2 equals the quadratic t^2 + b t + c |
| MathFunctions.IntersectionHalfSpaceTriangle | renderer/geometries/MathFunctions.cpp:91-103 | type >= 0: true iff some vertex has coord[axis] >= value; type < 0: true iff some vertex has coord[axis] <= value |
| MathFunctions.HalfSpacesCover | renderer/geometries/MathFunctions.cpp:93-101 | every triangle meets at least one of the two half-spaces of any plane |
| MathFunctions.CentroidOnPlaneStraddles | renderer/geometries/MathFunctions.cpp:93-101 | a triangle meets both half-spaces of the plane through its own centroid |
| HitScan.NearestIn | renderer/scene/Scene.cpp:48-73 | the scan settles on -1 iff no candidate is a hit nearer than FLT_MAX; otherwise on a hit whose t is at most every hit's t and strictly below that of every earlier hit |
| HitScan.NearestInStep | renderer/scene/Scene.cpp:56-71 | one more candidate is one more step of the scan: it replaces the best exactly when it is a hit with strictly smaller t |
| HitScan.TriangleHit | renderer/scene/Scene.cpp:59-68 | a triangle is a candidate iff its test reports a hit, with that test's point, weights and t |
| HitScan.TriangleCandidates | renderer/scene/KdTree.cpp:63-66 | one candidate per listed index, in list order |
| HitScan.NearestTriangleIn | renderer/scene/KdTree.cpp:55-80 | None iff no listed triangle is hit nearer than FLT_MAX; otherwise a listed triangle's own test result with t at most every listed hit's t and below that of every hit listed before it |
| HitScan.Range | renderer/scene/Scene.cpp:56 | the brute-force scan visits indices 0 .. n-1 in order |
| HitScan.SphereHitAt | renderer/scene/Scene.cpp:90-100 | a sphere candidate carries that sphere's index |
| HitScan.SphereCandidates | renderer/scene/Scene.cpp:87-90 | one candidate per sphere, in index order |
| KdTree.SplitAxis.Code | renderer/scene/KdTree.h:21-27 | the axis encoding is x = 0, y = 1, z = 2, no split = 3 |
| KdTree.AxisOf | renderer/scene/KdTree.cpp:196 | static_cast of a component 0..2 gives the axis with that code, never no-split |
| KdTree.DefaultNode | renderer/scene/KdTree.h:31-34 | a default node is a leaf: no split axis, no children, no data |
| KdTree.RootSplitsOnX | renderer/scene/KdTree.h:72 | the default parent axis -1 makes the root split on x |
| KdTree.AxesCycle | renderer/scene/KdTree.cpp:174 | an inner child of an inner node splits on the next axis, (axis + 1) mod 3 |
| KdTree.OwnBound | renderer/scene/KdTree.cpp:219 | the bound `size() < mCapacity` compares against once the int capacity is converted to `size_t`: the capacity itself when non-negative, at least 2^63 when negative, and at least 1 exactly when the capacity is not 0 |
| KdTree.DistributeSound | renderer/scene/KdTree.cpp:203-227 | after the distribution loop every index is in the left list only, the right list only, the node's own list, or both child lists, exactly as its half-space tests and the own list's room decide; the own list never exceeds OwnBound of the capacity; with a non-zero capacity each child list is shorter than the input when a straddler exists |
| KdTree.NegativeCapacityKeepsStraddlers | renderer/scene/KdTree.cpp:203-227 | with a negative capacity every straddling triangle stays in the node's own list, so the left list holds only triangles missing the upper half-space and the right list only ones missing the lower half-space |
| KdTree.Insert | renderer/scene/KdTree.cpp:193 | inserting into a sorted list gives a sorted permutation with one more element |
| KdTree.InsertionSort | renderer/scene/KdTree.cpp:193 | a sorted permutation of any index list exists |
| KdTree.CountIfPermutation | renderer/scene/KdTree.cpp:193-195 | counting entries that satisfy a predicate depends only on the multiset of entries |
| KdTree.RankValueUnique | renderer/scene/KdTree.cpp:193-195 | at most one value has a given rank among the keys |
| KdTree.MedianHasMiddleRank | renderer/scene/KdTree.cpp:193-195 | the split value, found at position n/2 of any sorted permutation, is the (n/2)-th smallest centroid key, whatever order the sort leaves ties in |
| KdTree.NearestTriangleOpt | renderer/scene/KdTree.cpp:88-141 | the query as written: no hit for a null node or a box miss; any hit is a triangle stored in the subtree, with its own test result |
| KdTree.NearestTriangleOptStrictLeast | renderer/scene/KdTree.cpp:113-141 | when one of the own, left and right results is strictly nearer than the other two (which may tie with each other), the as-written merge returns that candidate and so the least distance; with SharedLeast this covers every input |
| KdTree.NearestTriangleOptSharedLeast | renderer/scene/KdTree.cpp:121-141 | when two or three of the candidates share the least distance (all three missing included), the as-written merge returns the right child's result, whatever it is |
| KdTree.NearestTriangleOptOwnLeftTie | renderer/scene/KdTree.cpp:121-141 | own and left results at the same distance with the right one no nearer: the result is the right child's, so the query misses when the right child misses |
| KdTree.NearestTriangleOptAllMiss | renderer/scene/KdTree.cpp:113-141 | the query misses when the own list and both children miss, and misses only where the right child misses |
| KdTree.TieFallsThroughToRight | renderer/scene/KdTree.cpp:121-141 | a two-triangle tree where the own and left results tie and the right child is empty: the as-written query reports no hit while the brute-force scan and the corrected query report one |
| KdTree.NearestTriangleOptFixed | renderer/scene/KdTree.cpp:88-141 | the corrected query: no hit for a null node or a box miss; any hit is a triangle stored in the subtree, with its own test result |
| KdTree.FixedMergeIsMinimum | renderer/scene/KdTree.cpp:113-141 | the corrected merge returns the least of the three distances and misses only when all three miss |
| KdTree.HitSideTouches | renderer/scene/KdTree.cpp:205-208 | with an exact solver, a triangle hit on one side of a plane meets that closed half-space |
| KdTree.HitInBox | renderer/scene/KdTree.cpp:92 | a box holding a triangle's vertices holds its hit point |
| KdTree.FixedQueryFindsCovered | renderer/scene/KdTree.cpp:92-141 | a triangle covered by a subtree and hit inside the subtree's box is matched by a corrected-query hit no farther away |
| KdTree.FixedQueryMatchesBruteForce | renderer/scene/KdTree.cpp:88-141 | on a built tree with a sound box test and an exact solver, the corrected query misses iff the brute-force scan misses and otherwise hits at the same distance |
| KdTree.BruteForceNoFartherThan | renderer/scene/Scene.cpp:48-73 | the brute-force scan reports a hit no farther than any visible hit |
| KdTree.Grow | renderer/scene/KdTree.cpp:29-37 | the grown box contains the old box and the point, each bound being the min or max of the old bound and the coordinate |
| KdTree.GrowByVerticesBounds | renderer/scene/KdTree.cpp:29-37 | growing by a triangle's vertices keeps the old box and takes in each vertex |
| KdTree.SceneBox | renderer/scene/KdTree.cpp:23-38 | the scene box contains its initial value and every vertex of every triangle |
| KdTree.InnerNodeSound | renderer/scene/KdTree.cpp:193-236 | an inner node assembled from a distribution of a permutation of the indices and from children built from the child lists is well formed, covers every index and stores only those indices |
| KdTree.KdTree.constructor | renderer/scene/KdTree.cpp:8-12 | the tree keeps the triangle list and the capacity and starts empty; any non-zero C++ `int` capacity, negative ones included |
| KdTree.KdTree.ComputeCentersAndSceneBox | renderer/scene/KdTree.cpp:21-38 | the first loop of BuildFromListOfTriangles: every centre of mass is its triangle's centroid and the box is the scene box grown from the initial box; the root is untouched |
| KdTree.KdTree.BuildFromListOfTriangles | renderer/scene/KdTree.cpp:19-50 | computes every centroid and the scene box, builds the root from indices 0 .. n-1, returns true; the root is null iff there are no triangles, and otherwise has the scene box |
| KdTree.KdTree.Build | renderer/scene/KdTree.cpp:144-240 | no node for no indices; a leaf holding exactly the indices in order when they fit the capacity; otherwise an inner node on the next axis at the median centroid, whose own list holds at most OwnBound(capacity) straddlers, with children boxes cut at the split value and the caller's vector cleared; the result is well formed, covers every index and stores only those indices |
| KdTree.KdTree.SortByCentroid | renderer/scene/KdTree.cpp:177-193 | the indices come back as a permutation sorted by centroid component |
| KdTree.KdTree.DistributeToHalfSpaces | renderer/scene/KdTree.cpp:199-227 | the loop's three lists are those of the distribution function |
| KdTree.KdTree.NearestTriangleInSubset | renderer/scene/KdTree.cpp:52-81 | returns the nearest-hit scan's index (-1 for none) and writes its point, weights and t; the out-values are untouched when nothing is hit |
| KdTree.KdTree.NearestTriangle | renderer/scene/KdTree.h:89-94 | the as-written query on the root; any hit is a stored triangle's own test result |
| KdTree.KdTree.NearestTriangleNoNearerThanBruteForce | renderer/scene/KdTree.h:89-94 | whenever the tree query reports a triangle, the brute-force scan over all triangles reports one at a distance no greater; the converse fails (TieFallsThroughToRight) |
| SceneParser.LowerLowers | renderer/scene/Scene.cpp:117 | lower-casing keeps the length, maps each character on its own and leaves no upper-case letter |
| SceneParser.LowerIdempotent | renderer/scene/Scene.cpp:117 | lower-casing twice is lower-casing once |
| SceneParser.ParseVectorAttribute | renderer/scene/Scene.cpp:112-134 | succeeds iff the stream is good and the words are the name (any case) and three numbers; then it consumes four words, keeps the message and reads the three numbers; the stream never moves back |
| SceneParser.ParseScalarAttribute | renderer/scene/Scene.cpp:137-159 | as above with one number and two words |
| SceneParser.AttributeFailures | renderer/scene/Scene.cpp:115-131 | a missing or different name gives the "expected attribute" message and keeps the target; a different name is consumed on a good stream without failing it, while a failed stream or the end of input fails it without moving; numbers that do not read give the "incorrect attribute" message and fail the stream, the scalar holding 0 after a word that is no number and its old value when the input ends after the name |
| SceneParser.ParseField | renderer/scene/Scene.cpp:112-159 | the overload for an attribute reads exactly when the words have its shape, then consumes exactly those words; on failure the message names the attribute |
| SceneParser.ParseBlock | renderer/scene/Scene.cpp:212-216 | a chain of attributes joined by && never moves the stream back |
| SceneParser.BlockShape | renderer/scene/Scene.cpp:212-216 | a block reads iff the stream is good and the words have the block's shape; then it consumes exactly its width and keeps the message |
| SceneParser.BlockStep | renderer/scene/Scene.cpp:212-216 | a block whose first attribute reads goes on with the rest from there |
| SceneParser.BlockValues | renderer/scene/Scene.cpp:212-216 | a block that reads has one value per attribute, each from that attribute's words |
| SceneParser.BlockFailure | renderer/scene/Scene.cpp:212-216 | a block that fails ends on the failure message of one of its attributes |
| SceneParser.ReadFromCons | renderer/scene/Scene.cpp:212-216 | reading the first attribute and then the rest reads the whole block |
| SceneFormat.VertexLayout | renderer/scene/Scene.cpp:212-216 | a vertex block is 18 words: pos:, nor:, dif:, spe: four words apart, then shi: |
| SceneFormat.SphereLayout | renderer/scene/Scene.cpp:238-242 | a sphere block is 16 words: pos: at 0, rad: at 4, dif: at 6, spe: at 10, shi: at 14 |
| SceneFormat.SettingsLayout | renderer/scene/Scene.cpp:259-308 | a light block is 8 words, a camera block 10, a background block 6, and where their numbers sit |
| Scene.BruteForceIsNearestTriangleIn | renderer/scene/Scene.cpp:45-74 | Scene::NearestTriangle is the subset scan over all indices 0 .. n-1 |
| Scene.BruteForceTriangleSound | renderer/scene/Scene.cpp:48-73 | None iff no triangle is hit nearer than FLT_MAX; otherwise a triangle's own test result with t at most every hit's t, the lowest index winning ties |
| Scene.BruteForceSphereSound | renderer/scene/Scene.cpp:79-105 | the same for the spheres |
| Scene.LitIffNoBlocker | renderer/scene/Scene.cpp:27-31 | a light is seen iff no triangle and no sphere is hit along the shadow ray within the light's distance plus eps |
| Scene.LitFromScans | renderer/scene/Scene.cpp:27-31 | the loop's test on the indices and distances the two scans return (-1 for none) holds iff the light is seen |
| Scene.DiffuseSumStep | renderer/scene/Scene.cpp:21-39 | one more light adds its diffuse term exactly when it is seen |
| Scene.DiffuseSumInShadow | renderer/scene/Scene.cpp:30-39 | lights that are all in shadow add nothing |
| Scene.AllInShadowIsAmbient | renderer/scene/Scene.cpp:30-42 | a fragment that sees no light gets exactly the ambient light |
| Scene.DiffuseNonNegative | renderer/scene/Scene.cpp:37 | the diffuse term of non-negative colours is non-negative |
| Scene.DiffuseSumNonNegative | renderer/scene/Scene.cpp:21-40 | with non-negative light colours and material the diffuse sum is non-negative |
| Scene.PhongAtLeastAmbient | renderer/scene/Scene.cpp:16-42 | with non-negative colours and material the result is at least the ambient light, channel by channel |
| Scene.ReadVertex | renderer/scene/Scene.cpp:207-228 | one pass of the vertex loop never moves the stream back |
| Scene.ReadVertices | renderer/scene/Scene.cpp:207-228 | several passes never move the stream back |
| Scene.FailureStays | renderer/scene/Scene.cpp:217-221 | once a vertex has failed, later passes change nothing |
| Scene.VertexBlock | renderer/scene/Scene.cpp:212-216 | a vertex block reads iff its 18 words have the vertex shape, and its five values come from them |
| Scene.VertexStep | renderer/scene/Scene.cpp:212-227 | a pass on a good read succeeds iff the next 18 words are a vertex block; it stores pos: as vertex i and dif:, spe:, nor:, shi: as column i of Kd, Ks, n and component i of the shininess |
| Scene.VerticesShape | renderer/scene/Scene.cpp:207-228 | the first n passes read iff the stream is good and the first n vertex blocks have the vertex shape; they then consume 18 words each |
| Scene.VerticesValues | renderer/scene/Scene.cpp:207-228 | after n passes that read, vertex j and column j of each material come from vertex block j, and the attributes carry the current index of refraction |
| Scene.TriangleBlock | renderer/scene/Scene.cpp:202-232 | a triangle block is three vertex blocks (54 words); when it reads, each vertex and material column comes from its block and the current index of refraction is stamped |
| Scene.ReadTriangle | renderer/scene/Scene.cpp:204-227 | the vertex loop of a triangle block leaves the stream, message, triangle, material and verdict that the vertex-loop function `ParseTriangle` gives, stopping at the first vertex block that fails |
| Scene.SphereBlock | renderer/scene/Scene.cpp:238-248 | a sphere block reads iff its 16 words have the sphere shape; the sphere and its attributes come from them |
| Scene.SettingsBlocks | renderer/scene/Scene.cpp:255-312 | light, camera and background blocks read iff their words have the block's shape; the light, camera placement and colour come from those words |
| Scene.ObjectStep | renderer/scene/Scene.cpp:202-318 | one pass of the object loop never moves the stream back |
| Scene.ObjectStepSound | renderer/scene/Scene.cpp:202-318 | a failed triangle, sphere or light block and an unknown type return false and append nothing; otherwise each list grows by at most the one object, primitive and attributes are appended together and carry the current index of refraction, which only n_refr changes |
| Scene.LoadNeedsAmbient | renderer/scene/Scene.cpp:173-187 | a file that cannot be opened fails with its path in the message and changes nothing; a load that succeeds began with amb: and three numbers, which become the ambient light |
| Scene.EndOfInputSucceeds | renderer/scene/Scene.cpp:194-200 | running out of words, or a failed stream, where a type is expected ends the load with success |
| Scene.LoadObjectsExtends | renderer/scene/Scene.cpp:190-321 | the object loop only appends: earlier lists are prefixes of the final ones, the ambient light is kept, and paired lists stay paired |
| Scene.NRefrStamped | renderer/scene/Scene.cpp:181-286 | with no n_refr word left, every triangle and sphere appended from there on carries the current index of refraction |
| Scene.UnknownTypeFails | renderer/scene/Scene.cpp:314-318 | an unknown type ends the load with false and a message naming it |
| Scene.ObjSkipsOneWord | renderer/scene/Scene.cpp:271-279 | obj consumes the next word and nothing else |
| Scene.CameraMismatchContinues | renderer/scene/Scene.cpp:287-301 | a camera block without pos: goes on after that word with the camera unchanged and the "expected attribute" message |
| Scene.BackgroundMismatchContinues | renderer/scene/Scene.cpp:302-312 | likewise for a background block without rgb: |
| Scene.FailedSettingsKept | renderer/scene/Scene.cpp:287-312 | a failed camera or background block never ends the load and leaves camera and background unchanged |
| Scene.LoadKeepsParallel | renderer/scene/Scene.cpp:230-247 | loading keeps every primitive paired with its attribute record |
| Scene.Scene.constructor | renderer/scene/Scene.h:33-36 | an empty scene with a default camera |
| Scene.Scene.NearestTriangle | renderer/scene/Scene.cpp:45-74 | returns the brute-force scan's index (-1 for none) and writes the winner's point, weights and t; the out-values are untouched when nothing is hit |
| Scene.Scene.NearestSphere | renderer/scene/Scene.cpp:76-106 | the same over the spheres, with the normal in place of the weights |
| Scene.Scene.ComputePhongIllumination | renderer/scene/Scene.cpp:13-43 | the loop returns the Phong function: the ambient light plus the diffuse terms of the lights that are seen (see LitIffNoBlocker, AllInShadowIsAmbient); Ks and alpha do not enter |
| Scene.Scene.Load | renderer/scene/Scene.cpp:170-322 | the new scene, verdict and message are those of the loader function `LoadScene`, whose behaviour the `Scene` lemmas above state; every primitive stays paired with its attribute record (Valid) |
| Config.WordLength | renderer/parsing/RenderingConfig.cpp:17 | the first word ends at the first blank |
| Config.WordLengthIs | renderer/parsing/RenderingConfig.cpp:17 | the first word is the longest blank-free prefix |
| Config.WordsAppend | renderer/parsing/RenderingConfig.cpp:17-19 | a text ending in a blank reads as its own words followed by those of what comes after |
| Config.WordThenBlank | renderer/parsing/RenderingConfig.cpp:17-19 | a word followed by one blank reads as that word alone |
| Config.ParseInt | renderer/parsing/RenderingConfig.cpp:19 | only a non-empty word can read as an int |
| Config.NatToStringDigits | renderer/parsing/RenderingConfig.cpp:45-50 | the decimal text of n is a non-empty digit string denoting n |
| Config.IntRoundTrip | renderer/parsing/RenderingConfig.cpp:19 | an int written with << reads back with >> as the same int, and its text is one word |
| Config.AtLeastOne | renderer/parsing/RenderingConfig.cpp:27 | (value > 0) ? value : 1 is at least 1 and keeps positive values |
| Config.LastValueIsLast | renderer/parsing/RenderingConfig.cpp:22-33 | the value found for a key is that of the last pair with that key |
| Config.LoadedSize | renderer/parsing/RenderingConfig.cpp:22-25 | w and h hold the last value read for their key, or their prior value if none was read |
| Config.LoadedCounts | renderer/parsing/RenderingConfig.cpp:26-31 | depth and num-threads hold the last value read, raised to 1 when not positive, or their prior value |
| Config.LoadedSwitches | renderer/parsing/RenderingConfig.cpp:28-33 | anti-aliasing and use-kd-tree are on iff the last value read is non-zero, or keep their prior value |
| Config.LoadSnoc | renderer/parsing/RenderingConfig.cpp:17-34 | one more pair whose value reads is applied after all earlier ones |
| Config.NonIntegerStops | renderer/parsing/RenderingConfig.cpp:17-20 | a value that is not an int ends the load: everything after it is ignored and earlier pairs stay applied |
| Config.WordsOfLine | renderer/parsing/RenderingConfig.cpp:45 | a line reads back as its key and its value's text |
| Config.WordsAfterLine | renderer/parsing/RenderingConfig.cpp:45-50 | reading on after a line adds its key and value; a line ends in a blank |
| Config.KeysAreWords | renderer/parsing/RenderingConfig.cpp:45-50 | none of the six keys contains a blank |
| Config.BoolText | renderer/parsing/RenderingConfig.cpp:48-50 | a switch is written as 1 or 0 |
| Config.SaveWords | renderer/parsing/RenderingConfig.cpp:45-50 | the saved text is twelve words: each key in the order w, h, depth, anti-aliasing, num-threads, use-kd-tree, followed by its value, switches as 1 or 0 |
| Config.SaveLoadRoundTrip | renderer/parsing/RenderingConfig.cpp:17-50 | loading the saved text restores all six fields, whatever the loading configuration held, when depth and thread count are at least 1 |
| Config.RenderingConfig.constructor | renderer/parsing/RenderingConfig.h:30-39 | 800 x 600, depth 4, anti-aliasing off (and one thread, no k-d tree) |
| Config.RenderingConfig.SetImgWidth | renderer/parsing/RenderingConfig.h:25 | stores the width as given and nothing else |
| Config.RenderingConfig.SetImgHeight | renderer/parsing/RenderingConfig.h:26 | stores the height as given and nothing else |
| Config.RenderingConfig.SetRecursionDepth | renderer/parsing/RenderingConfig.h:27 | stores the depth as given, without the loader's coercion, and nothing else |
| Config.RenderingConfig.SetAntiAliasingOn | renderer/parsing/RenderingConfig.h:28 | stores the switch and nothing else |
| Config.RenderingConfig.LoadFromFile | renderer/parsing/RenderingConfig.cpp:8-37 | a file that cannot be opened returns false and changes nothing; otherwise the pairs of its words are applied in order and the call returns true |
| Config.RenderingConfig.SaveIntoFile | renderer/parsing/RenderingConfig.cpp:39-53 | returns false and writes nothing when the file cannot be opened; otherwise writes the six lines |
| Image.RowInBuffer | renderer/img_buffer/ImgBuffer.h:40-43 | the bytes of an in-range row lie inside the w h 4 bytes of the image |
| Image.ChannelInBuffer | renderer/img_buffer/ImgBuffer.h:38-51 | for 0 <= x < w and 0 <= y < h, offset + 3 < 4 w h, and a channel's byte lies in its row |
| Image.RowsApart | renderer/img_buffer/ImgBuffer.h:40-43 | an earlier row ends no later than a later row starts |
| Image.ChannelsDisjoint | renderer/img_buffer/ImgBuffer.h:40-51 | distinct channels of in-range pixels are distinct bytes: pixels are disjoint 4-byte ranges |
| Image.ByteOwner | renderer/img_buffer/ImgBuffer.h:40-51 | every byte of the image is a channel of an in-range pixel |
| Image.RowOfIndex | renderer/img_buffer/ImgBuffer.h:40-43 | a pixel index below w h lies in a row below h |
| Image.ClearedPixels | renderer/img_buffer/ImgBuffer.h:54-58 | after Clear every channel of every pixel holds the value |
| Image.ImgBuffer.constructor | renderer/img_buffer/ImgBuffer.h:32-36 | records the buffer, the width and the height |
| Image.ImgBuffer.GetPixelChannel | renderer/img_buffer/ImgBuffer.h:48-51 | reads the byte at 4 (w y + x) + c, which lies inside the image |
| Image.ImgBuffer.SetPixelChannel | renderer/img_buffer/ImgBuffer.h:48-51 | a write through the returned reference changes that one byte only |
| Image.ImgBuffer.Clear | renderer/img_buffer/ImgBuffer.h:54-58 | sets each of the w h 4 bytes to the value and keeps every byte past them |
| RayTracing.Choose | renderer/ray_tracer/RayTracer.cpp:178-210 | no hit iff neither scan hits; the triangle iff it is hit and the sphere is not hit or hit no nearer, so a tie goes to the triangle |
| RayTracing.FresnelTerms | renderer/ray_tracer/RayTracer.cpp:235-265 | R + T = 1; a refracted ray exists iff \|n_refr - 1\| > eps; without one R = 1 |
| RayTracing.TraceRay | renderer/ray_tracer/RayTracer.cpp:162-274 | depth <= 0 gives the background; with depth left, no hit gives the background and a hit gives alpha 1 |
| RayTracing.Shade | renderer/ray_tracer/RayTracer.cpp:212-268 | the colour at a hit has alpha 1 |
| RayTracing.MissSeesBackground | renderer/ray_tracer/RayTracer.cpp:165-210 | a ray no primitive reports a hit for sees the background at every depth; a ray that hits something gets alpha 1 whenever depth is left |
| RayTracing.TieShadesTriangle | renderer/ray_tracer/RayTracer.cpp:178-179 | a triangle and a sphere hit at the same distance: the triangle is shaded |
| RayTracing.LastBounceIsLocal | renderer/ray_tracer/RayTracer.cpp:214-217 | at depth 1 a hit is local (1 - Ks) with alpha 1, with no recursive trace |
| RayTracing.MatteIgnoresDepth | renderer/ray_tracer/RayTracer.cpp:267 | a surface with Ks = 0 gets its local colour whatever the depth |
| RayTracing.SameMediumReflectsOnly | renderer/ray_tracer/RayTracer.cpp:238-267 | with \|n_refr - 1\| <= eps the colour is Ks times the reflected colour plus (1 - Ks) times the local colour |
| RayTracing.EnteringWeightsInUnit | renderer/ray_tracer/RayTracer.cpp:242-260 | entering a medium of positive index (0 <= cos_ti <= 1) with exact division, R and T both lie in [0, 1] |
| RayTracing.LeavingReflectanceExceedsOne | renderer/ray_tracer/RayTracer.cpp:244-260 | leaving a medium of index 1.5 at cos_ti = -1/2, the linear reflectance is 1.48 and the transmittance -0.48 |
| RayTracing.RaysBound | renderer/ray_tracer/RayTracer.cpp:228-264 | a trace at depth d >= 1 runs at most 2^d - 1 TraceRay invocations: at most two recursive calls per level, each one level deeper |
| RayTracing.SecondaryBound | renderer/ray_tracer/RayTracer.cpp:228-264 | the reflected and refracted traces of one hit run at most 2^d - 2 invocations |
| RayTracing.Quantize | renderer/ray_tracer/RayTracer.cpp:23-26 | any v >= 1 gives 255; v in [0, 1] gives the byte b with b <= 255 v < b + 1 |
| RayTracing.QuantizeMonotone | renderer/ray_tracer/RayTracer.cpp:23-26 | brighter non-negative values never give smaller bytes |
| RayTracing.StoreColor | renderer/ray_tracer/RayTracer.cpp:23-26 | the four writes give each channel of the pixel its quantised byte and keep every other byte |
| RayTracing.StorePixel | renderer/ray_tracer/RayTracer.cpp:17-26 | the buffer after the four writes is the stored colour at the pixel's offset |
| RayTracing.Row | renderer/ray_tracer/RayTracer.cpp:16 | the pixels of a row from left to right |
| RayTracing.RowMajorOrder | renderer/ray_tracer/RayTracer.cpp:15-28 | row-major order holds w h pixels, all in the image, pixel (x, y) at position w y + x, in strictly increasing (y, x) order, so each pixel exactly once |
| RayTracing.RowDoneKept | renderer/ray_tracer/RayTracer.cpp:51-65 | a finished row stays finished while only another row changes |
| RayTracing.OtherRowsKept | renderer/ray_tracer/RayTracer.cpp:51-65 | rendering one row leaves every other finished row finished |
| RayTracing.RowStep | renderer/ray_tracer/RayTracer.cpp:16-26 | storing pixel x extends the finished prefix of the row by one pixel |
| RayTracing.RenderRow | renderer/ray_tracer/RayTracer.cpp:16-27 | every pixel of the row holds the bytes of its traced colour, pixels are visited left to right, nothing outside the row changes |
| RayTracing.StripeMembers | renderer/ray_tracer/RayTracer.cpp:51 | row y is in the stripe from start iff start <= y < end and (y - start) mod n = 0 |
| RayTracing.StripeOfRow | renderer/ray_tracer/RayTracer.cpp:51 | row y lies in worker id's stripe iff id = (y - first) mod n |
| RayTracing.StripesPartition | renderer/ray_tracer/RayTracer.cpp:51-78 | the stripes of workers 0 .. n-1 partition the rows: each row belongs to worker (y - first) mod n and to no other |
| RayTracing.StripeInRange | renderer/ray_tracer/RayTracer.cpp:51 | a stripe's rows lie in [start, end) |
| RayTracing.UniformSum | renderer/ray_tracer/RayTracer.cpp:122-128 | summing i copies of one colour gives i times that colour |
| RayTracing.UniformSamples | renderer/ray_tracer/RayTracer.cpp:122-129 | supersampling a pixel whose samples all have one colour gives that colour |
| RayTracing.SumColors | renderer/ray_tracer/RayTracer.cpp:120-128 | the sampling loop returns the sum of the samples in index order |
| RayTracing.SuperSample | renderer/ray_tracer/RayTracer.cpp:119-129 | the n traced samples summed and scaled by 1/n |
| RayTracing.AntiAliasedUntouched | renderer/ray_tracer/RayTracer.cpp:103-135 | an image the pass leaves untouched satisfies the pass's relation |
| RayTracing.PixelKept | renderer/ray_tracer/RayTracer.cpp:107-134 | a pixel's relation carries over while only bytes outside it change |
| RayTracing.RowStatusKept | renderer/ray_tracer/RayTracer.cpp:103-135 | a row's relation carries over while only another row changes |
| RayTracing.RowAntiAliasedChain | renderer/ray_tracer/RayTracer.cpp:105-135 | two steps that keep or supersample each pixel make one |
| RayTracing.AntiAliasPixel | renderer/ray_tracer/RayTracer.cpp:107-135 | the buffer becomes PixelPass of its old bytes: the pixel gets the bytes of its supersampled colour when the brightness gradient of the current image exceeds the threshold, otherwise nothing changes |
| RayTracing.PixelPassKeepsOrStores | renderer/ray_tracer/RayTracer.cpp:107-135 | above the threshold the pixel holds its supersampled colour and no other byte changes; at or below it no byte changes |
| RayTracing.RowPassStep | renderer/ray_tracer/RayTracer.cpp:105-135 | one more pixel step extends the row pass from pixels 1 .. x-1 to 1 .. x |
| RayTracing.RowPassAntiAliased | renderer/ray_tracer/RayTracer.cpp:105-135 | the row pass up to pixel x keeps or supersamples pixels 1 .. x-1 and changes no other byte |
| RayTracing.RowPassSound | renderer/ray_tracer/RayTracer.cpp:105-136 | the whole row pass keeps or supersamples each interior pixel, keeps the first and last pixel and changes nothing outside the row |
| RayTracing.AntiAliasStep | renderer/ray_tracer/RayTracer.cpp:105-135 | the pixel step extends the anti-aliased prefix of the row by one pixel |
| RayTracing.RowAntiAliasedDone | renderer/ray_tracer/RayTracer.cpp:105 | at x = w - 1 the prefix relation is the row relation, with the first and last pixel kept |
| RayTracing.AntiAliasRow | renderer/ray_tracer/RayTracer.cpp:105-136 | the buffer ends as RowPass of its old bytes: pixels x = 1 .. w-2 in turn, each supersampled exactly when the gradient on the bytes its predecessors left exceeds the threshold (RowPassSound gives kept-or-supersampled and nothing outside the row) |
| RayTracing.AntiAliasedImageStep | renderer/ray_tracer/RayTracer.cpp:103-139 | one more anti-aliased row extends the pass's relation on the image |
| RayTracing.RenderedUnique | renderer/ray_tracer/RayTracer.cpp:9-33 | two buffers that hold every pixel's traced colour and agree beyond the image are equal, so the single-thread and striped renders draw the same image |
| RayTracing.RayTracer.constructor | renderer/ray_tracer/RayTracer.h:48 | the tracer starts with a default configuration |
| RayTracing.RayTracer.SetRenderingConfig | renderer/ray_tracer/RayTracer.h:37 | copies the configuration |
| RayTracing.RayTracer.RenderSequential | renderer/ray_tracer/RayTracer.cpp:13-28 | every pixel holds its traced colour, pixels are visited in row-major order, bytes beyond the image are kept |
| RayTracing.RayTracer.ParallelRender | renderer/ray_tracer/RayTracer.cpp:41-90 | worker id renders rows id, id + n, ... below h; with at least one worker every pixel holds its traced colour; with none nothing is drawn; bytes beyond the image are kept |
| RayTracing.RayTracer.AdaptiveAntiAliasing | renderer/ray_tracer/RayTracer.cpp:92-160 | worker id takes interior rows id + 1, id + 1 + n, ... below h - 1; interior pixels are kept or supersampled, border rows and columns and bytes beyond the image are kept; with no worker nothing changes |
| RayTracing.RayTracer.Render | renderer/ray_tracer/RayTracer.cpp:9-39 | one thread renders sequentially, any other count in stripes; then, only when anti-aliasing is on, the anti-aliasing pass runs with as many workers and 8 samples |

## Left out

- The Qt user interface under `gui/` is not part of this model: it holds widget and dialog plumbing.
- `Camera::CastRay` is a parameter (`castRay`), because it is glm perspective and matrix numerics. `Camera.cpp` is not part of this model.
- The 3x3 inverse, `normalize`, `sqrt`, `cos`, `sin` and float division are parameters, and float rounding, NaN and infinities are not modelled. The NaN square root of a discriminant in [-eps, 0) is modelled as the miss it produces.
- `IntersectionRayBB` is a parameter (`rayBox`), because its slab method relies on IEEE infinities. The tree-query lemmas assume it never rejects a box that contains a point of the ray (`BoxSound`).
- Threads, `join`, the `chrono` timing and `std::cout` are left out. The workers of `ParallelRender` and `AdaptiveAntiAliasing` run one after another in order of their id.
- RayTracing.RayTracer.AdaptiveAntiAliasing: states per pixel only "kept or supersampled", not which. The gradient reads neighbour pixels that other workers may already have rewritten, so under threads the choice depends on scheduling. Within one row, `AntiAliasRow` states the exact left-to-right rule; race freedom between rows is not claimed.
- RayTracing.RayTracer.Render: its anti-aliasing half states only the kept-or-supersampled relation of `AdaptiveAntiAliasing`, for the same scheduling reason.
- RayTracing.RayTracer.Render: requires a non-negative thread count. A negative count makes `std::vector<std::thread>(numThreads)` throw. A count of 0 draws nothing.
- RayTracing.RayTracer.AdaptiveAntiAliasing: requires numSuperSample >= 1. With 0 samples the source divides by zero.
- `kGradientThreshold` is not defined in any file of the model's sources. It is a parameter (`gradientThreshold`).
- RayTracing.Quantize: a negative channel value is reduced to its low byte after truncation. Converting a negative float to `unsigned char` is undefined behaviour in C++.
- C++ `int` overflow in the pixel offset `4 (w y + x)` and in `w h 4` is not modelled. Offsets are unbounded integers.
- Partial-token numeric reads are not modelled. A word either reads as a number as a whole or fails; `operator>>` can also read a prefix such as `12abc` and leave the rest.
- Reading and writing real files is left out. A scene file is its sequence of words, a configuration file is its text, and "cannot open" is an explicit `None` or `false`.
- `GetRenderingConfig` is not modelled as a separate member. The tracer's `configuration` field is public in the model.
- `RayTracer.h` declares `Render` and `ParallelRender` with `ImgBuffer&&` and a default of 8 threads. The .cpp is followed, and the thread count always comes from the configuration.
- Dead and debug code is left out: the commented-out `LoadObj`, `SubsetVariance` and the commented variance heuristic, the `SubdivideTriangle` stub, `Print`, `PrintPreorder`, `BoundingBox::Print` and `Scene::Log`.
- The specular term `Is` of `ComputePhongIllumination` is never added in the source. The model omits it and leaves Ks and the shininess unused there.
- The uninitialised split value of a default `KdTreeNode` is fixed at 0.
- KdTree.KdTree.BuildFromListOfTriangles: takes the initial scene box as a parameter. The default-constructed `BoundingBox` it starts from is not declared in any header.
- KdTree.KdTree.SortByCentroid: returns some sorted permutation, not the one `std::sort` picks. `std::sort` is unstable, so which straddlers enter a node's own list depends on the library.
- The tree is not used by `Scene`, as in the source, where `Scene::NearestTriangle` always scans every triangle.
- KdTree.KdTree.constructor: requires a non-zero capacity. With capacity 0, `Build` (renderer/scene/KdTree.cpp:144-240) never returns once a triangle is present. No index list fits a leaf, and the median triangle straddles its own split plane (CentroidOnPlaneStraddles). The own list has no room for it, so both children receive it again and the recursion goes on without end. A negative capacity is modelled: the comparison at renderer/scene/KdTree.cpp:219 converts it to a 64-bit `size_t` (`OwnBound`). Every straddler then stays in the own list, whose bound no list reaches (`NegativeCapacityKeepsStraddlers`), every node splits, and `Build` terminates because the median triangle never reaches a child.
- `GetPixelChannel`'s default channel R is not modelled: every call in the model names its channel.

## Findings

| source | as written | input that shows it | evidently intended | confidence | as-written member | corrected member |
|---|---|---|---|---|---|---|
| renderer/scene/KdTree.cpp:121-141 | the merge takes the own result only if strictly nearer than both others, then the left result only if strictly nearer than both others, else the right result, even when the right result is a miss | an inner node whose own list holds a triangle straddling x = 0 and whose left leaf holds a triangle wholly below x = 0, both hit at t = 1, with no right child: the query returns -1 while both triangles are hit | return the nearest of the three candidates, preferring the own result, then the left, on ties, so that the query agrees with the brute-force scan | not executed | KdTree.TieFallsThroughToRight | KdTree.FixedQueryMatchesBruteForce |

=== FILE: HitScan.dfy ===
/**
 * The "nearest hit so far" linear scan shared by KdTree::NearestTriangleInSubset,
 * Scene::NearestTriangle and Scene::NearestSphere: the running distance starts at FLT_MAX,
 * and a candidate that reports a hit replaces the current best only when its t is strictly
 * smaller, so the earliest candidate wins ties and a hit at t >= FLT_MAX is never taken.
 */
module HitScan {
  import opened Wrappers
  import opened Primitives
  import opened MathFunctions

  /**
   * A reported hit: the primitive index the scan returns and the values it writes to its
   * out-parameters (the intersection point, then the barycentric coordinates of a triangle
   * or the surface normal of a sphere, then the distance t).
   */
  datatype Hit = Hit(index: int, intersection: Vec3, aux: Vec3, t: real)

  /** A candidate the scan can accept: a hit strictly nearer than FLT_MAX. */
  predicate Visible(c: Option<Hit>) {
    c.Some? && c.value.t < FloatMax
  }

  /** The distance to beat after accepting candidate position `k` (-1: nothing yet). */
  function BestT(cands: seq<Option<Hit>>, k: int): real
    requires -1 <= k < |cands|
    requires k >= 0 ==> cands[k].Some?
  {
    if k < 0 then FloatMax else cands[k].value.t
  }

  /**
   * The position the scan settles on, -1 when it accepts nothing: the first candidate
   * whose distance is the least among all hits, provided that distance is below FLT_MAX.
   */
  function NearestIn(cands: seq<Option<Hit>>): (k: int)
    ensures -1 <= k < |cands|
    ensures k >= 0 ==> Visible(cands[k])
    ensures k < 0 <==> forall i :: 0 <= i < |cands| ==> !Visible(cands[i])
    ensures k >= 0 ==> forall i :: 0 <= i < |cands| && cands[i].Some? ==> cands[k].value.t <= cands[i].value.t
    ensures k >= 0 ==> forall i :: 0 <= i < k && cands[i].Some? ==> cands[k].value.t < cands[i].value.t
  {
    if |cands| == 0 then -1
    else
      var prefix := cands[..|cands| - 1];
      var k := NearestIn(prefix);
      var last := |cands| - 1;
      assert forall i :: 0 <= i < last ==> cands[i] == prefix[i];
      if cands[last].Some? && cands[last].value.t < BestT(prefix, k) then last else k
  }

  /** Extending the candidate list by one element is one more step of the scan. */
  lemma NearestInStep(cands: seq<Option<Hit>>, i: int)
    requires 0 <= i < |cands|
    ensures var k := NearestIn(cands[..i]);
      NearestIn(cands[..i + 1])
        == if cands[i].Some? && cands[i].value.t < BestT(cands[..i], k) then i else k
  {
    assert cands[..i + 1][..i] == cands[..i];
  }

  /** The scan's verdict: the candidate it accepts, or None for index -1. */
  function Nearest(cands: seq<Option<Hit>>): Option<Hit> {
    var k := NearestIn(cands);
    if k < 0 then None else cands[k]
  }

  // ---------------------------------------------------------------------------
  // Triangles

  /** What IntersectionRayTriangle reports for triangle `i`, as a candidate. */
  function TriangleHit(tris: seq<Triangle>, i: int, r: Vec3, o: Vec3, glm: Glm): (c: Option<Hit>)
    requires 0 <= i < |tris|
    ensures c.Some? <==> IntersectionRayTriangle(tris[i], r, o, glm).hit
    ensures c.Some? ==> var res := IntersectionRayTriangle(tris[i], r, o, glm);
      c.value == Hit(i, res.intersection, res.baryCoord, res.t)
  {
    var res := IntersectionRayTriangle(tris[i], r, o, glm);
    if res.hit then Some(Hit(i, res.intersection, res.baryCoord, res.t)) else None
  }

  /** Every listed index addresses one of `n` primitives. */
  predicate IndicesIn(subset: seq<int>, n: int) {
    forall k :: 0 <= k < |subset| ==> 0 <= subset[k] < n
  }

  /** The candidates of a scan over the triangles listed in `subset`, in that order. */
  function TriangleCandidates(tris: seq<Triangle>, subset: seq<int>, r: Vec3, o: Vec3, glm: Glm): (cands: seq<Option<Hit>>)
    requires IndicesIn(subset, |tris|)
    ensures |cands| == |subset|
    ensures forall k :: 0 <= k < |subset| ==> cands[k] == TriangleHit(tris, subset[k], r, o, glm)
  {
    seq(|subset|, k requires 0 <= k < |subset| => TriangleHit(tris, subset[k], r, o, glm))
  }

  /**
   * The nearest triangle of `subset` along the ray: None exactly when no listed triangle
   * reports a hit nearer than FLT_MAX; otherwise a listed triangle's own test result whose
   * t is at most that of every listed hit, and strictly less than that of every hit listed
   * before it.
   */
  function NearestTriangleIn(tris: seq<Triangle>, subset: seq<int>, r: Vec3, o: Vec3, glm: Glm): (h: Option<Hit>)
    requires IndicesIn(subset, |tris|)
    ensures h.None? <==> forall k :: 0 <= k < |subset| ==> !Visible(TriangleHit(tris, subset[k], r, o, glm))
    ensures h.Some? ==> h.value.t < FloatMax && exists k :: 0 <= k < |subset| && h.value.index == subset[k]
    ensures h.Some? ==> 0 <= h.value.index < |tris| && TriangleHit(tris, h.value.index, r, o, glm) == h
    ensures h.Some? ==> forall k :: 0 <= k < |subset| && TriangleHit(tris, subset[k], r, o, glm).Some? ==>
      h.value.t <= TriangleHit(tris, subset[k], r, o, glm).value.t
  {
    var cands := TriangleCandidates(tris, subset, r, o, glm);
    var k := NearestIn(cands);
    if k < 0 then None else cands[k]
  }

  /** The indices 0 .. n-1 in increasing order: the brute-force scans visit every primitive. */
  function Range(n: nat): (s: seq<int>)
    ensures |s| == n && forall k :: 0 <= k < n ==> s[k] == k
  {
    seq(n, k => k)
  }

  // ---------------------------------------------------------------------------
  // Spheres

  /** What IntersectionRaySphere reports for sphere `i`, as a candidate (aux = the normal). */
  function SphereHitAt(spheres: seq<Sphere>, i: int, r: Vec3, o: Vec3, glm: Glm): (c: Option<Hit>)
    requires 0 <= i < |spheres|
    ensures c.Some? ==> c.value.index == i
  {
    match IntersectionRaySphere(spheres[i], r, o, glm)
    case None => None
    case Some(res) => Some(Hit(i, res.intersection, res.normal, res.t))
  }

  function SphereCandidates(spheres: seq<Sphere>, r: Vec3, o: Vec3, glm: Glm): (cands: seq<Option<Hit>>)
    ensures |cands| == |spheres|
    ensures forall i :: 0 <= i < |spheres| ==> cands[i] == SphereHitAt(spheres, i, r, o, glm)
  {
    seq(|spheres|, i requires 0 <= i < |spheres| => SphereHitAt(spheres, i, r, o, glm))
  }
}

=== FILE: ImgBuffer.dfy ===
/**
 * The image buffer (renderer/img_buffer/ImgBuffer.h): a w x h image of 32-bit ARGB pixels
 * over a byte array the caller owns. Pixel (x, y) is the four bytes from offset
 * 4 (w y + x), channel c is the byte c of those four, in the order B, G, R, A (a
 * little-endian 0xAARRGGBB word). Nothing checks the coordinates: the properties below say
 * what holds for coordinates inside the image.
 */
module Image {

  newtype byte = x: int | 0 <= x < 256

  /** k_ARGB32_Size: bytes per pixel. */
  const PixelSize: int := 4

  /** The channel constants of the ARGB32 layout. */
  const ChannelB: int := 0
  const ChannelG: int := 1
  const ChannelR: int := 2
  const ChannelA: int := 3

  predicate IsChannel(c: int) {
    0 <= c < PixelSize
  }

  predicate InImage(w: int, h: int, x: int, y: int) {
    0 <= x < w && 0 <= y < h
  }

  /** GetPixel(x, y): the offset of the pixel's first byte. */
  function PixelOffset(w: int, x: int, y: int): int {
    PixelSize * (w * y + x)
  }

  /** GetPixelChannel(x, y, c): the offset of one channel's byte. */
  function ChannelOffset(w: int, x: int, y: int, c: int): int {
    PixelOffset(w, x, y) + c
  }

  /** The first byte of row y. */
  function RowStart(w: int, y: int): int {
    PixelOffset(w, 0, y)
  }

  /** The number of bytes the image covers, as Clear computes it: w h 4. */
  function ImageBytes(w: int, h: int): int {
    w * h * PixelSize
  }

  lemma MulMono(a: int, b: int, c: int)
    requires 0 <= a && b <= c
    ensures a * b <= a * c
  {
  }

  /** The bytes of row y lie inside the image when the row does. */
  lemma RowInBuffer(w: int, h: int, y: int)
    requires 0 <= w && 0 <= y < h
    ensures 0 <= RowStart(w, y) && RowStart(w, y) + PixelSize * w <= ImageBytes(w, h)
  {
    MulMono(w, y + 1, h);
  }

  /** Every channel of a pixel inside the image addresses a byte of the image: offset + 3 < 4 w h. */
  lemma ChannelInBuffer(w: int, h: int, x: int, y: int, c: int)
    requires InImage(w, h, x, y) && IsChannel(c)
    ensures 0 <= PixelOffset(w, x, y) && PixelOffset(w, x, y) + ChannelA < ImageBytes(w, h)
    ensures RowStart(w, y) <= ChannelOffset(w, x, y, c) < RowStart(w, y) + PixelSize * w
    ensures 0 <= ChannelOffset(w, x, y, c) < ImageBytes(w, h)
  {
    RowInBuffer(w, h, y);
  }

  /** Rows do not overlap: an earlier row ends where, or before, a later one starts. */
  lemma RowsApart(w: int, y1: int, y2: int)
    requires 0 <= w && y1 < y2
    ensures RowStart(w, y1) + PixelSize * w <= RowStart(w, y2)
  {
    MulMono(w, y1 + 1, y2);
  }

  /** Distinct channels of in-range pixels occupy distinct bytes: pixels are disjoint 4-byte ranges. */
  lemma ChannelsDisjoint(w: int, h: int, x1: int, y1: int, c1: int, x2: int, y2: int, c2: int)
    requires InImage(w, h, x1, y1) && InImage(w, h, x2, y2) && IsChannel(c1) && IsChannel(c2)
    requires (x1, y1, c1) != (x2, y2, c2)
    ensures ChannelOffset(w, x1, y1, c1) != ChannelOffset(w, x2, y2, c2)
  {
    if y1 < y2 {
      RowsApart(w, y1, y2);
    } else if y2 < y1 {
      RowsApart(w, y2, y1);
    }
    ChannelInBuffer(w, h, x1, y1, c1);
    ChannelInBuffer(w, h, x2, y2, c2);
  }

  /** The pixel and channel a byte of the image belongs to. */
  function ByteOwner(w: int, h: int, i: int): (owner: (int, int, int))
    requires 0 < w && 0 <= i < ImageBytes(w, h)
    ensures InImage(w, h, owner.0, owner.1) && IsChannel(owner.2)
    ensures ChannelOffset(w, owner.0, owner.1, owner.2) == i
  {
    var p := i / PixelSize;
    RowOfIndex(w, h, p);
    (p % w, p / w, i % PixelSize)
  }

  /** A pixel index below w h lies in a row below h. */
  lemma RowOfIndex(w: int, h: int, p: int)
    requires 0 < w && 0 <= p < w * h
    ensures 0 <= p / w < h
  {
    if p / w >= h {
      MulMono(w, h, p / w);
    }
  }

  class ImgBuffer {
    const buffer: array<byte>
    const width: int
    const height: int

    /** The buffer is the caller's: the constructor only records it and the size. */
    constructor(buffer: array<byte>, w: int, h: int)
      ensures this.buffer == buffer && width == w && height == h
    {
      this.buffer := buffer;
      width := w;
      height := h;
    }

    /** The buffer holds at least the w h 4 bytes of the image. */
    predicate Valid() {
      0 <= width && 0 <= height && ImageBytes(width, height) <= buffer.Length
    }

    function Width(): int {
      width
    }

    function Height(): int {
      height
    }

    /** Reading through GetPixelChannel(x, y, c). */
    method GetPixelChannel(x: int, y: int, c: int) returns (v: byte)
      requires Valid() && InImage(width, height, x, y) && IsChannel(c)
      ensures 0 <= ChannelOffset(width, x, y, c) < ImageBytes(width, height)
      ensures v == buffer[ChannelOffset(width, x, y, c)]
    {
      ChannelInBuffer(width, height, x, y, c);
      v := buffer[ChannelOffset(width, x, y, c)];
    }

    /** Writing through the reference GetPixelChannel(x, y, c) returns: one byte changes. */
    method SetPixelChannel(x: int, y: int, c: int, v: byte)
      requires Valid() && InImage(width, height, x, y) && IsChannel(c)
      modifies buffer
      ensures 0 <= ChannelOffset(width, x, y, c) < ImageBytes(width, height)
      ensures buffer[..] == old(buffer[..])[ChannelOffset(width, x, y, c) := v]
    {
      ChannelInBuffer(width, height, x, y, c);
      buffer[ChannelOffset(width, x, y, c)] := v;
    }

    /** Clear(value): std::fill over the w h 4 bytes of the image; bytes past them are kept. */
    method Clear(value: byte)
      requires Valid()
      modifies buffer
      ensures forall i :: 0 <= i < ImageBytes(width, height) ==> buffer[i] == value
      ensures forall i :: ImageBytes(width, height) <= i < buffer.Length ==> buffer[i] == old(buffer[i])
    {
      var n := ImageBytes(width, height);
      var i := 0;
      while i < n
        invariant 0 <= i <= n
        invariant forall j :: 0 <= j < i ==> buffer[j] == value
        invariant forall j :: i <= j < buffer.Length ==> buffer[j] == old(buffer[j])
      {
        buffer[i] := value;
        i := i + 1;
      }
    }
  }

  /** After Clear every channel of every pixel of the image holds the value. */
  lemma ClearedPixels(w: int, h: int, b: seq<byte>, value: byte)
    requires 0 <= w && 0 <= h && ImageBytes(w, h) <= |b|
    requires forall i :: 0 <= i < ImageBytes(w, h) ==> b[i] == value
    ensures forall x, y, c :: InImage(w, h, x, y) && IsChannel(c) ==>
      0 <= ChannelOffset(w, x, y, c) < ImageBytes(w, h) && b[ChannelOffset(w, x, y, c)] == value
  {
    forall x, y, c | InImage(w, h, x, y) && IsChannel(c)
      ensures 0 <= ChannelOffset(w, x, y, c) < ImageBytes(w, h) && b[ChannelOffset(w, x, y, c)] == value
    {
      ChannelInBuffer(w, h, x, y, c);
    }
  }
}

=== FILE: KdTree.dfy ===
/**
 * The relaxed 3-d tree over triangle indices (renderer/scene/KdTree.h and KdTree.cpp).
 *
 * A node is a value: the tree is built once, bottom-up, and never changed afterwards, so
 * node pointers become the `KdTreeNode` datatype (null is `Nil`). The builder itself is the
 * `KdTree` class, whose methods fill the centre-of-mass list and the root in place.
 * std::sort is modelled as "some permutation of the indices sorted by centroid key", since it
 * is unstable and the order of equal keys decides which straddlers enter a node's own list.
 */
module KdTree {
  import opened Wrappers
  import opened Primitives
  import opened MathFunctions
  import opened HitScan

  // ---------------------------------------------------------------------------
  // Nodes

  /** SplitAxis: k_split_x, k_split_y, k_split_z, k_no_split. */
  datatype SplitAxis = SplitX | SplitY | SplitZ | NoSplit {
    /** The enumerator's value: x = 0, y = 1, z = 2, no split = 3. */
    function Code(): (c: int)
      ensures 0 <= c <= 3
      ensures c == 3 <==> this == NoSplit
    {
      match this
      case SplitX => 0
      case SplitY => 1
      case SplitZ => 2
      case NoSplit => 3
    }
  }

  /** static_cast<SplitAxis>(component) for a component 0, 1 or 2. */
  function AxisOf(component: int): (a: SplitAxis)
    requires 0 <= component < 3
    ensures a.Code() == component && a != NoSplit
  {
    if component == 0 then SplitX else if component == 1 then SplitY else SplitZ
  }

  /** A tree node: Nil is the null pointer; `data` is the node's own list of triangle indices. */
  datatype KdTreeNode =
    | Nil
    | Node(axis: SplitAxis, splitValue: real, lft: KdTreeNode, rgt: KdTreeNode, box: BoundingBox, data: seq<int>)

  predicate IsLeaf(node: KdTreeNode) {
    node.Node? && node.axis == NoSplit && node.lft == Nil && node.rgt == Nil
  }

  /**
   * KdTreeNode(): no split axis, no children, no data. The source leaves the split value
   * uninitialised; the model fixes it at 0.
   */
  function DefaultNode(box: BoundingBox): (node: KdTreeNode)
    ensures IsLeaf(node) && node.data == [] && node.box == box
  {
    Node(NoSplit, 0.0, Nil, Nil, box, [])
  }

  /** The default capacity of the KdTree constructor. */
  const DefaultCapacity := 8

  /** 2^64: a negative `int` capacity compared with a 64-bit `size_t` wraps by this much. */
  const SizeTModulus := 0x1_0000_0000_0000_0000

  /** The capacity is a C++ `int`: 32 bits, two's complement. */
  predicate IsInt(cap: int) {
    -0x8000_0000 <= cap < 0x8000_0000
  }

  /**
   * The capacity as the own list's `size()` sees it: `size() < mCapacity` converts the int
   * capacity to `size_t`, so a negative capacity becomes a bound of at least 2^63.
   */
  function OwnBound(cap: int): (b: int)
    ensures cap >= 0 ==> b == cap
    ensures IsInt(cap) && cap < 0 ==> b >= SizeTModulus / 2
    ensures IsInt(cap) ==> (cap != 0 <==> b >= 1)
  {
    if cap < 0 then cap + SizeTModulus else cap
  }

  /** The default parent axis of Build, which makes the root split on x. */
  const RootParentAxis := -1

  /** The root splits on x: (RootParentAxis + 1) mod 3 is 0. */
  lemma RootSplitsOnX()
    ensures AxisOf((RootParentAxis + 1) % 3) == SplitX
  {
  }

  /** Index `y` is stored in some node of the tree. */
  ghost predicate InTree(node: KdTreeNode, y: int) {
    node.Node? && (y in node.data || InTree(node.lft, y) || InTree(node.rgt, y))
  }

  /** Every index stored anywhere in the tree addresses one of `n` triangles. */
  predicate TreeIndicesIn(node: KdTreeNode, n: int) {
    node.Node? ==> IndicesIn(node.data, n) && TreeIndicesIn(node.lft, n) && TreeIndicesIn(node.rgt, n)
  }

  /**
   * The shape Build gives a subtree built under a parent splitting on `parentAxis`: a leaf has
   * no children; an inner node splits on the next axis round-robin, and its children's boxes
   * are its own box cut at the split value, below for the left child and above for the right.
   */
  ghost predicate WellFormed(node: KdTreeNode, parentAxis: int) {
    match node
    case Nil => true
    case Node(axis, v, l, r, box, _) =>
      if axis == NoSplit then l == Nil && r == Nil
      else
        && -1 <= parentAxis <= 2
        && axis == AxisOf((parentAxis + 1) % 3)
        && (l.Node? ==> l.box == Split(box, v, axis.Code(), -1))
        && (r.Node? ==> r.box == Split(box, v, axis.Code(), 1))
        && WellFormed(l, axis.Code())
        && WellFormed(r, axis.Code())
  }

  /** Below an inner node the axes go round x, y, z: each inner child splits on the next axis. */
  lemma AxesCycle(node: KdTreeNode, parentAxis: int)
    requires WellFormed(node, parentAxis) && node.Node? && node.axis != NoSplit
    ensures node.lft.Node? && node.lft.axis != NoSplit ==> node.lft.axis.Code() == (node.axis.Code() + 1) % 3
    ensures node.rgt.Node? && node.rgt.axis != NoSplit ==> node.rgt.axis.Code() == (node.axis.Code() + 1) % 3
  {
  }

  // ---------------------------------------------------------------------------
  // Classifying a triangle against the splitting plane

  /**
   * Triangle `x` meets the closed half-space below (kind < 0) or above (kind >= 0) the plane
   * coord[axis] = v, by IntersectionHalfSpaceTriangle.
   */
  predicate Touches(tris: seq<Triangle>, x: int, v: real, axis: int, kind: int)
    requires 0 <= axis < 3
  {
    0 <= x < |tris| && IntersectionHalfSpaceTriangle(tris[x], v, axis, kind)
  }

  /** The three lists the distribution loop fills: the node's own list and the two child lists. */
  datatype Parts = Parts(own: seq<int>, lft: seq<int>, rgt: seq<int>)

  /**
   * Where index `x` must be after distribution: left list if it meets only the lower
   * half-space, right list if only the upper one, and a straddler either in the node's own
   * list or in both child lists.
   */
  predicate Placed(tris: seq<Triangle>, p: Parts, x: int, v: real, axis: int)
    requires 0 <= axis < 3
  {
    var below, above := Touches(tris, x, v, axis, -1), Touches(tris, x, v, axis, 1);
    && (below && !above ==> x in p.lft)
    && (!below && above ==> x in p.rgt)
    && (below && above ==> x in p.own || (x in p.lft && x in p.rgt))
  }

  /**
   * One step of the distribution loop: a triangle meeting only the lower (upper) half-space
   * goes to the left (right) list; a straddler goes to the own list while it holds fewer than
   * `OwnBound(cap)` indices, and to both child lists after that.
   */
  function Place(tris: seq<Triangle>, cap: int, p: Parts, x: int, v: real, axis: int): Parts
    requires 0 <= axis < 3
  {
    var below, above := Touches(tris, x, v, axis, -1), Touches(tris, x, v, axis, 1);
    if below && !above then p.(lft := p.lft + [x])
    else if !below && above then p.(rgt := p.rgt + [x])
    else if below && above then
      if |p.own| < OwnBound(cap) then p.(own := p.own + [x])
      else p.(lft := p.lft + [x], rgt := p.rgt + [x])
    else p
  }

  /** The distribution loop of Build over `s`, one index at a time in order. */
  function Distribute(tris: seq<Triangle>, cap: int, s: seq<int>, v: real, axis: int): Parts
    requires 0 <= axis < 3
  {
    if |s| == 0 then Parts([], [], [])
    else Place(tris, cap, Distribute(tris, cap, s[..|s| - 1], v, axis), s[|s| - 1], v, axis)
  }

  /**
   * What distribution guarantees: every index is placed as `Placed` says, the lists only
   * hold indices of `s` that meet the corresponding half-spaces, the own list stays within
   * the capacity, and with a non-zero capacity a straddler in `s` makes the own list
   * non-empty, so that each child list is shorter than `s`.
   */
  lemma {:induction false} DistributeSound(tris: seq<Triangle>, cap: int, s: seq<int>, v: real, axis: int)
    requires 0 <= axis < 3
    ensures var p := Distribute(tris, cap, s, v, axis);
      && (|p.own| == 0 || |p.own| <= OwnBound(cap))
      && |p.own| + |p.lft| <= |s| && |p.own| + |p.rgt| <= |s|
      && IndicesIn(p.own, |tris|) && IndicesIn(p.lft, |tris|) && IndicesIn(p.rgt, |tris|)
      && (forall y :: y in p.own ==> y in s && Touches(tris, y, v, axis, -1) && Touches(tris, y, v, axis, 1))
      && (forall y :: y in p.lft ==> y in s && Touches(tris, y, v, axis, -1))
      && (forall y :: y in p.rgt ==> y in s && Touches(tris, y, v, axis, 1))
      && (forall x :: x in s ==> Placed(tris, p, x, v, axis))
      && (IsInt(cap) && cap != 0 ==> forall x :: x in s && Touches(tris, x, v, axis, -1) && Touches(tris, x, v, axis, 1) ==> |p.own| >= 1)
  {
    if |s| > 0 {
      var prefix := s[..|s| - 1];
      assert s == prefix + [s[|s| - 1]];
      DistributeSound(tris, cap, prefix, v, axis);
    }
  }

  /**
   * With a negative capacity the own list is never full (its bound is at least 2^63 once
   * converted to `size_t`), so every straddler stays at the node and the child lists get
   * only the triangles that lie on one side.
   */
  lemma {:induction false} NegativeCapacityKeepsStraddlers(tris: seq<Triangle>, cap: int, s: seq<int>, v: real, axis: int)
    requires 0 <= axis < 3 && IsInt(cap) && cap < 0 && |s| < SizeTModulus / 2
    ensures var p := Distribute(tris, cap, s, v, axis);
      && (forall x :: x in s && Touches(tris, x, v, axis, -1) && Touches(tris, x, v, axis, 1) ==> x in p.own)
      && (forall y :: y in p.lft ==> !Touches(tris, y, v, axis, 1))
      && (forall y :: y in p.rgt ==> !Touches(tris, y, v, axis, -1))
  {
    if |s| > 0 {
      var prefix := s[..|s| - 1];
      assert s == prefix + [s[|s| - 1]];
      NegativeCapacityKeepsStraddlers(tris, cap, prefix, v, axis);
      DistributeSound(tris, cap, prefix, v, axis);
    }
  }

  // ---------------------------------------------------------------------------
  // Sorting by centroid and the median split value

  /** The sort key of index `i`: component `axis` of its centre of mass. */
  function Key(cm: seq<Vec3>, axis: int, i: int): real
    requires 0 <= axis < 3 && 0 <= i < |cm|
  {
    cm[i].Get(axis)
  }

  /** `s` is in non-decreasing key order, as std::sort with a `<` comparison leaves it. */
  predicate SortedBy(cm: seq<Vec3>, axis: int, s: seq<int>)
    requires 0 <= axis < 3 && IndicesIn(s, |cm|)
  {
    forall i, j :: 0 <= i < j < |s| ==> Key(cm, axis, s[i]) <= Key(cm, axis, s[j])
  }

  /** Insertion of `x` into a sorted list: the witness that a sorted permutation exists. */
  ghost function Insert(cm: seq<Vec3>, axis: int, x: int, s: seq<int>): (r: seq<int>)
    requires 0 <= axis < 3 && IndicesIn(s, |cm|) && 0 <= x < |cm| && SortedBy(cm, axis, s)
    ensures multiset(r) == multiset(s) + multiset{x}
    ensures |r| == |s| + 1 && (r[0] == x || (|s| > 0 && r[0] == s[0]))
    ensures IndicesIn(r, |cm|) && SortedBy(cm, axis, r)
  {
    if |s| == 0 then [x]
    else if Key(cm, axis, x) <= Key(cm, axis, s[0]) then [x] + s
    else
      var tail := Insert(cm, axis, x, s[1..]);
      assert s == [s[0]] + s[1..];
      assert Key(cm, axis, s[0]) <= Key(cm, axis, tail[0]);
      [s[0]] + tail
  }

  ghost function InsertionSort(cm: seq<Vec3>, axis: int, s: seq<int>): (r: seq<int>)
    requires 0 <= axis < 3 && IndicesIn(s, |cm|)
    ensures multiset(r) == multiset(s) && IndicesIn(r, |cm|) && SortedBy(cm, axis, r)
  {
    if |s| == 0 then []
    else
      assert s == s[..|s| - 1] + [s[|s| - 1]];
      Insert(cm, axis, s[|s| - 1], InsertionSort(cm, axis, s[..|s| - 1]))
  }

  /** How many entries of `s` satisfy `p`. */
  ghost function CountIf(s: seq<int>, p: int -> bool): (c: nat)
    ensures c <= |s|
  {
    if |s| == 0 then 0 else (if p(s[0]) then 1 else 0) + CountIf(s[1..], p)
  }

  lemma {:induction false} CountIfConcat(a: seq<int>, b: seq<int>, p: int -> bool)
    ensures CountIf(a + b, p) == CountIf(a, p) + CountIf(b, p)
  {
    if |a| > 0 {
      assert (a + b)[1..] == a[1..] + b;
      CountIfConcat(a[1..], b, p);
    } else {
      assert a + b == b;
    }
  }

  /** Counting depends only on the multiset of entries, not on their order. */
  lemma {:induction false} CountIfPermutation(a: seq<int>, b: seq<int>, p: int -> bool)
    requires multiset(a) == multiset(b)
    ensures CountIf(a, p) == CountIf(b, p)
    decreases |a|
  {
    if |a| == 0 {
      assert |b| == |multiset(b)| == 0;
    } else {
      var x := a[0];
      assert x in multiset(a);
      var k :| 0 <= k < |b| && b[k] == x;
      var rest := b[..k] + b[k + 1..];
      MultisetRemoveAt(b, k);
      MultisetRemoveAt(a, 0);
      assert a[..0] + a[1..] == a[1..];
      CountIfPermutation(a[1..], rest, p);
      CountIfRemoveAt(b, k, p);
    }
  }

  lemma MultisetRemoveAt(s: seq<int>, k: int)
    requires 0 <= k < |s|
    ensures multiset(s[..k] + s[k + 1..]) == multiset(s) - multiset{s[k]}
  {
    assert s == s[..k] + [s[k]] + s[k + 1..];
  }

  lemma CountIfRemoveAt(s: seq<int>, k: int, p: int -> bool)
    requires 0 <= k < |s|
    ensures CountIf(s, p) == CountIf(s[..k] + s[k + 1..], p) + (if p(s[k]) then 1 else 0)
  {
    assert s == s[..k] + s[k..];
    CountIfConcat(s[..k], s[k..], p);
    assert s[k..][1..] == s[k + 1..];
    CountIfConcat(s[..k], s[k + 1..], p);
  }

  /** A count over a sequence whose entries all satisfy `p` (or none do) is its length (or 0). */
  lemma {:induction false} CountIfExtremes(s: seq<int>, p: int -> bool)
    ensures (forall k :: 0 <= k < |s| ==> p(s[k])) ==> CountIf(s, p) == |s|
    ensures (forall k :: 0 <= k < |s| ==> !p(s[k])) ==> CountIf(s, p) == 0
  {
    if |s| > 0 {
      CountIfExtremes(s[1..], p);
    }
  }

  /** A predicate implied by another counts at least as many entries. */
  lemma {:induction false} CountIfMonotone(s: seq<int>, p: int -> bool, q: int -> bool)
    requires forall y :: p(y) ==> q(y)
    ensures CountIf(s, p) <= CountIf(s, q)
  {
    if |s| > 0 {
      CountIfMonotone(s[1..], p, q);
    }
  }

  function KeyBelow(cm: seq<Vec3>, axis: int, v: real): int -> bool
    requires 0 <= axis < 3
  {
    i => 0 <= i < |cm| && Key(cm, axis, i) < v
  }

  function KeyAtMost(cm: seq<Vec3>, axis: int, v: real): int -> bool
    requires 0 <= axis < 3
  {
    i => 0 <= i < |cm| && Key(cm, axis, i) <= v
  }

  /**
   * `v` is the key of rank `rank` (0-based) among the keys of `s`: fewer than rank + 1 keys
   * lie below it and more than `rank` lie at or below it. This depends only on the multiset
   * of keys, whatever order a sort leaves equal keys in.
   */
  ghost predicate IsRankValue(cm: seq<Vec3>, axis: int, s: seq<int>, v: real, rank: int)
    requires 0 <= axis < 3
  {
    CountIf(s, KeyBelow(cm, axis, v)) <= rank < CountIf(s, KeyAtMost(cm, axis, v))
  }

  /** At most one value has a given rank. */
  lemma RankValueUnique(cm: seq<Vec3>, axis: int, s: seq<int>, v1: real, v2: real, rank: int)
    requires 0 <= axis < 3
    requires IsRankValue(cm, axis, s, v1, rank) && IsRankValue(cm, axis, s, v2, rank)
    ensures v1 == v2
  {
    if v1 < v2 {
      CountIfMonotone(s, KeyAtMost(cm, axis, v1), KeyBelow(cm, axis, v2));
    } else if v2 < v1 {
      CountIfMonotone(s, KeyAtMost(cm, axis, v2), KeyBelow(cm, axis, v1));
    }
  }

  /** The key found at position n/2 of any sorted permutation has rank n/2. */
  lemma MedianHasMiddleRank(cm: seq<Vec3>, axis: int, sorted: seq<int>, s: seq<int>)
    requires 0 <= axis < 3 && IndicesIn(sorted, |cm|) && SortedBy(cm, axis, sorted)
    requires multiset(sorted) == multiset(s) && |s| > 0
    ensures |sorted| == |s|
    ensures IsRankValue(cm, axis, s, Key(cm, axis, sorted[|sorted| / 2]), |s| / 2)
  {
    assert |sorted| == |multiset(sorted)| == |multiset(s)| == |s|;
    var m := |sorted| / 2;
    var v := Key(cm, axis, sorted[m]);
    var below, atMost := KeyBelow(cm, axis, v), KeyAtMost(cm, axis, v);
    assert sorted == sorted[..m] + sorted[m..];
    CountIfConcat(sorted[..m], sorted[m..], below);
    CountIfExtremes(sorted[m..], below);
    assert sorted == sorted[..m + 1] + sorted[m + 1..];
    CountIfConcat(sorted[..m + 1], sorted[m + 1..], atMost);
    CountIfExtremes(sorted[..m + 1], atMost);
    CountIfPermutation(sorted, s, below);
    CountIfPermutation(sorted, s, atMost);
  }

  // ---------------------------------------------------------------------------
  // Where a triangle can be found

  /**
   * Where the query looks for triangle `x`: it is in the node's own list, or the node
   * splits and every child on whose side of the plane the triangle reaches covers it.
   */
  ghost predicate Covers(tris: seq<Triangle>, node: KdTreeNode, x: int) {
    match node
    case Nil => false
    case Node(axis, v, l, r, _, data) =>
      x in data
      || (&& axis != NoSplit
          && (Touches(tris, x, v, axis.Code(), -1) ==> Covers(tris, l, x))
          && (Touches(tris, x, v, axis.Code(), 1) ==> Covers(tris, r, x)))
  }

  /** Every vertex of every triangle lies in `box`. */
  ghost predicate VerticesIn(tris: seq<Triangle>, box: BoundingBox) {
    forall i, j :: 0 <= i < |tris| && 0 <= j < 3 ==> InBox(tris[i].V(j), box)
  }

  // ---------------------------------------------------------------------------
  // Queries

  /** The distance of a scan result, FLT_MAX for "no triangle" as the source resets it. */
  function TOf(h: Option<Hit>): real {
    if h.Some? then h.value.t else FloatMax
  }

  /**
   * NearestTriangleOpt as written: null node or box miss gives -1; otherwise the node's own
   * list is scanned, both children are queried, and the own result is taken if strictly
   * nearer than both others, else the left one if strictly nearer than both others, else
   * the right one, whatever it is.
   */
  function NearestTriangleOpt(tris: seq<Triangle>, node: KdTreeNode, r: Vec3, o: Vec3, glm: Glm): (h: Option<Hit>)
    requires TreeIndicesIn(node, |tris|)
    ensures node.Nil? || !glm.rayBox(r, o, node.box) ==> h.None?
    ensures h.Some? ==> && 0 <= h.value.index < |tris| && InTree(node, h.value.index)
                        && TriangleHit(tris, h.value.index, r, o, glm) == h && h.value.t < FloatMax
  {
    if node.Nil? || !glm.rayBox(r, o, node.box) then None
    else
      var curr := NearestTriangleIn(tris, node.data, r, o, glm);
      var lft := NearestTriangleOpt(tris, node.lft, r, o, glm);
      var rgt := NearestTriangleOpt(tris, node.rgt, r, o, glm);
      var tCurr, tLft, tRgt := TOf(curr), TOf(lft), TOf(rgt);
      if tCurr < Min(tLft, tRgt) then curr
      else if tLft < Min(tCurr, tRgt) then lft
      else rgt
  }

  /**
   * When one of the own, left and right results is strictly nearer than the other two (the
   * other two may tie, as two children that both miss do), the as-written merge returns it.
   */
  lemma NearestTriangleOptStrictLeast(tris: seq<Triangle>, node: KdTreeNode, r: Vec3, o: Vec3, glm: Glm)
    requires TreeIndicesIn(node, |tris|) && node.Node? && glm.rayBox(r, o, node.box)
    requires var c := TOf(NearestTriangleIn(tris, node.data, r, o, glm));
      var l, g := TOf(NearestTriangleOpt(tris, node.lft, r, o, glm)), TOf(NearestTriangleOpt(tris, node.rgt, r, o, glm));
      (c < l && c < g) || (l < c && l < g) || (g < c && g < l)
    ensures TOf(NearestTriangleOpt(tris, node, r, o, glm))
         == Min3(TOf(NearestTriangleIn(tris, node.data, r, o, glm)),
                 TOf(NearestTriangleOpt(tris, node.lft, r, o, glm)),
                 TOf(NearestTriangleOpt(tris, node.rgt, r, o, glm)))
    ensures var curr := NearestTriangleIn(tris, node.data, r, o, glm);
      var lft, rgt := NearestTriangleOpt(tris, node.lft, r, o, glm), NearestTriangleOpt(tris, node.rgt, r, o, glm);
      var h := NearestTriangleOpt(tris, node, r, o, glm);
      && (TOf(curr) < TOf(lft) && TOf(curr) < TOf(rgt) ==> h == curr)
      && (TOf(lft) < TOf(curr) && TOf(lft) < TOf(rgt) ==> h == lft)
      && (TOf(rgt) < TOf(curr) && TOf(rgt) < TOf(lft) ==> h == rgt)
  {
  }

  /**
   * When the least of the three distances is shared by two or three candidates, neither
   * strict comparison of the as-written merge holds and it returns the right child's
   * result, whatever that is: the own and left results tying for the least distance hand
   * the answer to the right subtree, even when it is farther or a miss.
   */
  lemma NearestTriangleOptSharedLeast(tris: seq<Triangle>, node: KdTreeNode, r: Vec3, o: Vec3, glm: Glm)
    requires TreeIndicesIn(node, |tris|) && node.Node? && glm.rayBox(r, o, node.box)
    requires var c := TOf(NearestTriangleIn(tris, node.data, r, o, glm));
      var l, g := TOf(NearestTriangleOpt(tris, node.lft, r, o, glm)), TOf(NearestTriangleOpt(tris, node.rgt, r, o, glm));
      var m := Min3(c, l, g);
      (c == m && l == m) || (c == m && g == m) || (l == m && g == m)
    ensures NearestTriangleOpt(tris, node, r, o, glm) == NearestTriangleOpt(tris, node.rgt, r, o, glm)
  {
  }

  /**
   * The own and left results at the same distance, the right one no nearer: the query
   * returns the right child's result, so a right subtree that misses makes the whole
   * query miss although the node's own list holds a hit.
   */
  lemma NearestTriangleOptOwnLeftTie(tris: seq<Triangle>, node: KdTreeNode, r: Vec3, o: Vec3, glm: Glm)
    requires TreeIndicesIn(node, |tris|) && node.Node? && glm.rayBox(r, o, node.box)
    requires var c := TOf(NearestTriangleIn(tris, node.data, r, o, glm));
      c == TOf(NearestTriangleOpt(tris, node.lft, r, o, glm)) && c <= TOf(NearestTriangleOpt(tris, node.rgt, r, o, glm))
    ensures NearestTriangleOpt(tris, node, r, o, glm) == NearestTriangleOpt(tris, node.rgt, r, o, glm)
    ensures NearestTriangleOpt(tris, node.rgt, r, o, glm).None? ==>
      NearestTriangleOpt(tris, node, r, o, glm).None?
  {
    NearestTriangleOptSharedLeast(tris, node, r, o, glm);
  }

  /**
   * The as-written query misses when the own list and both children miss, and it misses
   * only where the right child's query misses.
   */
  lemma NearestTriangleOptAllMiss(tris: seq<Triangle>, node: KdTreeNode, r: Vec3, o: Vec3, glm: Glm)
    requires TreeIndicesIn(node, |tris|) && node.Node? && glm.rayBox(r, o, node.box)
    ensures (&& NearestTriangleIn(tris, node.data, r, o, glm).None? && NearestTriangleOpt(tris, node.lft, r, o, glm).None?
             && NearestTriangleOpt(tris, node.rgt, r, o, glm).None?)
            ==> NearestTriangleOpt(tris, node, r, o, glm).None?
    ensures NearestTriangleOpt(tris, node, r, o, glm).None? ==> NearestTriangleOpt(tris, node.rgt, r, o, glm).None?
  {
    if NearestTriangleIn(tris, node.data, r, o, glm).None? && NearestTriangleOpt(tris, node.lft, r, o, glm).None?
       && NearestTriangleOpt(tris, node.rgt, r, o, glm).None? {
      NearestTriangleOptSharedLeast(tris, node, r, o, glm);
    }
  }

  /**
   * NearestTriangleOpt with the merge the comments describe: the candidate with the least
   * distance, preferring the node's own result, then the left one, on ties.
   */
  function NearestTriangleOptFixed(tris: seq<Triangle>, node: KdTreeNode, r: Vec3, o: Vec3, glm: Glm): (h: Option<Hit>)
    requires TreeIndicesIn(node, |tris|)
    ensures node.Nil? || !glm.rayBox(r, o, node.box) ==> h.None?
    ensures h.Some? ==> && 0 <= h.value.index < |tris| && InTree(node, h.value.index)
                        && TriangleHit(tris, h.value.index, r, o, glm) == h && h.value.t < FloatMax
  {
    if node.Nil? || !glm.rayBox(r, o, node.box) then None
    else
      var curr := NearestTriangleIn(tris, node.data, r, o, glm);
      var lft := NearestTriangleOptFixed(tris, node.lft, r, o, glm);
      var rgt := NearestTriangleOptFixed(tris, node.rgt, r, o, glm);
      var tCurr, tLft, tRgt := TOf(curr), TOf(lft), TOf(rgt);
      if tCurr <= Min(tLft, tRgt) then curr
      else if tLft <= tRgt then lft
      else rgt
  }

  /** The corrected merge returns the least of the three distances, and misses only if all three do. */
  lemma FixedMergeIsMinimum(tris: seq<Triangle>, node: KdTreeNode, r: Vec3, o: Vec3, glm: Glm)
    requires TreeIndicesIn(node, |tris|) && node.Node? && glm.rayBox(r, o, node.box)
    ensures var c := NearestTriangleIn(tris, node.data, r, o, glm);
      var l, g := NearestTriangleOptFixed(tris, node.lft, r, o, glm), NearestTriangleOptFixed(tris, node.rgt, r, o, glm);
      var h := NearestTriangleOptFixed(tris, node, r, o, glm);
      && TOf(h) == Min3(TOf(c), TOf(l), TOf(g))
      && (h.None? <==> c.None? && l.None? && g.None?)
  {
  }

  // ---------------------------------------------------------------------------
  // The corrected query finds the nearest triangle

  /**
   * The ray-box test never rejects a box that contains a point of the ray in front of the
   * origin: the hypothesis under which the slab test of IntersectionRayBB is sound.
   */
  ghost predicate BoxSound(glm: Glm, r: Vec3, o: Vec3) {
    forall b: BoundingBox, t: real :: t > 0.0 && InBox(Add(o, Scale(t, r)), b) ==> glm.rayBox(r, o, b)
  }

  /** The solver is exact for every triangle the test reports as hit. */
  ghost predicate SolvesExactly(glm: Glm, tris: seq<Triangle>, r: Vec3, o: Vec3) {
    forall i :: 0 <= i < |tris| && IntersectionRayTriangle(tris[i], r, o, glm).hit ==> SolveExact(glm, tris[i], r, o)
  }

  /** A hit point on one side of a plane means the triangle meets that closed half-space. */
  lemma HitSideTouches(tris: seq<Triangle>, x: int, r: Vec3, o: Vec3, glm: Glm, v: real, axis: int)
    requires 0 <= x < |tris| && 0 <= axis < 3
    requires IntersectionRayTriangle(tris[x], r, o, glm).hit && SolveExact(glm, tris[x], r, o)
    ensures var p := IntersectionRayTriangle(tris[x], r, o, glm).intersection;
      && (p.Get(axis) <= v ==> Touches(tris, x, v, axis, -1))
      && (p.Get(axis) >= v ==> Touches(tris, x, v, axis, 1))
  {
    var tri := tris[x];
    var res := IntersectionRayTriangle(tri, r, o, glm);
    TriangleHitWeights(tri, r, o, glm);
    TriangleHitOnTriangle(tri, r, o, glm);
    BarycentricBetweenVertices(tri, res.baryCoord, axis);
    var a, b, c := tri.V(0).Get(axis), tri.V(1).Get(axis), tri.V(2).Get(axis);
    assert Min3(a, b, c) <= res.intersection.Get(axis) <= Max3(a, b, c);
    if res.intersection.Get(axis) <= v {
      if a <= v {} else if b <= v {} else { assert c <= v; }
    }
    if res.intersection.Get(axis) >= v {
      if a >= v {} else if b >= v {} else { assert c >= v; }
    }
  }

  /** A box holding a triangle's vertices holds its hit point, a convex combination of them. */
  lemma HitInBox(tri: Triangle, r: Vec3, o: Vec3, glm: Glm, box: BoundingBox)
    requires forall j :: 0 <= j < 3 ==> InBox(tri.V(j), box)
    requires IntersectionRayTriangle(tri, r, o, glm).hit && SolveExact(glm, tri, r, o)
    ensures InBox(IntersectionRayTriangle(tri, r, o, glm).intersection, box)
  {
    var res := IntersectionRayTriangle(tri, r, o, glm);
    TriangleHitWeights(tri, r, o, glm);
    TriangleHitOnTriangle(tri, r, o, glm);
    assert InBox(tri.V(0), box) && InBox(tri.V(1), box) && InBox(tri.V(2), box);
    forall a | 0 <= a < 3
      ensures box.mMin.Get(a) <= res.intersection.Get(a) <= box.mMax.Get(a)
    {
      BarycentricBetweenVertices(tri, res.baryCoord, a);
    }
  }

  /**
   * If triangle x is covered by the subtree and hit inside the subtree's box, the corrected
   * query over the subtree reports a hit at most as far as x's.
   */
  lemma {:induction false} FixedQueryFindsCovered(tris: seq<Triangle>, node: KdTreeNode, parentAxis: int,
                                                 r: Vec3, o: Vec3, glm: Glm, x: int)
    requires TreeIndicesIn(node, |tris|) && WellFormed(node, parentAxis)
    requires 0 <= x < |tris| && Covers(tris, node, x)
    requires Visible(TriangleHit(tris, x, r, o, glm)) && SolveExact(glm, tris[x], r, o)
    requires InBox(TriangleHit(tris, x, r, o, glm).value.intersection, node.box)
    requires BoxSound(glm, r, o)
    ensures var h := NearestTriangleOptFixed(tris, node, r, o, glm);
      h.Some? && h.value.t <= TriangleHit(tris, x, r, o, glm).value.t
    decreases node
  {
    var hx := TriangleHit(tris, x, r, o, glm).value;
    var p := hx.intersection;
    TriangleHitWeights(tris[x], r, o, glm);
    assert p == Add(o, Scale(hx.t, r));
    assert glm.rayBox(r, o, node.box);
    FixedMergeIsMinimum(tris, node, r, o, glm);
    if x in node.data {
      var k :| 0 <= k < |node.data| && node.data[k] == x;
      assert TriangleHit(tris, node.data[k], r, o, glm).Some?;
    } else {
      var a := node.axis.Code();
      var v := node.splitValue;
      HitSideTouches(tris, x, r, o, glm, v, a);
      if p.Get(a) <= v {
        SplitKeeps(node.box, v, a, -1, p);
        FixedQueryFindsCovered(tris, node.lft, a, r, o, glm, x);
      } else {
        SplitKeeps(node.box, v, a, 1, p);
        FixedQueryFindsCovered(tris, node.rgt, a, r, o, glm, x);
      }
    }
  }

  /**
   * On a tree where every triangle is covered and the root box holds every vertex, the
   * corrected query agrees with the brute-force scan over all triangles: it misses exactly
   * when the scan does, and otherwise reports a hit at the same distance.
   */
  lemma FixedQueryMatchesBruteForce(tris: seq<Triangle>, root: KdTreeNode, r: Vec3, o: Vec3, glm: Glm)
    requires TreeIndicesIn(root, |tris|) && WellFormed(root, RootParentAxis)
    requires forall x :: 0 <= x < |tris| ==> Covers(tris, root, x)
    requires root.Node? ==> VerticesIn(tris, root.box)
    requires SolvesExactly(glm, tris, r, o) && BoxSound(glm, r, o)
    ensures var h := NearestTriangleOptFixed(tris, root, r, o, glm);
      var brute := NearestTriangleIn(tris, Range(|tris|), r, o, glm);
      (h.None? <==> brute.None?) && TOf(h) == TOf(brute)
  {
    var h := NearestTriangleOptFixed(tris, root, r, o, glm);
    var brute := NearestTriangleIn(tris, Range(|tris|), r, o, glm);
    if brute.Some? {
      var x := brute.value.index;
      assert Covers(tris, root, x);
      assert forall j :: 0 <= j < 3 ==> InBox(tris[x].V(j), root.box);
      HitInBox(tris[x], r, o, glm, root.box);
      FixedQueryFindsCovered(tris, root, RootParentAxis, r, o, glm, x);
    }
    if h.Some? {
      BruteForceNoFartherThan(tris, h.value.index, r, o, glm);
    }
  }

  /** The brute-force scan reports a hit no farther than any visible hit. */
  lemma BruteForceNoFartherThan(tris: seq<Triangle>, y: int, r: Vec3, o: Vec3, glm: Glm)
    requires 0 <= y < |tris| && Visible(TriangleHit(tris, y, r, o, glm))
    ensures var brute := NearestTriangleIn(tris, Range(|tris|), r, o, glm);
      brute.Some? && brute.value.t <= TriangleHit(tris, y, r, o, glm).value.t
  {
    assert Range(|tris|)[y] == y;
  }

  // ---------------------------------------------------------------------------
  // The tie in the as-written merge

  /** A solver reporting every triangle hit at t = 1, and a ray-box test that always passes. */
  function TieGlm(): Glm {
    Glm((tri, ray, origin) => Vec3(1.0, 0.25, 0.25), d => d, u => u, (ray, origin, b) => true, d => d, d => d)
  }

  /**
   * An inner node whose own list holds triangle 0 (straddling x = 0) and whose left leaf holds
   * triangle 1 (wholly below x = 0), both hit at the same distance, with no right child.
   * The as-written query reports no hit, while the brute-force scan and the corrected query
   * both report one.
   */
  lemma TieFallsThroughToRight()
    ensures
      var tris := [Triangle(Vec3(-1.0, 0.0, 0.0), Vec3(1.0, 0.0, 0.0), Vec3(0.0, 1.0, 0.0)),
                   Triangle(Vec3(-2.0, 0.0, 0.0), Vec3(-1.0, 0.0, 0.0), Vec3(-1.5, 1.0, 0.0))];
      var box := BoundingBox(Vec3(-2.0, 0.0, 0.0), Vec3(1.0, 1.0, 0.0));
      var leftBox := Split(box, 0.0, 0, -1);
      var node := Node(SplitX, 0.0, Node(NoSplit, 0.0, Nil, Nil, leftBox, [1]), Nil, box, [0]);
      var ray, origin := Vec3(0.0, 0.0, -1.0), Vec3(0.0, 0.0, 1.0);
      && WellFormed(node, RootParentAxis)
      && Covers(tris, node, 0) && Covers(tris, node, 1)
      && NearestTriangleOpt(tris, node, ray, origin, TieGlm()).None?
      && NearestTriangleIn(tris, Range(2), ray, origin, TieGlm()).Some?
      && NearestTriangleOptFixed(tris, node, ray, origin, TieGlm()).Some?
  {
    var tris := [Triangle(Vec3(-1.0, 0.0, 0.0), Vec3(1.0, 0.0, 0.0), Vec3(0.0, 1.0, 0.0)),
                 Triangle(Vec3(-2.0, 0.0, 0.0), Vec3(-1.0, 0.0, 0.0), Vec3(-1.5, 1.0, 0.0))];
    var box := BoundingBox(Vec3(-2.0, 0.0, 0.0), Vec3(1.0, 1.0, 0.0));
    var leftBox := Split(box, 0.0, 0, -1);
    var leaf := Node(NoSplit, 0.0, Nil, Nil, leftBox, [1]);
    var node := Node(SplitX, 0.0, leaf, Nil, box, [0]);
    var ray, origin := Vec3(0.0, 0.0, -1.0), Vec3(0.0, 0.0, 1.0);
    var glm := TieGlm();
    assert TriangleHit(tris, 0, ray, origin, glm).Some?;
    assert TriangleHit(tris, 1, ray, origin, glm).Some?;
    assert TOf(NearestTriangleIn(tris, [0], ray, origin, glm)) == 1.0;
    assert TOf(NearestTriangleIn(tris, [1], ray, origin, glm)) == 1.0;
    assert NearestTriangleOpt(tris, leaf, ray, origin, glm).Some?;
    assert !Touches(tris, 1, 0.0, 0, 1);
    assert Range(2)[0] == 0;
  }

  // ---------------------------------------------------------------------------
  // The scene box

  /** The box widened on every axis to take in `p`, by std::min and std::max. */
  function Grow(b: BoundingBox, p: Vec3): (g: BoundingBox)
    ensures InBox(p, g) && Contains(g, b)
    ensures forall a :: 0 <= a < 3 ==>
      && (g.mMin.Get(a) == b.mMin.Get(a) || g.mMin.Get(a) == p.Get(a))
      && (g.mMax.Get(a) == b.mMax.Get(a) || g.mMax.Get(a) == p.Get(a))
  {
    BoundingBox(Vec3(Min(b.mMin.x, p.x), Min(b.mMin.y, p.y), Min(b.mMin.z, p.z)),
                Vec3(Max(b.mMax.x, p.x), Max(b.mMax.y, p.y), Max(b.mMax.z, p.z)))
  }

  /** The box grown by the first `j` vertices of `tri`. */
  function GrowByVertices(b: BoundingBox, tri: Triangle, j: int): BoundingBox
    requires 0 <= j <= 3
  {
    if j == 0 then b else Grow(GrowByVertices(b, tri, j - 1), tri.V(j - 1))
  }

  lemma InBoxWidens(p: Vec3, inner: BoundingBox, outer: BoundingBox)
    requires InBox(p, inner) && Contains(outer, inner)
    ensures InBox(p, outer)
  {
    forall a | 0 <= a < 3
      ensures outer.mMin.Get(a) <= p.Get(a) <= outer.mMax.Get(a)
    {
      assert inner.mMin.Get(a) <= p.Get(a) <= inner.mMax.Get(a);
    }
  }

  lemma ContainsTransitive(a: BoundingBox, b: BoundingBox, c: BoundingBox)
    requires Contains(a, b) && Contains(b, c)
    ensures Contains(a, c)
  {
  }

  /** Growing by a triangle's vertices keeps everything the box held and takes in the vertices. */
  lemma {:induction false} GrowByVerticesBounds(b: BoundingBox, tri: Triangle, j: int)
    requires 0 <= j <= 3
    ensures Contains(GrowByVertices(b, tri, j), b)
    ensures forall k :: 0 <= k < j ==> InBox(tri.V(k), GrowByVertices(b, tri, j))
  {
    if j > 0 {
      var prev := GrowByVertices(b, tri, j - 1);
      var g := GrowByVertices(b, tri, j);
      GrowByVerticesBounds(b, tri, j - 1);
      ContainsTransitive(g, prev, b);
      forall k | 0 <= k < j - 1
        ensures InBox(tri.V(k), g)
      {
        InBoxWidens(tri.V(k), prev, g);
      }
    }
  }

  /**
   * The scene box of BuildFromListOfTriangles: the initial box grown, triangle by triangle,
   * by each vertex. It contains the initial box and every vertex of every triangle.
   */
  function SceneBox(tris: seq<Triangle>, init: BoundingBox): (box: BoundingBox)
    ensures Contains(box, init)
    ensures VerticesIn(tris, box)
  {
    if |tris| == 0 then init
    else
      var prefix := tris[..|tris| - 1];
      var last := tris[|tris| - 1];
      var prev := SceneBox(prefix, init);
      var box := GrowByVertices(prev, last, 3);
      GrowByVerticesBounds(prev, last, 3);
      ContainsTransitive(box, prev, init);
      assert forall i, j :: 0 <= i < |prefix| && 0 <= j < 3 ==> InBox(prefix[i].V(j), prev);
      assert forall i, j :: 0 <= i < |prefix| && 0 <= j < 3 ==> InBox(tris[i].V(j), box) by {
        forall i, j | 0 <= i < |prefix| && 0 <= j < 3
          ensures InBox(tris[i].V(j), box)
        {
          assert prefix[i] == tris[i];
          InBoxWidens(tris[i].V(j), prev, box);
        }
      }
      box
  }

  /**
   * An inner node assembled from a distribution of a permutation of `indices` and from
   * children built from the child lists keeps the invariants Build promises.
   */
  lemma InnerNodeSound(tris: seq<Triangle>, cap: int, indices: seq<int>, sorted: seq<int>,
                       parentAxis: int, node: KdTreeNode)
    requires -1 <= parentAxis <= 2 && node.Node?
    requires multiset(sorted) == multiset(indices)
    requires node.axis == AxisOf((parentAxis + 1) % 3)
    requires var p := Distribute(tris, cap, sorted, node.splitValue, node.axis.Code());
      && node.data == p.own
      && (forall x :: x in p.lft ==> Covers(tris, node.lft, x))
      && (forall x :: x in p.rgt ==> Covers(tris, node.rgt, x))
      && (forall y :: InTree(node.lft, y) ==> y in p.lft)
      && (forall y :: InTree(node.rgt, y) ==> y in p.rgt)
    requires node.lft.Node? ==> node.lft.box == Split(node.box, node.splitValue, node.axis.Code(), -1)
    requires node.rgt.Node? ==> node.rgt.box == Split(node.box, node.splitValue, node.axis.Code(), 1)
    requires WellFormed(node.lft, node.axis.Code()) && WellFormed(node.rgt, node.axis.Code())
    ensures WellFormed(node, parentAxis)
    ensures forall x :: x in indices ==> Covers(tris, node, x)
    ensures forall y :: InTree(node, y) ==> y in indices
  {
    var p := Distribute(tris, cap, sorted, node.splitValue, node.axis.Code());
    DistributeSound(tris, cap, sorted, node.splitValue, node.axis.Code());
    forall x | x in indices
      ensures Covers(tris, node, x)
    {
      assert x in multiset(indices);
      assert x in sorted;
      assert Placed(tris, p, x, node.splitValue, node.axis.Code());
    }
    forall y | InTree(node, y)
      ensures y in indices
    {
      assert y in sorted;
      assert y in multiset(sorted);
    }
  }

  // ---------------------------------------------------------------------------
  // The tree builder

  class KdTree {
    const triangles: seq<Triangle>
    const capacity: int
    var root: KdTreeNode
    var centerOfMassList: seq<Vec3>

    /** The triangle list is kept by reference; the tree starts empty. */
    constructor (triangles: seq<Triangle>, capacity: int)
      requires capacity != 0 && IsInt(capacity)
      ensures this.triangles == triangles && this.capacity == capacity
      ensures root == Nil && centerOfMassList == []
      ensures Valid()
    {
      this.triangles := triangles;
      this.capacity := capacity;
      root := Nil;
      centerOfMassList := [];
    }

    /** A non-zero capacity in the range of a C++ `int`, and a tree whose indices address the triangle list. */
    ghost predicate Valid()
      reads this
    {
      capacity != 0 && IsInt(capacity) && TreeIndicesIn(root, |triangles|)
    }

    /** The centre-of-mass list holds the centroid of each triangle. */
    ghost predicate CentroidsReady()
      reads this
    {
      && |centerOfMassList| == |triangles|
      && forall i :: 0 <= i < |triangles| ==> centerOfMassList[i] == Centroid(triangles[i])
    }

    /** The state BuildFromListOfTriangles leaves: every triangle covered, every vertex boxed. */
    ghost predicate Built()
      reads this
    {
      && Valid() && CentroidsReady() && WellFormed(root, RootParentAxis)
      && (forall x :: 0 <= x < |triangles| ==> Covers(triangles, root, x))
      && (root.Node? ==> VerticesIn(triangles, root.box))
    }

    /**
     * The first loop of BuildFromListOfTriangles: each triangle's centre of mass, and the
     * scene box grown from `initBox` by every vertex in order.
     */
    method ComputeCentersAndSceneBox(initBox: BoundingBox) returns (sceneBox: BoundingBox)
      modifies this
      ensures CentroidsReady() && sceneBox == SceneBox(triangles, initBox)
      ensures root == old(root)
    {
      var n := |triangles|;
      centerOfMassList := seq(n, _ => Zero3);
      sceneBox := initBox;
      var i := 0;
      while i < n
        invariant 0 <= i <= n && |centerOfMassList| == n && root == old(root)
        invariant forall k :: 0 <= k < i ==> centerOfMassList[k] == Centroid(triangles[k])
        invariant sceneBox == SceneBox(triangles[..i], initBox)
      {
        centerOfMassList := centerOfMassList[i := Centroid(triangles[i])];
        ghost var before := sceneBox;
        var j := 0;
        while j < 3
          invariant 0 <= j <= 3 && sceneBox == GrowByVertices(before, triangles[i], j)
        {
          sceneBox := Grow(sceneBox, triangles[i].V(j));
          j := j + 1;
        }
        assert triangles[..i + 1][..i] == triangles[..i];
        i := i + 1;
      }
      assert triangles[..n] == triangles;
    }

    /**
     * BuildFromListOfTriangles: computes each triangle's centre of mass and the scene box
     * (starting from `initBox`, the box's initial value), then builds the root from the
     * indices 0 .. n-1 with no parent axis.
     */
    method BuildFromListOfTriangles(initBox: BoundingBox) returns (ok: bool)
      requires Valid()
      modifies this
      ensures ok && Built()
      ensures |triangles| == 0 <==> root == Nil
      ensures root.Node? ==> root.box == SceneBox(triangles, initBox)
    {
      var n := |triangles|;
      var sceneBox := ComputeCentersAndSceneBox(initBox);
      var indices := seq(n, _ => 0);
      var i := 0;
      while i < n
        invariant 0 <= i <= n && |indices| == n
        invariant forall k :: 0 <= k < i ==> indices[k] == k
      {
        indices := indices[i := i];
        i := i + 1;
      }
      assert forall x :: 0 <= x < n ==> x in indices by {
        forall x | 0 <= x < n ensures x in indices { assert indices[x] == x; }
      }
      var rest;
      root, rest := Build(indices, sceneBox, RootParentAxis);
      ok := true;
    }

    /**
     * Build: no node for no indices; a leaf holding the indices in order when they fit the
     * capacity; otherwise an inner node splitting on the next axis at the median centroid,
     * whose own list takes straddlers up to the capacity, with the children built from the
     * two child lists. The caller's vector is cleared after an inner-node build.
     */
    method Build(indices: seq<int>, bb: BoundingBox, parentAxis: int) returns (node: KdTreeNode, rest: seq<int>)
      requires capacity != 0 && IsInt(capacity) && CentroidsReady()
      requires IndicesIn(indices, |triangles|) && -1 <= parentAxis <= 2
      ensures |indices| == 0 ==> node == Nil && rest == indices
      ensures 0 < |indices| <= capacity ==> node == Node(NoSplit, 0.0, Nil, Nil, bb, indices) && rest == indices
      ensures capacity < |indices| && 0 < |indices| ==>
        && node.Node? && rest == [] && node.box == bb
        && node.axis == AxisOf((parentAxis + 1) % 3)
        && |node.data| <= OwnBound(capacity)
        && IsRankValue(centerOfMassList, (parentAxis + 1) % 3, indices, node.splitValue, |indices| / 2)
      ensures node.Node? <==> |indices| > 0
      ensures node.Node? ==> node.box == bb
      ensures WellFormed(node, parentAxis) && TreeIndicesIn(node, |triangles|)
      ensures forall x :: x in indices ==> Covers(triangles, node, x)
      ensures forall y :: InTree(node, y) ==> y in indices
      decreases |indices|
    {
      if |indices| == 0 {
        return Nil, indices;
      }
      if |indices| <= capacity {
        var data := [];
        var i := 0;
        while i < |indices|
          invariant 0 <= i <= |indices| && data == indices[..i]
        {
          data := data + [indices[i]];
          i := i + 1;
        }
        assert indices[..|indices|] == indices;
        return Node(NoSplit, 0.0, Nil, Nil, bb, data), indices;
      }

      var component := (parentAxis + 1) % 3;
      var sorted := SortByCentroid(indices, component);
      MedianHasMiddleRank(centerOfMassList, component, sorted, indices);
      var median := sorted[|sorted| / 2];
      var splitValue := centerOfMassList[median].Get(component);
      var own, less, greater := DistributeToHalfSpaces(sorted, splitValue, component);
      DistributeSound(triangles, capacity, sorted, splitValue, component);

      // The median triangle meets both half-spaces of its own centroid's plane, so the own
      // list is not empty and each child list is shorter than `indices`.
      CentroidOnPlaneStraddles(triangles[median], component);
      assert median in sorted;
      assert |own| >= 1;

      var lftBox := Split(bb, splitValue, component, -1);
      var rgtBox := Split(bb, splitValue, component, 1);
      var lft, _ := Build(less, lftBox, component);
      var rgt, _ := Build(greater, rgtBox, component);
      node := Node(AxisOf(component), splitValue, lft, rgt, bb, own);
      rest := [];
      InnerNodeSound(triangles, capacity, indices, sorted, parentAxis, node);
    }

    /** std::sort of the indices by the centroid component `axis`: some sorted permutation. */
    method SortByCentroid(indices: seq<int>, axis: int) returns (sorted: seq<int>)
      requires CentroidsReady() && IndicesIn(indices, |triangles|) && 0 <= axis < 3
      ensures IndicesIn(sorted, |centerOfMassList|) && SortedBy(centerOfMassList, axis, sorted)
      ensures multiset(sorted) == multiset(indices)
    {
      ghost var sortedWitness := InsertionSort(centerOfMassList, axis, indices);
      sorted :| IndicesIn(sorted, |centerOfMassList|) && SortedBy(centerOfMassList, axis, sorted)
                && multiset(sorted) == multiset(indices);
    }

    /**
     * The distribution loop of Build: each index, in order, goes to the left list, the right
     * list, the node's own list (while it has room) or both child lists.
     */
    method DistributeToHalfSpaces(sorted: seq<int>, splitValue: real, axis: int)
      returns (own: seq<int>, less: seq<int>, greater: seq<int>)
      requires IndicesIn(sorted, |triangles|) && 0 <= axis < 3
      ensures Parts(own, less, greater) == Distribute(triangles, capacity, sorted, splitValue, axis)
    {
      own, less, greater := [], [], [];
      var i := 0;
      while i < |sorted|
        invariant 0 <= i <= |sorted|
        invariant Parts(own, less, greater) == Distribute(triangles, capacity, sorted[..i], splitValue, axis)
      {
        var x := sorted[i];
        var intersectsLft := IntersectionHalfSpaceTriangle(triangles[x], splitValue, axis, -1);
        var intersectsRgt := IntersectionHalfSpaceTriangle(triangles[x], splitValue, axis, 1);
        if intersectsLft && !intersectsRgt {
          less := less + [x];
        } else if !intersectsLft && intersectsRgt {
          greater := greater + [x];
        } else if intersectsLft && intersectsRgt {
          if |own| < OwnBound(capacity) {
            own := own + [x];
          } else {
            less := less + [x];
            greater := greater + [x];
          }
        }
        assert sorted[..i + 1][..i] == sorted[..i];
        i := i + 1;
      }
      assert sorted[..|sorted|] == sorted;
    }

    /**
     * NearestTriangleInSubset: the linear scan over `subset`. The out-parameters keep the
     * caller's values (`intersection0`, `baryCoord0`, `t0`) unless some triangle is accepted.
     */
    method NearestTriangleInSubset(subset: seq<int>, r: Vec3, o: Vec3, glm: Glm,
                                   intersection0: Vec3, baryCoord0: Vec3, t0: real)
      returns (index: int, intersection: Vec3, baryCoord: Vec3, t: real)
      requires IndicesIn(subset, |triangles|)
      ensures var h := NearestTriangleIn(triangles, subset, r, o, glm);
        && (h.None? ==> index == -1 && intersection == intersection0 && baryCoord == baryCoord0 && t == t0)
        && (h.Some? ==> index == h.value.index && intersection == h.value.intersection
                        && baryCoord == h.value.aux && t == h.value.t)
    {
      ghost var cands := TriangleCandidates(triangles, subset, r, o, glm);
      var nearestT := FloatMax;
      index := -1;
      intersection, baryCoord, t := intersection0, baryCoord0, t0;
      ghost var k := -1;
      var i := 0;
      while i < |subset|
        invariant 0 <= i <= |subset|
        invariant k == NearestIn(cands[..i])
        invariant nearestT == BestT(cands[..i], k)
        invariant k < 0 ==> index == -1 && intersection == intersection0 && baryCoord == baryCoord0 && t == t0
        invariant k >= 0 ==> && index == subset[k] && cands[k].Some? && intersection == cands[k].value.intersection
                             && baryCoord == cands[k].value.aux && t == cands[k].value.t
      {
        var test := IntersectionRayTriangle(triangles[subset[i]], r, o, glm);
        NearestInStep(cands, i);
        if test.hit {
          if test.t < nearestT {
            index := subset[i];
            nearestT := test.t;
            intersection, baryCoord, t := test.intersection, test.baryCoord, test.t;
            k := i;
          }
        }
        i := i + 1;
      }
      assert cands[..|subset|] == cands;
    }

    /** KdTree::NearestTriangle: the as-written query on the root. */
    function NearestTriangle(r: Vec3, o: Vec3, glm: Glm): (h: Option<Hit>)
      reads this
      requires Valid()
      ensures h.Some? ==> && 0 <= h.value.index < |triangles| && InTree(root, h.value.index)
                          && TriangleHit(triangles, h.value.index, r, o, glm) == h
    {
      NearestTriangleOpt(triangles, root, r, o, glm)
    }

    /**
     * The tree query never beats the brute-force scan: whenever it reports a triangle, the
     * scan over all triangles reports one too, at a distance no greater. (The converse fails:
     * see TieFallsThroughToRight.)
     */
    lemma NearestTriangleNoNearerThanBruteForce(r: Vec3, o: Vec3, glm: Glm)
      requires Valid()
      ensures var brute := NearestTriangleIn(triangles, Range(|triangles|), r, o, glm);
        NearestTriangle(r, o, glm).Some? ==> brute.Some? && brute.value.t <= NearestTriangle(r, o, glm).value.t
    {
      var h := NearestTriangle(r, o, glm);
      if h.Some? {
        BruteForceNoFartherThan(triangles, h.value.index, r, o, glm);
      }
    }
  }
}

=== FILE: MathFunctions.dfy ===
/**
 * Intersection tests of renderer/geometries/MathFunctions.cpp over the reals.
 *
 * The floating-point kernels the tests rely on (the 3x3 inverse that solves for (t, u, v),
 * square root, normalisation, the slab ray-box test, sine and cosine) are not modelled:
 * they are the fields of a `Glm` record that callers pass in, and every property proved
 * here holds whatever those functions are, unless a lemma states an explicit hypothesis
 * about them (`SolveExact`, `SqrtExact`).
 */
module MathFunctions {
  import opened Wrappers
  import opened Primitives

  /** kEpsilon of MathFunctions.h: 1e-3. */
  const Epsilon: real := 0.001

  /** FLT_MAX, the "no hit yet" distance of the nearest-primitive scans. */
  const FloatMax: real := 340282346638528859811704183484516925440.0

  /** The numerical kernels the renderer takes from glm and <cmath>. */
  datatype Glm = Glm(
    /** glm::inverse([-ray, B - A, C - A]) * (O - A) for triangle ABC: the solved (t, u, v). */
    solve: (Triangle, Vec3, Vec3) -> Vec3,
    sqrt: real -> real,
    normalize: Vec3 -> Vec3,
    /** IntersectionRayBB(ray, origin, box), the slab test of Williams et al. */
    rayBox: (Vec3, Vec3, BoundingBox) -> bool,
    cos: real -> real,
    sin: real -> real)

  /** glm::length. */
  function Length(glm: Glm, v: Vec3): real { glm.sqrt(Dot(v, v)) }

  function Abs(x: real): real { if x < 0.0 then -x else x }
  function Min(a: real, b: real): real { if a <= b then a else b }
  function Max(a: real, b: real): real { if a >= b then a else b }

  // ---------------------------------------------------------------------------
  // Ray - triangle

  /** The out-values and verdict of IntersectionRayTriangle (all outputs are always written). */
  datatype TriangleTest = TriangleTest(hit: bool, intersection: Vec3, baryCoord: Vec3, t: real)

  /**
   * IntersectionRayTriangle: given the solved (t, u, v), the hit is accepted iff
   * t > epsilon, u > 0, v > 0 and u + v <= 1; the first barycentric weight is 1 - u - v
   * and the intersection point is O + t ray.
   */
  function IntersectionRayTriangle(tri: Triangle, ray: Vec3, o: Vec3, glm: Glm): (res: TriangleTest)
    ensures var s := glm.solve(tri, ray, o);
      && res.t == s.x
      && res.baryCoord == Vec3(1.0 - s.y - s.z, s.y, s.z)
      && res.intersection == Add(o, Scale(s.x, ray))
      && (res.hit <==> s.x > Epsilon && s.y > 0.0 && s.z > 0.0 && s.y + s.z <= 1.0)
  {
    var s := glm.solve(tri, ray, o);
    var t := s.x;
    var bary := Vec3(1.0 - s.y - s.z, s.y, s.z);
    TriangleTest(t > Epsilon && s.y > 0.0 && s.z > 0.0 && s.y + s.z <= 1.0,
                 Add(o, Scale(t, ray)), bary, t)
  }

  /** The solver returned the exact solution of O + t ray = A + u (B - A) + v (C - A). */
  ghost predicate SolveExact(glm: Glm, tri: Triangle, ray: Vec3, o: Vec3) {
    var s := glm.solve(tri, ray, o);
    Add(o, Scale(s.x, ray)) == Add(tri.v0, Add(Scale(s.y, Sub(tri.v1, tri.v0)), Scale(s.z, Sub(tri.v2, tri.v0))))
  }

  /** The point with barycentric weights `w` in triangle `tri`. */
  function Barycentric(tri: Triangle, w: Vec3): Vec3 {
    Add(Add(Scale(w.x, tri.v0), Scale(w.y, tri.v1)), Scale(w.z, tri.v2))
  }

  /** A reported hit has three non-negative barycentric weights that sum to one, and t > epsilon. */
  lemma TriangleHitWeights(tri: Triangle, ray: Vec3, o: Vec3, glm: Glm)
    requires IntersectionRayTriangle(tri, ray, o, glm).hit
    ensures var res := IntersectionRayTriangle(tri, ray, o, glm);
      && res.t > Epsilon
      && res.baryCoord.x >= 0.0 && res.baryCoord.y > 0.0 && res.baryCoord.z > 0.0
      && res.baryCoord.x + res.baryCoord.y + res.baryCoord.z == 1.0
  {
  }

  /** With an exact solver, the reported intersection is the barycentric point of the triangle. */
  lemma TriangleHitOnTriangle(tri: Triangle, ray: Vec3, o: Vec3, glm: Glm)
    requires SolveExact(glm, tri, ray, o)
    ensures var res := IntersectionRayTriangle(tri, ray, o, glm);
      res.intersection == Barycentric(tri, res.baryCoord)
  {
    var s := glm.solve(tri, ray, o);
    var res := IntersectionRayTriangle(tri, ray, o, glm);
    var a, b, c := tri.v0, tri.v1, tri.v2;
    var p := Add(a, Add(Scale(s.y, Sub(b, a)), Scale(s.z, Sub(c, a))));
    assert res.intersection == p;
    assert p.x == (1.0 - s.y - s.z) * a.x + s.y * b.x + s.z * c.x;
    assert p.y == (1.0 - s.y - s.z) * a.y + s.y * b.y + s.z * c.y;
    assert p.z == (1.0 - s.y - s.z) * a.z + s.y * b.z + s.z * c.z;
  }

  function Min3(a: real, b: real, c: real): real { Min(a, Min(b, c)) }
  function Max3(a: real, b: real, c: real): real { Max(a, Max(b, c)) }

  /** A convex combination of the vertices lies between their least and greatest coordinate. */
  lemma BarycentricBetweenVertices(tri: Triangle, w: Vec3, axis: int)
    requires 0 <= axis < 3
    requires w.x >= 0.0 && w.y >= 0.0 && w.z >= 0.0 && w.x + w.y + w.z == 1.0
    ensures var p := Barycentric(tri, w).Get(axis);
      var a, b, c := tri.v0.Get(axis), tri.v1.Get(axis), tri.v2.Get(axis);
      Min3(a, b, c) <= p <= Max3(a, b, c)
  {
    var a, b, c := tri.v0.Get(axis), tri.v1.Get(axis), tri.v2.Get(axis);
    var p := Barycentric(tri, w).Get(axis);
    BarycentricComponent(tri, w, axis);
    ConvexBounds(w.x, w.y, w.z, a, b, c, p);
  }

  lemma BarycentricComponent(tri: Triangle, w: Vec3, axis: int)
    requires 0 <= axis < 3
    ensures Barycentric(tri, w).Get(axis)
         == w.x * tri.v0.Get(axis) + w.y * tri.v1.Get(axis) + w.z * tri.v2.Get(axis)
  {
  }

  lemma ConvexBounds(wa: real, wb: real, wc: real, a: real, b: real, c: real, p: real)
    requires wa >= 0.0 && wb >= 0.0 && wc >= 0.0 && wa + wb + wc == 1.0
    requires p == wa * a + wb * b + wc * c
    ensures Min3(a, b, c) <= p <= Max3(a, b, c)
  {
    var lo, hi := Min3(a, b, c), Max3(a, b, c);
    assert lo <= a && lo <= b && lo <= c;
    assert a <= hi && b <= hi && c <= hi;
    WeightedLe(wa, wb, wc, lo, lo, lo, a, b, c);
    Distribute3(wa, wb, wc, lo);
    WeightedLe(wa, wb, wc, a, b, c, hi, hi, hi);
    Distribute3(wa, wb, wc, hi);
  }

  lemma WeightedLe(wa: real, wb: real, wc: real, a: real, b: real, c: real, a': real, b': real, c': real)
    requires wa >= 0.0 && wb >= 0.0 && wc >= 0.0
    requires a <= a' && b <= b' && c <= c'
    ensures wa * a + wb * b + wc * c <= wa * a' + wb * b' + wc * c'
  {
    MulMonotone(wa, a, a');
    MulMonotone(wb, b, b');
    MulMonotone(wc, c, c');
  }

  lemma Distribute3(wa: real, wb: real, wc: real, k: real)
    requires wa + wb + wc == 1.0
    ensures wa * k + wb * k + wc * k == k
  {
    assert wa * k + wb * k + wc * k == (wa + wb + wc) * k;
  }

  lemma MulMonotone(k: real, a: real, b: real)
    requires k >= 0.0 && a <= b
    ensures k * a <= k * b
  {
    assert k * b - k * a == k * (b - a);
  }

  // ---------------------------------------------------------------------------
  // Ray - sphere

  datatype SphereHit = SphereHit(intersection: Vec3, normal: Vec3, t: real)

  /** Coefficients of t^2 + b t + c = 0 for a unit ray, and its discriminant. */
  function SphereB(s: Sphere, r: Vec3, o: Vec3): real { 2.0 * Dot(r, Sub(o, s.pos)) }
  function SphereC(s: Sphere, r: Vec3, o: Vec3): real {
    Dot(Sub(o, s.pos), Sub(o, s.pos)) - s.radius * s.radius
  }
  function Discriminant(s: Sphere, r: Vec3, o: Vec3): real {
    SphereB(s, r, o) * SphereB(s, r, o) - 4.0 * SphereC(s, r, o)
  }
  /** The quadratic t^2 + b t + c at distance t. */
  function Quadratic(s: Sphere, r: Vec3, o: Vec3, t: real): real {
    t * t + SphereB(s, r, o) * t + SphereC(s, r, o)
  }

  /** The two roots 0.5 (-b +/- sqrt(delta)), in increasing order. */
  function OrderedRoots(s: Sphere, r: Vec3, o: Vec3, glm: Glm): (roots: (real, real))
    ensures roots.0 <= roots.1
  {
    var b := SphereB(s, r, o);
    var sq := glm.sqrt(Discriminant(s, r, o));
    var t0 := 0.5 * (-b + sq);
    var t1 := 0.5 * (-b - sq);
    if t0 > t1 then (t1, t0) else (t0, t1)
  }

  /**
   * IntersectionRaySphere. A discriminant below -epsilon misses; a non-negative one below
   * epsilon is the tangent case t = -b/2 (accepted without looking at t); otherwise the
   * nearer root beyond epsilon is the hit, entering with the outward normal, or else the
   * farther root, leaving with the inward normal. A discriminant in [-epsilon, 0) makes
   * the source take the square root of a negative number: every comparison with the NaN
   * result is false and the test misses.
   */
  function IntersectionRaySphere(s: Sphere, r: Vec3, o: Vec3, glm: Glm): (h: Option<SphereHit>)
    ensures Discriminant(s, r, o) < -Epsilon ==> h.None?
    ensures h.Some? ==> h.value.intersection == Add(o, Scale(h.value.t, r))
    ensures h.Some? && Discriminant(s, r, o) >= Epsilon ==> h.value.t > Epsilon
  {
    var b := SphereB(s, r, o);
    var delta := Discriminant(s, r, o);
    if delta < -Epsilon then None
    else if delta >= 0.0 && Abs(delta) < Epsilon then
      var t := b * -0.5;
      var point := Add(o, Scale(t, r));
      Some(SphereHit(point, glm.normalize(Sub(point, s.pos)), t))
    else if delta < 0.0 then None
    else
      var (t0, t1) := OrderedRoots(s, r, o, glm);
      if t0 > Epsilon then
        var point := Add(o, Scale(t0, r));
        Some(SphereHit(point, glm.normalize(Sub(point, s.pos)), t0))
      else if t1 > Epsilon then
        var point := Add(o, Scale(t1, r));
        Some(SphereHit(point, Neg(glm.normalize(Sub(point, s.pos))), t1))
      else None
  }

  /**
   * The case analysis of IntersectionRaySphere: a negative discriminant misses; the tangent
   * case reports t = -b/2 without checking t; with two roots the test hits exactly when the
   * larger root exceeds epsilon, at the smaller root when that exceeds epsilon (outward
   * normal) and at the larger one otherwise (inward normal); a hit point is O + t r.
   */
  lemma SphereTestCases(s: Sphere, r: Vec3, o: Vec3, glm: Glm)
    ensures Discriminant(s, r, o) < 0.0 ==> IntersectionRaySphere(s, r, o, glm) == None
    ensures 0.0 <= Discriminant(s, r, o) < Epsilon ==>
      IntersectionRaySphere(s, r, o, glm).Some? && IntersectionRaySphere(s, r, o, glm).value.t == -SphereB(s, r, o) / 2.0
    ensures Discriminant(s, r, o) >= Epsilon ==>
      var (lo, hi) := OrderedRoots(s, r, o, glm);
      && (IntersectionRaySphere(s, r, o, glm).Some? <==> hi > Epsilon)
      && (IntersectionRaySphere(s, r, o, glm).Some? ==> IntersectionRaySphere(s, r, o, glm).value.t > Epsilon)
      && (IntersectionRaySphere(s, r, o, glm).Some? && lo > Epsilon ==> IntersectionRaySphere(s, r, o, glm).value.t == lo)
      && (IntersectionRaySphere(s, r, o, glm).Some? && lo <= Epsilon ==> IntersectionRaySphere(s, r, o, glm).value.t == hi)
    ensures IntersectionRaySphere(s, r, o, glm).Some? ==> IntersectionRaySphere(s, r, o, glm).value.intersection == Add(o, Scale(IntersectionRaySphere(s, r, o, glm).value.t, r))
    ensures IntersectionRaySphere(s, r, o, glm).Some? ==>
      var outward := glm.normalize(Sub(IntersectionRaySphere(s, r, o, glm).value.intersection, s.pos));
      IntersectionRaySphere(s, r, o, glm).value.normal == if Discriminant(s, r, o) >= Epsilon && OrderedRoots(s, r, o, glm).0 <= Epsilon
                          then Neg(outward) else outward
  {
  }

  /** sqrt returned the exact root of its (non-negative) argument. */
  predicate SqrtExact(glm: Glm, d: real) {
    glm.sqrt(d) * glm.sqrt(d) == d
  }

  /**
   * With an exact square root, the distance of a two-root hit solves the quadratic, and the
   * tangent-case distance misses it by less than epsilon / 4. For a unit ray, solving the
   * quadratic is the same as the hit point lying on the sphere.
   */
  lemma SphereHitSolvesQuadratic(s: Sphere, r: Vec3, o: Vec3, glm: Glm)
    requires IntersectionRaySphere(s, r, o, glm).Some?
    requires SqrtExact(glm, Discriminant(s, r, o))
    ensures var q := Quadratic(s, r, o, IntersectionRaySphere(s, r, o, glm).value.t);
      if Discriminant(s, r, o) >= Epsilon then q == 0.0 else -Epsilon / 4.0 < q <= 0.0
  {
    SphereHitDistance(s, r, o, glm);
    if Discriminant(s, r, o) >= Epsilon {
      SphereRootSolves(s, r, o, glm.sqrt(Discriminant(s, r, o)), IntersectionRaySphere(s, r, o, glm).value.t);
    } else {
      SphereTangentNearlySolves(s, r, o, IntersectionRaySphere(s, r, o, glm).value.t);
    }
  }

  /** Either root 0.5 (-b +/- sq) of the sphere's quadratic, with sq^2 its discriminant, solves it. */
  lemma SphereRootSolves(s: Sphere, r: Vec3, o: Vec3, sq: real, t: real)
    requires sq * sq == Discriminant(s, r, o)
    requires t == 0.5 * (-SphereB(s, r, o) + sq) || t == 0.5 * (-SphereB(s, r, o) - sq)
    ensures Quadratic(s, r, o, t) == 0.0
  {
    RootSolves(SphereB(s, r, o), SphereC(s, r, o), sq, t);
  }

  /** With a discriminant in [0, epsilon), the tangent distance -b/2 leaves the quadratic in (-epsilon/4, 0]. */
  lemma SphereTangentNearlySolves(s: Sphere, r: Vec3, o: Vec3, t: real)
    requires 0.0 <= Discriminant(s, r, o) < Epsilon
    requires t == -SphereB(s, r, o) / 2.0
    ensures -Epsilon / 4.0 < Quadratic(s, r, o, t) <= 0.0
  {
    TangentQuadratic(SphereB(s, r, o), SphereC(s, r, o), t);
  }

  /** The distance of a hit: a root 0.5 (-b +/- sqrt(delta)), or -b/2 in the tangent case. */
  lemma SphereHitDistance(s: Sphere, r: Vec3, o: Vec3, glm: Glm)
    requires IntersectionRaySphere(s, r, o, glm).Some?
    ensures var b, delta := SphereB(s, r, o), Discriminant(s, r, o);
      var t := IntersectionRaySphere(s, r, o, glm).value.t;
      && (delta >= Epsilon ==> t == 0.5 * (-b + glm.sqrt(delta)) || t == 0.5 * (-b - glm.sqrt(delta)))
      && (delta < Epsilon ==> 0.0 <= delta && t == -b / 2.0)
  {
    SphereTestCases(s, r, o, glm);
  }

  /** Either root 0.5 (-b +/- sq) of t^2 + b t + c, with sq^2 = b^2 - 4c, solves it. */
  lemma RootSolves(b: real, c: real, sq: real, t: real)
    requires sq * sq == b * b - 4.0 * c
    requires t == 0.5 * (-b + sq) || t == 0.5 * (-b - sq)
    ensures t * t + b * t + c == 0.0
  {
    assert t * t + b * t + c == 0.25 * (sq * sq - b * b) + c;
  }

  /** At t = -b/2 the quadratic t^2 + b t + c takes the value -(b^2 - 4c)/4. */
  lemma TangentQuadratic(b: real, c: real, t: real)
    requires t == -b / 2.0
    ensures t * t + b * t + c == -(b * b - 4.0 * c) / 4.0
  {
  }

  /** (a + t k)^2 = a^2 + 2 t (k a) + t^2 (k k). */
  lemma SquareOfSum(a: real, k: real, t: real)
    ensures (a + t * k) * (a + t * k) == a * a + 2.0 * t * (k * a) + t * t * (k * k)
  {
  }

  /** For a unit direction, |O + t r - C|^2 - R^2 is the quadratic t^2 + b t + c. */
  lemma OnSphereIffQuadratic(s: Sphere, r: Vec3, o: Vec3, t: real)
    requires Dot(r, r) == 1.0
    ensures var d := Sub(Add(o, Scale(t, r)), s.pos);
      Dot(d, d) - s.radius * s.radius == Quadratic(s, r, o, t)
  {
    var oc := Sub(o, s.pos);
    var d := Sub(Add(o, Scale(t, r)), s.pos);
    assert d.x == oc.x + t * r.x && d.y == oc.y + t * r.y && d.z == oc.z + t * r.z;
    SquareOfSum(oc.x, r.x, t);
    SquareOfSum(oc.y, r.y, t);
    SquareOfSum(oc.z, r.z, t);
    assert t * t * (r.x * r.x) + t * t * (r.y * r.y) + t * t * (r.z * r.z) == t * t * Dot(r, r);
    assert Dot(d, d) == Dot(oc, oc) + 2.0 * t * Dot(r, oc) + t * t;
  }

  // ---------------------------------------------------------------------------
  // Half-space test

  /**
   * IntersectionHalfSpaceTriangle: with type >= 0, whether some vertex has
   * coord[axis] >= value; with type < 0, whether some vertex has coord[axis] <= value.
   */
  function IntersectionHalfSpaceTriangle(tri: Triangle, value: real, axis: int, kind: int): (r: bool)
    requires 0 <= axis < 3
    ensures kind >= 0 ==> (r <==> exists i :: 0 <= i < 3 && tri.V(i).Get(axis) >= value)
    ensures kind < 0 ==> (r <==> exists i :: 0 <= i < 3 && tri.V(i).Get(axis) <= value)
  {
    if kind >= 0 then
      tri.V(0).Get(axis) >= value || tri.V(1).Get(axis) >= value || tri.V(2).Get(axis) >= value
    else
      tri.V(0).Get(axis) <= value || tri.V(1).Get(axis) <= value || tri.V(2).Get(axis) <= value
  }

  /** Every triangle meets at least one of the two closed half-spaces of any plane. */
  lemma HalfSpacesCover(tri: Triangle, value: real, axis: int)
    requires 0 <= axis < 3
    ensures IntersectionHalfSpaceTriangle(tri, value, axis, -1)
         || IntersectionHalfSpaceTriangle(tri, value, axis, 1)
  {
    if tri.V(0).Get(axis) >= value {
      assert IntersectionHalfSpaceTriangle(tri, value, axis, 1);
    } else {
      assert IntersectionHalfSpaceTriangle(tri, value, axis, -1);
    }
  }

  /** A triangle whose centroid lies on the plane meets both half-spaces (it straddles). */
  lemma CentroidOnPlaneStraddles(tri: Triangle, axis: int)
    requires 0 <= axis < 3
    ensures var value := Centroid(tri).Get(axis);
      IntersectionHalfSpaceTriangle(tri, value, axis, -1)
      && IntersectionHalfSpaceTriangle(tri, value, axis, 1)
  {
    var value := Centroid(tri).Get(axis);
    var a, b, c := tri.V(0).Get(axis), tri.V(1).Get(axis), tri.V(2).Get(axis);
    assert value == (a + b + c) / 3.0;
    if a <= value { assert tri.V(0).Get(axis) <= value; }
    else if b <= value { assert tri.V(1).Get(axis) <= value; }
    else { assert tri.V(2).Get(axis) <= value; }
    if a >= value { assert tri.V(0).Get(axis) >= value; }
    else if b >= value { assert tri.V(1).Get(axis) >= value; }
    else { assert tri.V(2).Get(axis) >= value; }
  }
}

=== FILE: Primitives.dfy ===
/**
 * Geometric value types of the renderer (renderer/geometries/Primitives.h and .cpp):
 * 3-vectors, RGBA colours, 3x3 matrices stored by columns, triangles, spheres, lights,
 * their material attributes, and the axis-aligned bounding box with its Split operation.
 * Coordinates and colours are reals; float rounding is not modelled.
 */
module Primitives {

  // ---------------------------------------------------------------------------
  // Vectors

  datatype Vec3 = Vec3(x: real, y: real, z: real) {

    /** Component `axis` (0 = x, 1 = y, 2 = z), as glm's operator[]. */
    function Get(axis: int): real
      requires 0 <= axis < 3
    {
      if axis == 0 then x else if axis == 1 then y else z
    }

    /** The vector with component `axis` replaced by `value`. */
    function Set(axis: int, value: real): (v: Vec3)
      requires 0 <= axis < 3
      ensures v.Get(axis) == value
      ensures forall a :: 0 <= a < 3 && a != axis ==> v.Get(a) == Get(a)
    {
      if axis == 0 then Vec3(value, y, z)
      else if axis == 1 then Vec3(x, value, z)
      else Vec3(x, y, value)
    }
  }

  const Zero3 := Vec3(0.0, 0.0, 0.0)
  const One3 := Vec3(1.0, 1.0, 1.0)

  function Add(a: Vec3, b: Vec3): Vec3 { Vec3(a.x + b.x, a.y + b.y, a.z + b.z) }
  function Sub(a: Vec3, b: Vec3): Vec3 { Vec3(a.x - b.x, a.y - b.y, a.z - b.z) }
  function Neg(a: Vec3): Vec3 { Vec3(-a.x, -a.y, -a.z) }
  function Scale(k: real, a: Vec3): Vec3 { Vec3(k * a.x, k * a.y, k * a.z) }
  /** Component-wise product, glm's vec3 * vec3. */
  function Mul(a: Vec3, b: Vec3): Vec3 { Vec3(a.x * b.x, a.y * b.y, a.z * b.z) }
  function Dot(a: Vec3, b: Vec3): real { a.x * b.x + a.y * b.y + a.z * b.z }

  /** glm::reflect(i, n) = i - 2 dot(n, i) n. */
  function Reflect(i: Vec3, n: Vec3): Vec3 { Sub(i, Scale(2.0 * Dot(n, i), n)) }

  /** RGBA colour, glm::vec4 with components [0..3] = r, g, b, a. */
  datatype Vec4 = Vec4(r: real, g: real, b: real, a: real) {
    function Rgb(): Vec3 { Vec3(r, g, b) }
  }

  function Add4(p: Vec4, q: Vec4): Vec4 { Vec4(p.r + q.r, p.g + q.g, p.b + q.b, p.a + q.a) }
  function Scale4(k: real, p: Vec4): Vec4 { Vec4(k * p.r, k * p.g, k * p.b, k * p.a) }
  function WithAlpha(c: Vec3, alpha: real): Vec4 { Vec4(c.x, c.y, c.z, alpha) }

  /** A glm::mat3 given by its three columns; M * b = b.x c0 + b.y c1 + b.z c2. */
  datatype Mat3 = Mat3(c0: Vec3, c1: Vec3, c2: Vec3) {
    function MulVec(b: Vec3): Vec3 { Add(Add(Scale(b.x, c0), Scale(b.y, c1)), Scale(b.z, c2)) }

    /** Column `i`, as `m[i]`. */
    function Col(i: int): Vec3
      requires 0 <= i < 3
    {
      if i == 0 then c0 else if i == 1 then c1 else c2
    }

    /** The matrix with column `i` replaced, as `m[i] = c`. */
    function WithCol(i: int, c: Vec3): (m: Mat3)
      requires 0 <= i < 3
      ensures m.Col(i) == c
      ensures forall j :: 0 <= j < 3 && j != i ==> m.Col(j) == Col(j)
    {
      if i == 0 then Mat3(c, c1, c2) else if i == 1 then Mat3(c0, c, c2) else Mat3(c0, c1, c)
    }
  }

  // ---------------------------------------------------------------------------
  // Primitives and materials

  datatype Triangle = Triangle(v0: Vec3, v1: Vec3, v2: Vec3) {
    /** Vertex `i`, as `triangle.v[i]`. */
    function V(i: int): Vec3
      requires 0 <= i < 3
    {
      if i == 0 then v0 else if i == 1 then v1 else v2
    }

    /** The triangle with vertex `i` replaced, as `triangle.v[i] = p`. */
    function WithV(i: int, p: Vec3): (t: Triangle)
      requires 0 <= i < 3
      ensures t.V(i) == p
      ensures forall j :: 0 <= j < 3 && j != i ==> t.V(j) == V(j)
    {
      if i == 0 then Triangle(p, v1, v2) else if i == 1 then Triangle(v0, p, v2) else Triangle(v0, v1, p)
    }
  }

  /** Per-vertex material, one matrix column (or vector component) per vertex. */
  datatype TriangleAttrib = TriangleAttrib(kd: Mat3, ks: Mat3, n: Mat3, shininess: Vec3, nRefr: real)

  datatype Sphere = Sphere(pos: Vec3, radius: real)

  datatype SphereAttrib = SphereAttrib(kd: Vec3, ks: Vec3, shininess: real, nRefr: real)

  datatype Light = Light(pos: Vec3, col: Vec3)

  /** Centre of mass of a triangle: the average of its three vertices. */
  function Centroid(t: Triangle): (c: Vec3)
    ensures forall a :: 0 <= a < 3 ==> c.Get(a) == (t.v0.Get(a) + t.v1.Get(a) + t.v2.Get(a)) / 3.0
  {
    Scale(1.0 / 3.0, Add(Add(t.v0, t.v1), t.v2))
  }

  // ---------------------------------------------------------------------------
  // Bounding boxes

  datatype BoundingBox = BoundingBox(mMin: Vec3, mMax: Vec3)

  /** Closed-box membership on all three axes. */
  predicate InBox(p: Vec3, bb: BoundingBox) {
    forall a :: 0 <= a < 3 ==> bb.mMin.Get(a) <= p.Get(a) <= bb.mMax.Get(a)
  }

  /** `inner` lies inside `outer` on every axis. */
  predicate Contains(outer: BoundingBox, inner: BoundingBox) {
    forall a :: 0 <= a < 3 ==>
      outer.mMin.Get(a) <= inner.mMin.Get(a) && inner.mMax.Get(a) <= outer.mMax.Get(a)
  }

  /**
   * BoundingBox::Split: a copy of the box with one bound replaced by `value`:
   * the lower bound when side > 0, the upper bound otherwise (side 0 included).
   */
  function Split(bb: BoundingBox, value: real, axis: int, side: int): (sub: BoundingBox)
    requires 0 <= axis < 3
    ensures side > 0 ==> sub.mMin.Get(axis) == value && sub.mMax == bb.mMax
    ensures side <= 0 ==> sub.mMax.Get(axis) == value && sub.mMin == bb.mMin
    ensures forall a :: 0 <= a < 3 && a != axis ==>
      sub.mMin.Get(a) == bb.mMin.Get(a) && sub.mMax.Get(a) == bb.mMax.Get(a)
  {
    if side > 0 then bb.(mMin := bb.mMin.Set(axis, value))
    else bb.(mMax := bb.mMax.Set(axis, value))
  }

  /** A split inside the box's extent on that axis yields child boxes inside the parent. */
  lemma SplitContained(bb: BoundingBox, value: real, axis: int, side: int)
    requires 0 <= axis < 3
    requires bb.mMin.Get(axis) <= value <= bb.mMax.Get(axis)
    ensures Contains(bb, Split(bb, value, axis, side))
  {
    var sub := Split(bb, value, axis, side);
    forall a | 0 <= a < 3
      ensures bb.mMin.Get(a) <= sub.mMin.Get(a) && sub.mMax.Get(a) <= bb.mMax.Get(a)
    {
      if a != axis {
        assert sub.mMin.Get(a) == bb.mMin.Get(a) && sub.mMax.Get(a) == bb.mMax.Get(a);
      }
    }
  }

  /** The two children of one split meet at the splitting plane. */
  lemma SplitChildrenMeet(bb: BoundingBox, value: real, axis: int)
    requires 0 <= axis < 3
    ensures Split(bb, value, axis, -1).mMax.Get(axis) == value
    ensures Split(bb, value, axis, 1).mMin.Get(axis) == value
  {
  }

  /** Every point of the parent box lies in the left child or in the right child. */
  lemma SplitCovers(bb: BoundingBox, value: real, axis: int, p: Vec3)
    requires 0 <= axis < 3
    requires InBox(p, bb)
    ensures InBox(p, Split(bb, value, axis, -1)) || InBox(p, Split(bb, value, axis, 1))
  {
    if p.Get(axis) <= value {
      SplitKeeps(bb, value, axis, -1, p);
    } else {
      SplitKeeps(bb, value, axis, 1, p);
    }
  }

  /** A point of the parent box on the child's side of the plane lies in that child. */
  lemma SplitKeeps(bb: BoundingBox, value: real, axis: int, side: int, p: Vec3)
    requires 0 <= axis < 3
    requires InBox(p, bb)
    requires side > 0 ==> value <= p.Get(axis)
    requires side <= 0 ==> p.Get(axis) <= value
    ensures InBox(p, Split(bb, value, axis, side))
  {
    var sub := Split(bb, value, axis, side);
    forall a | 0 <= a < 3
      ensures sub.mMin.Get(a) <= p.Get(a) <= sub.mMax.Get(a)
    {
      assert bb.mMin.Get(a) <= p.Get(a) <= bb.mMax.Get(a);
    }
  }
}

=== FILE: RayTracer.dfy ===
/**
 * The ray tracer (renderer/ray_tracer/RayTracer.cpp, RayTracer.h): the recursive TraceRay,
 * the quantisation of a colour into the bytes of a pixel, and the three passes that fill an
 * image buffer: the single-thread render, the row-striped parallel render and the adaptive
 * anti-aliasing pass. The workers of a parallel pass are run one after another in order of
 * their id; each worker's rows are the stripe it is given.
 */
module RayTracing {
  import opened Wrappers
  import opened Primitives
  import opened MathFunctions
  import opened HitScan
  import opened Scene
  import opened Image
  import opened Config

  /**
   * The numerical kernels the tracer takes from glm, <cmath> and the camera: `divide` is
   * float division (a zero divisor included), `castRay` is Camera::CastRay(x, y, w, h), and
   * `gradientThreshold` is kGradientThreshold, whose value is not part of the model.
   */
  datatype Kernels = Kernels(glm: Glm, divide: (real, real) -> real,
                             castRay: (Camera, real, real, real, real) -> Vec3, gradientThreshold: real)

  /** What a render draws: the scene, the kernels and the recursion depth of the configuration. */
  datatype Frame = Frame(scene: SceneData, kernels: Kernels, depth: int)

  // ---------------------------------------------------------------------------
  // TraceRay

  /** The branch TraceRay takes after the two nearest-primitive scans. */
  datatype Choice = TriangleFirst | SphereFirst | NoHit

  /**
   * The triangle is shaded when it is hit and the sphere is not, or is hit no nearer; the
   * sphere when it is hit and the triangle is not, or is hit strictly farther; else nothing
   * was hit.
   */
  function Choose(th: Option<Hit>, sh: Option<Hit>): (c: Choice)
    ensures c == NoHit <==> th.None? && sh.None?
    ensures c == TriangleFirst <==> th.Some? && (sh.None? || th.value.t <= sh.value.t)
    ensures th.Some? && sh.Some? && th.value.t == sh.value.t ==> c == TriangleFirst
  {
    if (th.Some? && sh.None?) || (th.Some? && sh.Some? && th.value.t <= sh.value.t) then TriangleFirst
    else if (th.None? && sh.Some?) || (th.Some? && sh.Some? && sh.value.t < th.value.t) then SphereFirst
    else NoHit
  }

  /** The shading inputs at a hit point: position, normal, Kd, Ks, shininess, index of refraction. */
  datatype Surface = Surface(fPos: Vec3, n: Vec3, kd: Vec3, ks: Vec3, alpha: real, nRefr: real)

  /** A triangle hit: the per-vertex attributes interpolated with the barycentric weights. */
  function TriangleSurface(sd: SceneData, h: Hit, glm: Glm): Surface
    requires Parallel(sd) && 0 <= h.index < |sd.triangles|
  {
    var tri, attrib, b := sd.triangles[h.index], sd.triangleAttribs[h.index], h.aux;
    Surface(Add(Add(Scale(b.x, tri.v0), Scale(b.y, tri.v1)), Scale(b.z, tri.v2)),
            glm.normalize(attrib.n.MulVec(b)), attrib.kd.MulVec(b), attrib.ks.MulVec(b),
            Dot(attrib.shininess, b), attrib.nRefr)
  }

  /** A sphere hit: the intersection point, the sphere's normal there and its attributes. */
  function SphereSurface(sd: SceneData, h: Hit): Surface
    requires Parallel(sd) && 0 <= h.index < |sd.spheres|
  {
    var attrib := sd.sphereAttribs[h.index];
    Surface(h.intersection, h.aux, attrib.kd, attrib.ks, attrib.shininess, attrib.nRefr)
  }

  /** Every Ks channel exceeds epsilon: the condition for tracing the reflected ray. */
  predicate Specular(ks: Vec3) {
    ks.x > Epsilon && ks.y > Epsilon && ks.z > Epsilon
  }

  /** Reflectance R, transmittance T, and the refracted ray when one is traced. */
  datatype Fresnel = Fresnel(reflectance: real, transmittance: real, refracted: Option<Vec3>)

  /**
   * The refraction step: only when the index of refraction differs from air's by more than
   * epsilon. Going from inside out (cos_ti < 0) the two media are swapped; R0 is
   * ((n1 - n2) / (n1 + n2))^2 and R = R0 + (1 - R0)(1 - cos_ti).
   */
  function FresnelTerms(r: Vec3, s: Surface, k: Kernels): (f: Fresnel)
    ensures f.reflectance + f.transmittance == 1.0
    ensures f.refracted.Some? <==> Abs(s.nRefr - 1.0) > Epsilon
    ensures f.refracted.None? ==> f.reflectance == 1.0
  {
    if Abs(s.nRefr - 1.0) > Epsilon then
      var cosTi := -Dot(r, s.n);
      var n1 := if cosTi < 0.0 then s.nRefr else 1.0;
      var n2 := if cosTi < 0.0 then 1.0 else s.nRefr;
      var ratio := k.divide(n1, n2);
      var sin2Tt := ratio * ratio * (1.0 - cosTi * cosTi);
      var cosTt := k.glm.sqrt(1.0 - sin2Tt);
      var q := k.divide(n1 - n2, n1 + n2);
      var r0 := q * q;
      var refl := r0 + (1.0 - r0) * (1.0 - cosTi);
      Fresnel(refl, 1.0 - refl, Some(k.glm.normalize(Add(Scale(ratio, r), Scale(ratio * cosTi - cosTt, s.n)))))
    else
      Fresnel(1.0, 0.0, None)
  }

  /**
   * TraceRay(r, O, depth): the background when the depth is used up or nothing is hit,
   * otherwise the shading of the nearer primitive, with alpha 1.
   */
  function TraceRay(sd: SceneData, r: Vec3, o: Vec3, depth: int, k: Kernels): (c: Vec4)
    requires Parallel(sd)
    ensures depth <= 0 ==> c == sd.background
    ensures depth > 0 ==>
      var choice := Choose(BruteForceTriangle(sd.triangles, r, o, k.glm), BruteForceSphere(sd.spheres, r, o, k.glm));
      (choice == NoHit ==> c == sd.background) && (choice != NoHit ==> c.a == 1.0)
    decreases depth, 1
  {
    if depth > 0 then
      var th := BruteForceTriangle(sd.triangles, r, o, k.glm);
      var sh := BruteForceSphere(sd.spheres, r, o, k.glm);
      BruteForceTriangleSound(sd.triangles, r, o, k.glm);
      BruteForceSphereSound(sd.spheres, r, o, k.glm);
      match Choose(th, sh)
      case TriangleFirst => Shade(sd, r, depth, TriangleSurface(sd, th.value, k.glm), k)
      case SphereFirst => Shade(sd, r, depth, SphereSurface(sd, sh.value), k)
      case NoHit => sd.background
    else
      sd.background
  }

  /** The reflected colour: traced one level deeper only for a specular surface, else black. */
  function Reflected(sd: SceneData, r: Vec3, depth: int, s: Surface, k: Kernels): Vec3
    requires Parallel(sd) && depth > 1
    decreases depth - 1, 2
  {
    if Specular(s.ks) then TraceRay(sd, k.glm.normalize(Reflect(r, s.n)), s.fPos, depth - 1, k).Rgb()
    else Zero3
  }

  /** The refracted colour: traced one level deeper only when the refraction step runs, else black. */
  function Refracted(sd: SceneData, r: Vec3, depth: int, s: Surface, k: Kernels): Vec3
    requires Parallel(sd) && depth > 1
    decreases depth - 1, 2
  {
    var f := FresnelTerms(r, s, k);
    if f.refracted.Some? then TraceRay(sd, f.refracted.value, s.fPos, depth - 1, k).Rgb() else Zero3
  }

  /**
   * The colour at a hit: the local Phong colour weighted by 1 - Ks, plus at depth 2 or more
   * Ks times the Fresnel-weighted reflected and refracted colours.
   */
  function Shade(sd: SceneData, r: Vec3, depth: int, s: Surface, k: Kernels): (c: Vec4)
    requires Parallel(sd) && depth > 0
    ensures c.a == 1.0
    decreases depth, 0
  {
    var local := PhongIllumination(sd, s.fPos, s.n, s.kd, k.glm);
    if depth == 1 then
      WithAlpha(Mul(local, Sub(One3, s.ks)), 1.0)
    else
      var f := FresnelTerms(r, s, k);
      var mixed := Add(Scale(f.reflectance, Reflected(sd, r, depth, s, k)),
                       Scale(f.transmittance, Refracted(sd, r, depth, s, k)));
      WithAlpha(Add(Mul(s.ks, mixed), Mul(Sub(One3, s.ks), local)), 1.0)
  }

  /** Nothing along the ray: every triangle and every sphere misses (or is hit beyond FLT_MAX). */
  predicate Misses(sd: SceneData, r: Vec3, o: Vec3, glm: Glm) {
    && (forall i :: 0 <= i < |sd.triangles| ==> !Visible(TriangleHit(sd.triangles, i, r, o, glm)))
    && (forall i :: 0 <= i < |sd.spheres| ==> !Visible(SphereHitAt(sd.spheres, i, r, o, glm)))
  }

  /**
   * A ray that no primitive reports a hit for sees the background colour, at every depth;
   * a ray that hits something gets alpha 1 whenever depth is left.
   */
  lemma MissSeesBackground(sd: SceneData, r: Vec3, o: Vec3, depth: int, k: Kernels)
    requires Parallel(sd)
    ensures Misses(sd, r, o, k.glm) ==> TraceRay(sd, r, o, depth, k) == sd.background
    ensures !Misses(sd, r, o, k.glm) && depth > 0 ==> TraceRay(sd, r, o, depth, k).a == 1.0
  {
    BruteForceTriangleSound(sd.triangles, r, o, k.glm);
    BruteForceSphereSound(sd.spheres, r, o, k.glm);
  }

  /** When a triangle and a sphere are hit at the same distance, the triangle is shaded. */
  lemma TieShadesTriangle(sd: SceneData, r: Vec3, o: Vec3, depth: int, k: Kernels)
    requires Parallel(sd) && depth > 0
    requires var th, sh := BruteForceTriangle(sd.triangles, r, o, k.glm), BruteForceSphere(sd.spheres, r, o, k.glm);
      th.Some? && sh.Some? && th.value.t == sh.value.t
    ensures var th := BruteForceTriangle(sd.triangles, r, o, k.glm);
      0 <= th.value.index < |sd.triangles|
      && TraceRay(sd, r, o, depth, k) == Shade(sd, r, depth, TriangleSurface(sd, th.value, k.glm), k)
  {
    BruteForceTriangleSound(sd.triangles, r, o, k.glm);
  }

  /** At depth 1 a hit is shaded with its local colour only: local (1 - Ks), alpha 1. */
  lemma LastBounceIsLocal(sd: SceneData, r: Vec3, s: Surface, k: Kernels)
    requires Parallel(sd)
    ensures Shade(sd, r, 1, s, k)
      == WithAlpha(Mul(PhongIllumination(sd, s.fPos, s.n, s.kd, k.glm), Sub(One3, s.ks)), 1.0)
  {
  }

  /**
   * A surface without a specular part (Ks = 0) is shaded with its local colour whatever the
   * depth: neither the reflected nor the refracted colour reaches the pixel.
   */
  lemma MatteIgnoresDepth(sd: SceneData, r: Vec3, depth: int, s: Surface, k: Kernels)
    requires Parallel(sd) && depth > 0 && s.ks == Zero3
    ensures Shade(sd, r, depth, s, k) == Shade(sd, r, 1, s, k)
  {
    if depth > 1 {
      var f := FresnelTerms(r, s, k);
      MatteMix(s.ks, Add(Scale(f.reflectance, Reflected(sd, r, depth, s, k)),
                         Scale(f.transmittance, Refracted(sd, r, depth, s, k))),
               PhongIllumination(sd, s.fPos, s.n, s.kd, k.glm));
    }
  }

  lemma MatteMix(ks: Vec3, mixed: Vec3, local: Vec3)
    requires ks == Zero3
    ensures Add(Mul(ks, mixed), Mul(Sub(One3, ks), local)) == Mul(Sub(One3, ks), local)
  {
    assert Mul(ks, mixed) == Zero3;
  }

  /**
   * Without the refraction step the Fresnel weights are R = 1, T = 0: a surface of air's
   * index shows Ks times the reflected colour plus (1 - Ks) times its local colour.
   */
  lemma SameMediumReflectsOnly(sd: SceneData, r: Vec3, depth: int, s: Surface, k: Kernels)
    requires Parallel(sd) && depth > 1 && Abs(s.nRefr - 1.0) <= Epsilon
    ensures Shade(sd, r, depth, s, k)
      == WithAlpha(Add(Mul(s.ks, Reflected(sd, r, depth, s, k)),
                       Mul(Sub(One3, s.ks), PhongIllumination(sd, s.fPos, s.n, s.kd, k.glm))), 1.0)
  {
    var f := FresnelTerms(r, s, k);
    var refl := Reflected(sd, r, depth, s, k);
    assert Refracted(sd, r, depth, s, k) == Zero3;
    assert Add(Scale(1.0, refl), Scale(0.0, Zero3)) == refl;
  }

  /** Exact division: what `divide` computes whenever the divisor is not zero. */
  predicate ExactDivision(k: Kernels, a: real, b: real) {
    b != 0.0 ==> k.divide(a, b) == a / b
  }

  lemma FactorSign(x: real, c: real)
    requires 0.0 < c && 0.0 <= x * c
    ensures 0.0 <= x
  {
  }

  lemma SquareOfRatio(a: real, b: real)
    requires 0.0 < a && 0.0 < b
    ensures 0.0 <= ((a - b) / (a + b)) * ((a - b) / (a + b)) <= 1.0
  {
    var q := (a - b) / (a + b);
    assert q * (a + b) == a - b;
    FactorSign(1.0 - q, a + b);
    FactorSign(1.0 + q, a + b);
    assert q * q <= 1.0 by {
      if q >= 0.0 {
        assert q * q <= q * 1.0;
      } else {
        assert q * q <= (-q) * 1.0;
      }
    }
  }

  lemma WeightBetween(r0: real, c: real)
    requires 0.0 <= r0 <= 1.0 && 0.0 <= c <= 1.0
    ensures r0 <= r0 + (1.0 - r0) * (1.0 - c) <= 1.0
  {
    assert (1.0 - r0) * (1.0 - c) <= (1.0 - r0) * 1.0;
  }

  /**
   * For a ray entering a medium of positive index (0 <= cos_ti <= 1) and exact division,
   * the reflectance and transmittance are weights: both lie in [0, 1].
   */
  lemma EnteringWeightsInUnit(r: Vec3, s: Surface, k: Kernels)
    requires s.nRefr > 0.0 && 0.0 <= -Dot(r, s.n) <= 1.0
    requires ExactDivision(k, 1.0 - s.nRefr, 1.0 + s.nRefr)
    ensures var f := FresnelTerms(r, s, k);
      0.0 <= f.reflectance <= 1.0 && 0.0 <= f.transmittance <= 1.0
  {
    if Abs(s.nRefr - 1.0) > Epsilon {
      SquareOfRatio(1.0, s.nRefr);
      var q := k.divide(1.0 - s.nRefr, 1.0 + s.nRefr);
      WeightBetween(q * q, -Dot(r, s.n));
    }
  }

  /**
   * Leaving a medium (cos_ti < 0) the linear Fresnel term is not a weight: with media 1.5
   * and 1 and cos_ti = -1/2 the reflectance is 1.48 and the transmittance -0.48.
   */
  lemma LeavingReflectanceExceedsOne(k: Kernels)
    requires ExactDivision(k, 0.5, 2.5)
    ensures var s := Surface(Zero3, Vec3(0.0, 0.0, 1.0), Zero3, Zero3, 0.0, 1.5);
      var f := FresnelTerms(Vec3(0.0, 0.0, 0.5), s, k);
      f.reflectance == 1.48 && f.transmittance == -0.48
  {
  }

  // ---------------------------------------------------------------------------
  // The rays a trace casts

  /** The number of TraceRay invocations one call makes, itself included. */
  function Rays(sd: SceneData, r: Vec3, o: Vec3, depth: int, k: Kernels): nat
    requires Parallel(sd)
    decreases depth, 1
  {
    if depth > 0 then
      var th := BruteForceTriangle(sd.triangles, r, o, k.glm);
      var sh := BruteForceSphere(sd.spheres, r, o, k.glm);
      BruteForceTriangleSound(sd.triangles, r, o, k.glm);
      BruteForceSphereSound(sd.spheres, r, o, k.glm);
      match Choose(th, sh)
      case TriangleFirst => 1 + SecondaryRays(sd, r, depth, TriangleSurface(sd, th.value, k.glm), k)
      case SphereFirst => 1 + SecondaryRays(sd, r, depth, SphereSurface(sd, sh.value), k)
      case NoHit => 1
    else
      1
  }

  /** The invocations Shade makes: none at depth 1, else the reflected and refracted traces it runs. */
  function SecondaryRays(sd: SceneData, r: Vec3, depth: int, s: Surface, k: Kernels): nat
    requires Parallel(sd) && depth > 0
    decreases depth, 0
  {
    if depth == 1 then 0
    else
      var f := FresnelTerms(r, s, k);
      (if Specular(s.ks) then Rays(sd, k.glm.normalize(Reflect(r, s.n)), s.fPos, depth - 1, k) else 0)
      + (if f.refracted.Some? then Rays(sd, f.refracted.value, s.fPos, depth - 1, k) else 0)
  }

  function Pow2(n: nat): (p: nat)
    ensures p >= 1
  {
    if n == 0 then 1 else 2 * Pow2(n - 1)
  }

  /**
   * Each level makes at most two recursive calls, each one level deeper, so a trace at depth
   * d >= 1 runs at most 2^d - 1 invocations in all.
   */
  lemma {:induction false} RaysBound(sd: SceneData, r: Vec3, o: Vec3, depth: int, k: Kernels)
    requires Parallel(sd) && depth >= 1
    ensures Rays(sd, r, o, depth, k) <= Pow2(depth) - 1
    decreases depth, 1
  {
    var th := BruteForceTriangle(sd.triangles, r, o, k.glm);
    var sh := BruteForceSphere(sd.spheres, r, o, k.glm);
    BruteForceTriangleSound(sd.triangles, r, o, k.glm);
    BruteForceSphereSound(sd.spheres, r, o, k.glm);
    match Choose(th, sh)
    case TriangleFirst => SecondaryBound(sd, r, depth, TriangleSurface(sd, th.value, k.glm), k);
    case SphereFirst => SecondaryBound(sd, r, depth, SphereSurface(sd, sh.value), k);
    case NoHit =>
  }

  lemma {:induction false} SecondaryBound(sd: SceneData, r: Vec3, depth: int, s: Surface, k: Kernels)
    requires Parallel(sd) && depth >= 1
    ensures SecondaryRays(sd, r, depth, s, k) <= Pow2(depth) - 2
    decreases depth, 0
  {
    if depth > 1 {
      var f := FresnelTerms(r, s, k);
      if Specular(s.ks) {
        RaysBound(sd, k.glm.normalize(Reflect(r, s.n)), s.fPos, depth - 1, k);
      }
      if f.refracted.Some? {
        RaysBound(sd, f.refracted.value, s.fPos, depth - 1, k);
      }
    }
  }

  // ---------------------------------------------------------------------------
  // Bytes of a pixel

  /** static_cast<uchar>(std::min(v, 1.0f) * 255): truncation toward zero, then the low byte. */
  function Quantize(v: real): (b: byte)
    ensures v >= 1.0 ==> b == 255
    ensures 0.0 <= v <= 1.0 ==> b as real <= 255.0 * v < b as real + 1.0
  {
    var m := Min(v, 1.0) * 255.0;
    var t := if m >= 0.0 then m.Floor else -((-m).Floor);
    (t % 256) as byte
  }

  /** Brighter channels never get smaller bytes, for values within [0, 1] and above. */
  lemma QuantizeMonotone(u: real, v: real)
    requires 0.0 <= u <= v
    ensures Quantize(u) <= Quantize(v)
  {
    if v < 1.0 {
      assert (Min(u, 1.0) * 255.0).Floor <= (Min(v, 1.0) * 255.0).Floor;
    }
  }

  /** The byte a colour gives channel `c`. */
  function ChannelByte(rgba: Vec4, c: int): byte {
    if c == ChannelR then Quantize(rgba.r)
    else if c == ChannelG then Quantize(rgba.g)
    else if c == ChannelB then Quantize(rgba.b)
    else Quantize(rgba.a)
  }

  /** The four writes of a pixel, in the order R, G, B, A. */
  function StoreColor(b: seq<byte>, o: int, rgba: Vec4): (s: seq<byte>)
    requires 0 <= o && o + ChannelA < |b|
    ensures KeptOutside(b, s, o, o + PixelSize)
    ensures forall c :: IsChannel(c) ==> s[o + c] == ChannelByte(rgba, c)
  {
    b[o + ChannelR := Quantize(rgba.r)][o + ChannelG := Quantize(rgba.g)]
     [o + ChannelB := Quantize(rgba.b)][o + ChannelA := Quantize(rgba.a)]
  }

  /** `b2` agrees with `b1` on every byte outside [lo, hi). */
  predicate KeptOutside(b1: seq<byte>, b2: seq<byte>, lo: int, hi: int) {
    |b1| == |b2| && forall i :: 0 <= i < |b1| && (i < lo || hi <= i) ==> b1[i] == b2[i]
  }

  /** Pixel (x, y) of `b` holds the bytes of colour `rgba`. */
  predicate PixelIs(b: seq<byte>, w: int, x: int, y: int, rgba: Vec4) {
    var o := PixelOffset(w, x, y);
    && 0 <= o && o + ChannelA < |b|
    && b[o + ChannelB] == ChannelByte(rgba, ChannelB) && b[o + ChannelG] == ChannelByte(rgba, ChannelG)
    && b[o + ChannelR] == ChannelByte(rgba, ChannelR) && b[o + ChannelA] == ChannelByte(rgba, ChannelA)
  }

  /** Pixel (x, y) has the same four bytes in `b1` and `b2`. */
  predicate PixelSame(b1: seq<byte>, b2: seq<byte>, w: int, x: int, y: int) {
    var o := PixelOffset(w, x, y);
    && 0 <= o && o + ChannelA < |b1| && |b1| == |b2|
    && b1[o] == b2[o] && b1[o + 1] == b2[o + 1] && b1[o + 2] == b2[o + 2] && b1[o + 3] == b2[o + 3]
  }

  /** Row y has the same bytes in `b1` and `b2`. */
  predicate RowSame(b1: seq<byte>, b2: seq<byte>, w: int, y: int) {
    |b1| == |b2| && forall i :: 0 <= i < |b1| && RowStart(w, y) <= i < RowStart(w, y) + PixelSize * w ==> b1[i] == b2[i]
  }

  /** The four bytes a render writes for pixel (x, y), R first. */
  method StorePixel(img: ImgBuffer, x: int, y: int, rgba: Vec4)
    requires img.Valid() && InImage(img.width, img.height, x, y)
    modifies img.buffer
    ensures 0 <= PixelOffset(img.width, x, y) && PixelOffset(img.width, x, y) + ChannelA < img.buffer.Length
    ensures img.buffer[..] == StoreColor(old(img.buffer[..]), PixelOffset(img.width, x, y), rgba)
  {
    ChannelInBuffer(img.width, img.height, x, y, 0);
    var o := PixelOffset(img.width, x, y);
    img.buffer[o + ChannelR] := Quantize(rgba.r);
    img.buffer[o + ChannelG] := Quantize(rgba.g);
    img.buffer[o + ChannelB] := Quantize(rgba.b);
    img.buffer[o + ChannelA] := Quantize(rgba.a);
  }

  // ---------------------------------------------------------------------------
  // Rendering

  /** The colour of pixel (x, y) of a w x h image: the trace of the camera ray through it. */
  function PixelColor(f: Frame, w: int, h: int, x: int, y: int): Vec4
    requires Parallel(f.scene)
  {
    var cam := f.scene.camera;
    TraceRay(f.scene, f.kernels.castRay(cam, x as real, y as real, w as real, h as real), cam.pos, f.depth, f.kernels)
  }

  /** Every pixel of row y holds its traced colour. */
  predicate RowDone(b: seq<byte>, w: int, h: int, y: int, f: Frame)
    requires Parallel(f.scene)
  {
    forall x :: 0 <= x < w ==> PixelIs(b, w, x, y, PixelColor(f, w, h, x, y))
  }

  /** Every pixel of the image holds its traced colour. */
  predicate Rendered(b: seq<byte>, w: int, h: int, f: Frame)
    requires Parallel(f.scene)
  {
    forall y :: 0 <= y < h ==> RowDone(b, w, h, y, f)
  }

  /** A finished row stays finished while only bytes of another row change. */
  lemma RowDoneKept(b1: seq<byte>, b2: seq<byte>, w: int, h: int, y: int, yw: int, f: Frame)
    requires Parallel(f.scene) && 0 <= w && 0 <= y < h && 0 <= yw < h && y != yw
    requires KeptOutside(b1, b2, RowStart(w, yw), RowStart(w, yw) + PixelSize * w)
    requires RowDone(b1, w, h, y, f)
    ensures RowDone(b2, w, h, y, f)
  {
    if y < yw {
      RowsApart(w, y, yw);
    } else {
      RowsApart(w, yw, y);
    }
    forall x | 0 <= x < w
      ensures PixelIs(b2, w, x, y, PixelColor(f, w, h, x, y))
    {
      assert PixelIs(b1, w, x, y, PixelColor(f, w, h, x, y));
    }
  }

  /** Rendering one row leaves every other finished row finished. */
  lemma OtherRowsKept(b1: seq<byte>, b2: seq<byte>, w: int, h: int, yw: int, f: Frame)
    requires Parallel(f.scene) && 0 <= w && 0 <= yw < h
    requires KeptOutside(b1, b2, RowStart(w, yw), RowStart(w, yw) + PixelSize * w)
    ensures forall y :: 0 <= y < h && y != yw && RowDone(b1, w, h, y, f) ==> RowDone(b2, w, h, y, f)
  {
    forall y | 0 <= y < h && y != yw && RowDone(b1, w, h, y, f)
      ensures RowDone(b2, w, h, y, f)
    {
      RowDoneKept(b1, b2, w, h, y, yw, f);
    }
  }

  /** The pixels of row y from left to right. */
  function Row(w: nat, y: int): (s: seq<(int, int)>)
    ensures |s| == w && forall x :: 0 <= x < w ==> s[x] == (x, y)
  {
    seq(w, x => (x, y))
  }

  /** Rows 0 .. h-1 one after another: row-major order. */
  function RowMajor(w: nat, h: nat): seq<(int, int)>
    decreases h
  {
    if h == 0 then [] else RowMajor(w, h - 1) + Row(w, h - 1)
  }

  /** `(x1, y1)` comes strictly before `(x2, y2)` in row-major order. */
  predicate Before(p: (int, int), q: (int, int)) {
    p.1 < q.1 || (p.1 == q.1 && p.0 < q.0)
  }

  /**
   * Row-major order lists each pixel of the image exactly once: it holds only pixels of the
   * image, pixel (x, y) sits at position w y + x, and positions strictly increase in
   * (y, x) order, so no pixel repeats.
   */
  lemma {:induction false} RowMajorOrder(w: nat, h: nat)
    ensures var s := RowMajor(w, h);
      && |s| == w * h
      && (forall i :: 0 <= i < |s| ==> InImage(w, h, s[i].0, s[i].1))
      && (forall x, y :: InImage(w, h, x, y) ==> 0 <= w * y + x < |s| && s[w * y + x] == (x, y))
      && (forall i, j :: 0 <= i < j < |s| ==> Before(s[i], s[j]))
    decreases h
  {
    if h > 0 {
      RowMajorOrder(w, h - 1);
      var p, row := RowMajor(w, h - 1), Row(w, h - 1);
      var s := RowMajor(w, h);
      assert |s| == w * h by {
        assert w * (h - 1) + w == w * h;
      }
      forall x, y | InImage(w, h, x, y)
        ensures 0 <= w * y + x < |s| && s[w * y + x] == (x, y)
      {
        if y < h - 1 {
          assert InImage(w, h - 1, x, y);
        } else {
          assert s[w * y + x] == row[x];
        }
      }
      forall i, j | 0 <= i < j < |s|
        ensures Before(s[i], s[j])
      {
        if j < |p| {
          assert s[i] == p[i] && s[j] == p[j];
        } else if i < |p| {
          assert s[i] == p[i] && s[j] == row[j - |p|];
        } else {
          assert s[i] == row[i - |p|] && s[j] == row[j - |p|];
        }
      }
    }
  }

  /** The rows a worker renders: start, start + n, start + 2n, ... below `end`. */
  function Stripe(start: int, n: int, end: int): seq<int>
    requires n > 0
    decreases end - start
  {
    if start >= end then [] else [start] + Stripe(start + n, n, end)
  }

  lemma ModUnique(a: int, n: int, q: int, r: int)
    requires 0 < n && a == n * q + r && 0 <= r < n
    ensures a / n == q && a % n == r
  {
    var q', r' := a / n, a % n;
    if q' > q {
      MulMono(n, q + 1, q');
    } else if q' < q {
      MulMono(n, q' + 1, q);
    }
  }

  /** A non-negative a is a multiple of n when it is 0 or a - n is a non-negative multiple of n. */
  lemma MultipleStep(a: int, n: int)
    requires 0 < n && 0 <= a
    ensures a % n == 0 <==> a == 0 || (n <= a && (a - n) % n == 0)
  {
    if n <= a {
      ModUnique(a - n, n, (a - n) / n, (a - n) % n);
      ModUnique(a, n, (a - n) / n + 1, (a - n) % n);
    } else {
      ModUnique(a, n, 0, a);
    }
  }

  /** Row y is in the stripe from `start` exactly when it is one of start, start + n, ... below `end`. */
  lemma {:induction false} StripeMembers(start: int, n: int, end: int, y: int)
    requires n > 0
    ensures y in Stripe(start, n, end) <==> start <= y < end && (y - start) % n == 0
    decreases end - start
  {
    if start < end {
      StripeMembers(start + n, n, end, y);
      if start <= y {
        MultipleStep(y - start, n);
      }
    }
  }

  /** A residue r below n is a's residue exactly when a - r is a non-negative multiple of n. */
  lemma ResidueShift(a: int, n: int, r: int)
    requires 0 < n && 0 <= a && 0 <= r < n
    ensures (r <= a && (a - r) % n == 0) <==> r == a % n
  {
    if r == a % n {
      ModUnique(a - r, n, a / n, 0);
    }
    if r <= a && (a - r) % n == 0 {
      ModUnique(a, n, (a - r) / n, r);
    }
  }

  /** The rows worker `id` of `n` takes from rows first .. end-1. */
  function WorkerRows(n: int, first: int, end: int, id: int): seq<int>
    requires n > 0
  {
    Stripe(first + id, n, end)
  }

  /** Row y lies in the stripe of worker id exactly when id is (y - first) mod n. */
  lemma StripeOfRow(n: int, first: int, end: int, y: int, id: int)
    requires n > 0 && first <= y < end && 0 <= id < n
    ensures y in Stripe(first + id, n, end) <==> id == (y - first) % n
  {
    StripeMembers(first + id, n, end, y);
    ResidueShift(y - first, n, id);
  }

  /**
   * The stripes of workers 0 .. n-1 over rows first .. end-1 partition those rows: row y
   * belongs to the stripe of worker (y - first) mod n and to no other.
   */
  lemma StripesPartition(n: int, first: int, end: int, y: int)
    requires n > 0 && first <= y < end
    ensures y in WorkerRows(n, first, end, (y - first) % n)
    ensures forall id :: 0 <= id < n && y in WorkerRows(n, first, end, id) ==> id == (y - first) % n
  {
    StripeOfRow(n, first, end, y, (y - first) % n);
    forall id | 0 <= id < n && y in WorkerRows(n, first, end, id)
      ensures id == (y - first) % n
    {
      StripeOfRow(n, first, end, y, id);
    }
  }

  /** The rows of a stripe lie in [start, end). */
  lemma {:induction false} StripeInRange(start: int, n: int, end: int)
    requires n > 0
    ensures forall y :: y in Stripe(start, n, end) ==> start <= y < end
    decreases end - start
  {
    if start < end {
      StripeInRange(start + n, n, end);
    }
  }

  /** Pixels 0 .. x-1 of row y hold their traced colours. */
  predicate RowPrefixDone(b: seq<byte>, w: int, h: int, x: int, y: int, f: Frame)
    requires Parallel(f.scene)
  {
    forall x' :: 0 <= x' < x ==> PixelIs(b, w, x', y, PixelColor(f, w, h, x', y))
  }

  /** Storing pixel x of row y extends the finished prefix of the row by one pixel. */
  lemma RowStep(b0: seq<byte>, b1: seq<byte>, b2: seq<byte>, w: int, h: int, x: int, y: int, f: Frame)
    requires Parallel(f.scene) && InImage(w, h, x, y) && ImageBytes(w, h) <= |b1|
    requires RowPrefixDone(b1, w, h, x, y, f)
    requires KeptOutside(b0, b1, RowStart(w, y), RowStart(w, y) + PixelSize * x)
    requires 0 <= PixelOffset(w, x, y) && PixelOffset(w, x, y) + ChannelA < |b1|
    requires b2 == StoreColor(b1, PixelOffset(w, x, y), PixelColor(f, w, h, x, y))
    ensures RowPrefixDone(b2, w, h, x + 1, y, f)
    ensures KeptOutside(b0, b2, RowStart(w, y), RowStart(w, y) + PixelSize * (x + 1))
  {
    var o := PixelOffset(w, x, y);
    assert o == RowStart(w, y) + PixelSize * x;
    forall x' | 0 <= x' < x + 1
      ensures PixelIs(b2, w, x', y, PixelColor(f, w, h, x', y))
    {
      if x' < x {
        assert PixelIs(b1, w, x', y, PixelColor(f, w, h, x', y));
      }
    }
  }

  /**
   * The inner loop of a render (for x = 0 .. w-1): each pixel of row y gets the bytes of its
   * traced colour; nothing outside the row changes.
   */
  method RenderRow(img: ImgBuffer, f: Frame, y: int) returns (ghost visits: seq<(int, int)>)
    requires img.Valid() && Parallel(f.scene) && 0 <= y < img.height
    modifies img.buffer
    ensures RowPrefixDone(img.buffer[..], img.width, img.height, img.width, y, f)
    ensures RowDone(img.buffer[..], img.width, img.height, y, f)
    ensures KeptOutside(old(img.buffer[..]), img.buffer[..], RowStart(img.width, y),
                        RowStart(img.width, y) + PixelSize * img.width)
    ensures visits == Row(img.width, y)
  {
    var w, h := img.width, img.height;
    RowInBuffer(w, h, y);
    visits := [];
    var x := 0;
    while x < w
      invariant 0 <= x <= w
      invariant RowPrefixDone(img.buffer[..], w, h, x, y, f)
      invariant KeptOutside(old(img.buffer[..]), img.buffer[..], RowStart(w, y), RowStart(w, y) + PixelSize * x)
      invariant visits == Row(w, y)[..x]
    {
      ghost var before := img.buffer[..];
      var rgba := PixelColor(f, w, h, x, y);
      StorePixel(img, x, y, rgba);
      RowStep(old(img.buffer[..]), before, img.buffer[..], w, h, x, y, f);
      visits := visits + [(x, y)];
      x := x + 1;
    }
  }

  // ---------------------------------------------------------------------------
  // Adaptive anti-aliasing

  /** The brightness of pixel (x, y): the mean of its B, G and R bytes. */
  function Brightness(b: seq<byte>, w: int, x: int, y: int): real
    requires 0 <= PixelOffset(w, x, y) && PixelOffset(w, x, y) + ChannelA < |b|
  {
    var o := PixelOffset(w, x, y);
    (b[o + ChannelB] as real + b[o + ChannelG] as real + b[o + ChannelR] as real) / 3.0
  }

  /**
   * The brightness gradient at an interior pixel: the central differences to the right/left
   * and bottom/top neighbours, scaled by 1/255, and the length of that vector.
   */
  function Gradient(b: seq<byte>, w: int, h: int, x: int, y: int, k: Kernels): real
    requires 1 <= x < w - 1 && 1 <= y < h - 1 && ImageBytes(w, h) <= |b|
  {
    ChannelInBuffer(w, h, x + 1, y, 0);
    ChannelInBuffer(w, h, x - 1, y, 0);
    ChannelInBuffer(w, h, x, y + 1, 0);
    ChannelInBuffer(w, h, x, y - 1, 0);
    var dx := (Brightness(b, w, x + 1, y) - Brightness(b, w, x - 1, y)) / 255.0;
    var dy := (Brightness(b, w, x, y + 1) - Brightness(b, w, x, y - 1)) / 255.0;
    k.glm.sqrt(dx * dx + dy * dy)
  }

  /** Sample i of n around pixel (x, y): the ray through (x + cos(theta)/2, y + sin(theta)/2), theta = 2 pi i / n. */
  function Sample(f: Frame, w: int, h: int, x: int, y: int, i: int, n: int): Vec4
    requires Parallel(f.scene) && n >= 1
  {
    var cam, k := f.scene.camera, f.kernels;
    var theta := 2.0 * 3.141592 * (i as real) / (n as real);
    var r := k.castRay(cam, x as real + 0.5 * k.glm.cos(theta), y as real + 0.5 * k.glm.sin(theta), w as real, h as real);
    TraceRay(f.scene, r, cam.pos, f.depth, k)
  }

  /** The colours of the n samples of pixel (x, y), by sample index. */
  function Samples(f: Frame, w: int, h: int, x: int, y: int, n: int): int -> Vec4
    requires Parallel(f.scene) && n >= 1
  {
    i => Sample(f, w, h, x, y, i, n)
  }

  /** g(0) + ... + g(i-1), added in index order from a zero vec4. */
  function SumOf(g: int -> Vec4, i: nat): Vec4 {
    if i == 0 then Vec4(0.0, 0.0, 0.0, 0.0) else Add4(SumOf(g, i - 1), g(i - 1))
  }

  /** The supersampled colour of a pixel: the sum of its n samples times 1/n. */
  function SuperSampled(f: Frame, w: int, h: int, x: int, y: int, n: int): Vec4
    requires Parallel(f.scene) && n >= 1
  {
    Scale4(1.0 / (n as real), SumOf(Samples(f, w, h, x, y, n), n))
  }

  lemma ScaleSucc(m: real, c: Vec4)
    ensures Add4(Scale4(m, c), c) == Scale4(m + 1.0, c)
  {
  }

  lemma ScaleInverse(m: real, c: Vec4)
    requires m > 0.0
    ensures Scale4(1.0 / m, Scale4(m, c)) == c
  {
    var k := 1.0 / m;
    assert k * m == 1.0;
    assert k * (m * c.r) == (k * m) * c.r;
    assert k * (m * c.g) == (k * m) * c.g;
    assert k * (m * c.b) == (k * m) * c.b;
    assert k * (m * c.a) == (k * m) * c.a;
  }

  /** Summing i copies of one colour gives i times that colour. */
  lemma {:induction false} UniformSum(g: int -> Vec4, i: nat, c: Vec4)
    requires forall j :: 0 <= j < i ==> g(j) == c
    ensures SumOf(g, i) == Scale4(i as real, c)
  {
    if i > 0 {
      UniformSum(g, i - 1, c);
      ScaleSucc((i - 1) as real, c);
    }
  }

  /** Supersampling a pixel whose samples all give the same colour gives that colour. */
  lemma UniformSamples(f: Frame, w: int, h: int, x: int, y: int, n: int, c: Vec4)
    requires Parallel(f.scene) && n >= 1
    requires forall j :: 0 <= j < n ==> Samples(f, w, h, x, y, n)(j) == c
    ensures SuperSampled(f, w, h, x, y, n) == c
  {
    UniformSum(Samples(f, w, h, x, y, n), n, c);
    ScaleInverse(n as real, c);
  }

  /** The sampling loop: rgba += g(i) for i = 0 .. n-1. */
  method SumColors(g: int -> Vec4, n: nat) returns (rgba: Vec4)
    ensures rgba == SumOf(g, n)
  {
    rgba := Vec4(0.0, 0.0, 0.0, 0.0);
    var i := 0;
    while i < n
      invariant 0 <= i <= n
      invariant rgba == SumOf(g, i)
    {
      rgba := Add4(rgba, g(i));
      i := i + 1;
    }
  }

  /** The supersampling of one pixel: the n traced samples summed, then scaled by 1/n. */
  method SuperSample(f: Frame, w: int, h: int, x: int, y: int, n: int) returns (rgba: Vec4)
    requires Parallel(f.scene) && n >= 1
    ensures rgba == SuperSampled(f, w, h, x, y, n)
  {
    rgba := SumColors(Samples(f, w, h, x, y, n), n);
    rgba := Scale4(1.0 / (n as real), rgba);
  }

  /** Pixel (x, y) of `b2` keeps its bytes from `b1` or holds its supersampled colour. */
  predicate PixelAntiAliased(b1: seq<byte>, b2: seq<byte>, w: int, h: int, x: int, y: int, f: Frame, n: int)
    requires Parallel(f.scene) && n >= 1
  {
    PixelSame(b1, b2, w, x, y) || PixelIs(b2, w, x, y, SuperSampled(f, w, h, x, y, n))
  }

  /** The first and the last pixel of row y are kept (the bytes of the row outside [1, w - 1)). */
  predicate EdgesKept(b1: seq<byte>, b2: seq<byte>, w: int, y: int) {
    forall i :: 0 <= i < |b1| && 0 <= i < |b2| && RowStart(w, y) <= i < RowStart(w, y) + PixelSize * w
         && (i < RowStart(w, y) + PixelSize || RowStart(w, y) + PixelSize * (w - 1) <= i)
      ==> b1[i] == b2[i]
  }

  /** Interior pixels of row y are kept or supersampled; its first and last pixel are kept. */
  predicate RowAntiAliased(b1: seq<byte>, b2: seq<byte>, w: int, h: int, y: int, f: Frame, n: int)
    requires Parallel(f.scene) && n >= 1
  {
    && |b1| == |b2|
    && (forall x :: 1 <= x < w - 1 ==> PixelAntiAliased(b1, b2, w, h, x, y, f, n))
    && EdgesKept(b1, b2, w, y)
  }

  /** Interior rows are anti-aliased row by row; the first and the last row are kept. */
  predicate RowStatus(b1: seq<byte>, b2: seq<byte>, w: int, h: int, y: int, f: Frame, n: int)
    requires Parallel(f.scene) && n >= 1
  {
    if 1 <= y < h - 1 then RowAntiAliased(b1, b2, w, h, y, f, n) else RowSame(b1, b2, w, y)
  }

  /** What the anti-aliasing pass does to the image, row by row. */
  predicate AntiAliasedImage(b1: seq<byte>, b2: seq<byte>, w: int, h: int, f: Frame, n: int)
    requires Parallel(f.scene) && n >= 1
  {
    |b1| == |b2| && forall y :: 0 <= y < h ==> RowStatus(b1, b2, w, h, y, f, n)
  }

  /** An untouched image satisfies the relation. */
  lemma AntiAliasedUntouched(b: seq<byte>, w: int, h: int, f: Frame, n: int)
    requires Parallel(f.scene) && n >= 1 && 0 <= w && ImageBytes(w, h) <= |b|
    ensures AntiAliasedImage(b, b, w, h, f, n)
  {
    forall y, x | 0 <= y < h && 1 <= x < w - 1
      ensures PixelSame(b, b, w, x, y)
    {
      ChannelInBuffer(w, h, x, y, 0);
    }
  }

  /** Pixel relations of row y carry over while only bytes outside the row change. */
  lemma PixelKept(b0: seq<byte>, b1: seq<byte>, b2: seq<byte>, w: int, h: int, x: int, y: int, lo: int, hi: int,
                  f: Frame, n: int)
    requires Parallel(f.scene) && n >= 1 && InImage(w, h, x, y)
    requires KeptOutside(b1, b2, lo, hi)
    requires PixelOffset(w, x, y) + PixelSize <= lo || hi <= PixelOffset(w, x, y)
    requires PixelAntiAliased(b0, b1, w, h, x, y, f, n)
    ensures PixelAntiAliased(b0, b2, w, h, x, y, f, n)
  {
  }

  /** A row's status carries over while only another row changes. */
  lemma RowStatusKept(b0: seq<byte>, b1: seq<byte>, b2: seq<byte>, w: int, h: int, y: int, yw: int, f: Frame, n: int)
    requires Parallel(f.scene) && n >= 1 && 0 <= w && 0 <= y < h && 0 <= yw < h && y != yw
    requires KeptOutside(b1, b2, RowStart(w, yw), RowStart(w, yw) + PixelSize * w)
    requires RowStatus(b0, b1, w, h, y, f, n)
    ensures RowStatus(b0, b2, w, h, y, f, n)
  {
    var lo, hi := RowStart(w, yw), RowStart(w, yw) + PixelSize * w;
    if y < yw {
      RowsApart(w, y, yw);
    } else {
      RowsApart(w, yw, y);
    }
    if 1 <= y < h - 1 {
      forall x | 1 <= x < w - 1
        ensures PixelAntiAliased(b0, b2, w, h, x, y, f, n)
      {
        ChannelInBuffer(w, h, x, y, 0);
        PixelKept(b0, b1, b2, w, h, x, y, lo, hi, f, n);
      }
    }
  }

  /** Two anti-aliasing steps on a row make one: a pixel ends kept or supersampled. */
  lemma RowAntiAliasedChain(b0: seq<byte>, b1: seq<byte>, b2: seq<byte>, w: int, h: int, y: int, f: Frame, n: int)
    requires Parallel(f.scene) && n >= 1
    requires RowAntiAliased(b0, b1, w, h, y, f, n) && RowAntiAliased(b1, b2, w, h, y, f, n)
    ensures RowAntiAliased(b0, b2, w, h, y, f, n)
  {
    forall x | 1 <= x < w - 1
      ensures PixelAntiAliased(b0, b2, w, h, x, y, f, n)
    {
      assert PixelAntiAliased(b0, b1, w, h, x, y, f, n);
      assert PixelAntiAliased(b1, b2, w, h, x, y, f, n);
    }
  }

  /**
   * One pixel of the pass (the body of the x loop): when the brightness gradient of the
   * current image exceeds the threshold, the pixel gets its supersampled colour; otherwise
   * nothing changes.
   */
  method AntiAliasPixel(img: ImgBuffer, f: Frame, x: int, y: int, n: int)
    requires img.Valid() && Parallel(f.scene) && n >= 1
    requires 1 <= x < img.width - 1 && 1 <= y < img.height - 1
    modifies img.buffer
    ensures img.buffer[..] == PixelPass(old(img.buffer[..]), img.width, img.height, x, y, f, n)
  {
    ChannelInBuffer(img.width, img.height, x, y, 0);
    var gradient := Gradient(img.buffer[..], img.width, img.height, x, y, f.kernels);
    if gradient > f.kernels.gradientThreshold {
      var rgba := SuperSample(f, img.width, img.height, x, y, n);
      StorePixel(img, x, y, rgba);
    }
  }

  /** Interior pixels 1 .. x-1 of row y are kept or supersampled. */
  predicate RowPrefixAntiAliased(b1: seq<byte>, b2: seq<byte>, w: int, h: int, x: int, y: int, f: Frame, n: int)
    requires Parallel(f.scene) && n >= 1
  {
    forall x' :: 1 <= x' < x ==> PixelAntiAliased(b1, b2, w, h, x', y, f, n)
  }

  /** The pixel step of the row loop extends the anti-aliased prefix by one pixel. */
  lemma AntiAliasStep(b0: seq<byte>, b1: seq<byte>, b2: seq<byte>, w: int, h: int, x: int, y: int, f: Frame, n: int)
    requires Parallel(f.scene) && n >= 1 && 1 <= x < w - 1 && 1 <= y < h - 1 && ImageBytes(w, h) <= |b1|
    requires RowPrefixAntiAliased(b0, b1, w, h, x, y, f, n)
    requires KeptOutside(b0, b1, RowStart(w, y) + PixelSize, RowStart(w, y) + PixelSize * x)
    requires 0 <= PixelOffset(w, x, y) && PixelOffset(w, x, y) + ChannelA < |b1|
    requires b2 == b1 || b2 == StoreColor(b1, PixelOffset(w, x, y), SuperSampled(f, w, h, x, y, n))
    ensures RowPrefixAntiAliased(b0, b2, w, h, x + 1, y, f, n)
    ensures KeptOutside(b0, b2, RowStart(w, y) + PixelSize, RowStart(w, y) + PixelSize * (x + 1))
  {
    var o := PixelOffset(w, x, y);
    assert o == RowStart(w, y) + PixelSize * x;
    forall x' | 1 <= x' < x + 1
      ensures PixelAntiAliased(b0, b2, w, h, x', y, f, n)
    {
      if x' < x {
        PixelKept(b0, b1, b2, w, h, x', y, o, o + PixelSize, f, n);
      }
    }
  }

  /** Turning the row loop's invariant into the row relation once x reaches w - 1. */
  lemma RowAntiAliasedDone(b0: seq<byte>, b1: seq<byte>, w: int, h: int, x: int, y: int, f: Frame, n: int)
    requires Parallel(f.scene) && n >= 1 && 0 <= w && x == (if w > 1 then w - 1 else 1)
    requires RowPrefixAntiAliased(b0, b1, w, h, x, y, f, n)
    requires KeptOutside(b0, b1, RowStart(w, y) + PixelSize, RowStart(w, y) + PixelSize * x)
    ensures RowAntiAliased(b0, b1, w, h, y, f, n)
    ensures KeptOutside(b0, b1, RowStart(w, y), RowStart(w, y) + PixelSize * w)
  {
  }

  /**
   * The rule of one pixel step on the bytes as they stand: the supersampled colour when
   * the gradient exceeds the threshold, the same bytes otherwise. The offset test holds for
   * every interior pixel (PixelPassKeepsOrStores); it only keeps the four writes in range.
   */
  function PixelPass(b: seq<byte>, w: int, h: int, x: int, y: int, f: Frame, n: int): (s: seq<byte>)
    requires Parallel(f.scene) && n >= 1 && 1 <= x < w - 1 && 1 <= y < h - 1 && ImageBytes(w, h) <= |b|
    ensures |s| == |b|
  {
    var o := PixelOffset(w, x, y);
    if Gradient(b, w, h, x, y, f.kernels) > f.kernels.gradientThreshold && 0 <= o && o + ChannelA < |b|
    then StoreColor(b, o, SuperSampled(f, w, h, x, y, n))
    else b
  }

  /**
   * What a pixel step does: above the threshold the pixel holds the bytes of its supersampled
   * colour and no other byte changes; otherwise no byte changes. Either way the result is the
   * old bytes or the old bytes with that colour stored at the pixel.
   */
  lemma PixelPassKeepsOrStores(b: seq<byte>, w: int, h: int, x: int, y: int, f: Frame, n: int)
    requires Parallel(f.scene) && n >= 1 && 1 <= x < w - 1 && 1 <= y < h - 1 && ImageBytes(w, h) <= |b|
    ensures 0 <= PixelOffset(w, x, y) && PixelOffset(w, x, y) + ChannelA < |b|
    ensures var s := PixelPass(b, w, h, x, y, f, n);
      s == b || s == StoreColor(b, PixelOffset(w, x, y), SuperSampled(f, w, h, x, y, n))
    ensures var s := PixelPass(b, w, h, x, y, f, n);
      Gradient(b, w, h, x, y, f.kernels) > f.kernels.gradientThreshold
      ==> PixelIs(s, w, x, y, SuperSampled(f, w, h, x, y, n))
          && KeptOutside(b, s, PixelOffset(w, x, y), PixelOffset(w, x, y) + PixelSize)
    ensures Gradient(b, w, h, x, y, f.kernels) <= f.kernels.gradientThreshold ==> PixelPass(b, w, h, x, y, f, n) == b
  {
    ChannelInBuffer(w, h, x, y, 0);
  }

  /**
   * The bytes once the row loop has visited pixels 1 .. x-1 of row y from left to right,
   * each step judging the gradient on the bytes its predecessors left.
   */
  function RowPassUpTo(b: seq<byte>, w: int, h: int, x: int, y: int, f: Frame, n: int): (s: seq<byte>)
    requires Parallel(f.scene) && n >= 1 && 1 <= x && (x == 1 || x <= w - 1) && 1 <= y < h - 1
    requires ImageBytes(w, h) <= |b|
    ensures |s| == |b|
  {
    if x == 1 then b else PixelPass(RowPassUpTo(b, w, h, x - 1, y, f, n), w, h, x - 1, y, f, n)
  }

  /** One more pixel step extends the row pass by pixel x. */
  lemma RowPassStep(b0: seq<byte>, b1: seq<byte>, b2: seq<byte>, w: int, h: int, x: int, y: int, f: Frame, n: int)
    requires Parallel(f.scene) && n >= 1 && 1 <= x < w - 1 && 1 <= y < h - 1 && ImageBytes(w, h) <= |b0|
    requires b1 == RowPassUpTo(b0, w, h, x, y, f, n) && b2 == PixelPass(b1, w, h, x, y, f, n)
    ensures b2 == RowPassUpTo(b0, w, h, x + 1, y, f, n)
  {
  }

  /**
   * The row pass up to pixel x keeps or supersamples pixels 1 .. x-1 and changes no byte
   * outside them.
   */
  lemma {:induction false} RowPassAntiAliased(b0: seq<byte>, w: int, h: int, x: int, y: int, f: Frame, n: int)
    requires Parallel(f.scene) && n >= 1 && 1 <= x && (x == 1 || x <= w - 1) && 1 <= y < h - 1
    requires ImageBytes(w, h) <= |b0|
    ensures RowPrefixAntiAliased(b0, RowPassUpTo(b0, w, h, x, y, f, n), w, h, x, y, f, n)
    ensures KeptOutside(b0, RowPassUpTo(b0, w, h, x, y, f, n), RowStart(w, y) + PixelSize,
                        RowStart(w, y) + PixelSize * x)
  {
    if x > 1 {
      var x' := x - 1;
      RowPassAntiAliased(b0, w, h, x', y, f, n);
      var b1 := RowPassUpTo(b0, w, h, x', y, f, n);
      PixelPassKeepsOrStores(b1, w, h, x', y, f, n);
      AntiAliasStep(b0, b1, PixelPass(b1, w, h, x', y, f, n), w, h, x', y, f, n);
    }
  }

  /** The bytes after the row loop has visited every interior pixel of row y. */
  function RowPass(b: seq<byte>, w: int, h: int, y: int, f: Frame, n: int): (s: seq<byte>)
    requires Parallel(f.scene) && n >= 1 && 1 <= y < h - 1 && ImageBytes(w, h) <= |b|
    ensures |s| == |b|
  {
    RowPassUpTo(b, w, h, if w > 1 then w - 1 else 1, y, f, n)
  }

  /**
   * The row pass keeps or supersamples each interior pixel of row y, keeps its first and last
   * pixel and changes nothing outside the row.
   */
  lemma RowPassSound(b: seq<byte>, w: int, h: int, y: int, f: Frame, n: int)
    requires Parallel(f.scene) && n >= 1 && 0 <= w && 1 <= y < h - 1 && ImageBytes(w, h) <= |b|
    ensures RowAntiAliased(b, RowPass(b, w, h, y, f, n), w, h, y, f, n)
    ensures KeptOutside(b, RowPass(b, w, h, y, f, n), RowStart(w, y), RowStart(w, y) + PixelSize * w)
  {
    var x := if w > 1 then w - 1 else 1;
    RowPassAntiAliased(b, w, h, x, y, f, n);
    RowAntiAliasedDone(b, RowPassUpTo(b, w, h, x, y, f, n), w, h, x, y, f, n);
  }

  /**
   * The inner loop of the pass (x = 1 .. w-2) for row y: each interior pixel, in turn, gets
   * its supersampled colour exactly when the gradient on the bytes as they stand exceeds the
   * threshold (RowPassSound: interior pixels are kept or supersampled, nothing outside the
   * row changes).
   */
  method AntiAliasRow(img: ImgBuffer, f: Frame, y: int, n: int)
    requires img.Valid() && Parallel(f.scene) && n >= 1 && 1 <= y < img.height - 1
    modifies img.buffer
    ensures img.buffer[..] == RowPass(old(img.buffer[..]), img.width, img.height, y, f, n)
  {
    var w, h := img.width, img.height;
    ghost var b0 := img.buffer[..];
    var x := 1;
    while x < w - 1
      invariant 1 <= x && (x == 1 || x <= w - 1)
      invariant img.buffer[..] == RowPassUpTo(b0, w, h, x, y, f, n)
    {
      ghost var before := img.buffer[..];
      AntiAliasPixel(img, f, x, y, n);
      RowPassStep(b0, before, img.buffer[..], w, h, x, y, f, n);
      x := x + 1;
    }
    assert x == if w > 1 then w - 1 else 1;
  }

  /** An anti-aliased row leaves the image relation intact for the rows before it and extends it. */
  lemma AntiAliasedImageStep(b0: seq<byte>, b1: seq<byte>, b2: seq<byte>, w: int, h: int, y: int, f: Frame, n: int)
    requires Parallel(f.scene) && n >= 1 && 0 <= w && 1 <= y < h - 1
    requires AntiAliasedImage(b0, b1, w, h, f, n) && KeptOutside(b0, b1, 0, ImageBytes(w, h))
    requires RowAntiAliased(b1, b2, w, h, y, f, n)
    requires KeptOutside(b1, b2, RowStart(w, y), RowStart(w, y) + PixelSize * w)
    ensures AntiAliasedImage(b0, b2, w, h, f, n) && KeptOutside(b0, b2, 0, ImageBytes(w, h))
  {
    RowInBuffer(w, h, y);
    forall y' | 0 <= y' < h
      ensures RowStatus(b0, b2, w, h, y', f, n)
    {
      assert RowStatus(b0, b1, w, h, y', f, n);
      if y' == y {
        RowAntiAliasedChain(b0, b1, b2, w, h, y, f, n);
      } else {
        RowStatusKept(b0, b1, b2, w, h, y', y, f, n);
      }
    }
  }

  /**
   * The first pass is determined: two buffers that both hold every pixel's traced colour and
   * agree beyond the image are equal, so the single-thread render and the striped parallel
   * render with any number of workers produce the same image.
   */
  lemma RenderedUnique(b1: seq<byte>, b2: seq<byte>, w: int, h: int, f: Frame)
    requires Parallel(f.scene) && 0 <= w && 0 <= h && ImageBytes(w, h) <= |b1|
    requires Rendered(b1, w, h, f) && Rendered(b2, w, h, f)
    requires KeptOutside(b1, b2, 0, ImageBytes(w, h))
    ensures b1 == b2
  {
    forall i | 0 <= i < |b1|
      ensures b1[i] == b2[i]
    {
      if i < ImageBytes(w, h) {
        var owner := ByteOwner(w, h, i);
        var x, y := owner.0, owner.1;
        assert RowDone(b1, w, h, y, f) && RowDone(b2, w, h, y, f);
        assert PixelIs(b1, w, x, y, PixelColor(f, w, h, x, y));
        assert PixelIs(b2, w, x, y, PixelColor(f, w, h, x, y));
      }
    }
  }

  /** numSuperSample, the default of AdaptiveAntiAliasing that Render relies on. */
  const SuperSamples: int := 8

  /** The rendering part of RayTracer: the configuration it renders with. */
  class RayTracer {
    var configuration: Settings

    /** A default RenderingConfig. */
    constructor()
      ensures configuration == Defaults
    {
      configuration := Defaults;
    }

    /** SetRenderingConfig copies the configuration. */
    method SetRenderingConfig(config: Settings)
      modifies this
      ensures configuration == config
    {
      configuration := config;
    }

    /** What a render of `sd` draws: the scene, the kernels and the configured recursion depth. */
    function FrameOf(sd: SceneData, k: Kernels): Frame
      reads this
    {
      Frame(sd, k, configuration.depth as int)
    }

    /**
     * The single-thread branch of Render: rows top to bottom, each left to right. Every
     * pixel is written once, in row-major order, with its traced colour.
     */
    method RenderSequential(sd: SceneData, img: ImgBuffer, k: Kernels) returns (ghost visits: seq<(int, int)>)
      requires img.Valid() && Parallel(sd)
      modifies img.buffer
      ensures Rendered(img.buffer[..], img.width, img.height, FrameOf(sd, k))
      ensures KeptOutside(old(img.buffer[..]), img.buffer[..], 0, ImageBytes(img.width, img.height))
      ensures visits == RowMajor(img.width, img.height)
    {
      var f := FrameOf(sd, k);
      var w, h := img.width, img.height;
      visits := [];
      var y := 0;
      while y < h
        invariant 0 <= y <= h
        invariant forall y' :: 0 <= y' < y ==> RowDone(img.buffer[..], w, h, y', f)
        invariant KeptOutside(old(img.buffer[..]), img.buffer[..], 0, ImageBytes(w, h))
        invariant visits == RowMajor(w, y)
      {
        ghost var before := img.buffer[..];
        var row := RenderRow(img, f, y);
        OtherRowsKept(before, img.buffer[..], w, h, y, f);
        RowInBuffer(w, h, y);
        visits := visits + row;
        y := y + 1;
      }
    }

    /**
     * ParallelRender with its workers run in turn: worker `id` renders the rows
     * id, id + n, id + 2n, ... below h. The stripes partition the rows, so with at least one
     * worker every pixel ends with its traced colour; with none nothing is drawn.
     */
    method ParallelRender(sd: SceneData, img: ImgBuffer, k: Kernels, n: int) returns (ghost stripes: seq<seq<int>>)
      requires img.Valid() && Parallel(sd) && n >= 0
      modifies img.buffer
      ensures n >= 1 ==> Rendered(img.buffer[..], img.width, img.height, FrameOf(sd, k))
      ensures n == 0 ==> img.buffer[..] == old(img.buffer[..])
      ensures KeptOutside(old(img.buffer[..]), img.buffer[..], 0, ImageBytes(img.width, img.height))
      ensures |stripes| == n && forall id :: 0 <= id < n ==> stripes[id] == WorkerRows(n, 0, img.height, id)
    {
      var f := FrameOf(sd, k);
      var w, h := img.width, img.height;
      stripes := [];
      var id := 0;
      while id < n
        invariant 0 <= id <= n
        invariant |stripes| == id && forall j :: 0 <= j < id ==> stripes[j] == WorkerRows(n, 0, h, j)
        invariant forall j, y :: 0 <= j < id && y in WorkerRows(n, 0, h, j) ==> RowDone(img.buffer[..], w, h, y, f)
        invariant KeptOutside(old(img.buffer[..]), img.buffer[..], 0, ImageBytes(w, h))
        invariant id == 0 ==> img.buffer[..] == old(img.buffer[..])
      {
        ghost var rows: seq<int> := [];
        var y := id;
        while y < h
          invariant id <= y
          invariant rows + Stripe(y, n, h) == Stripe(id, n, h)
          invariant forall y' :: y' in rows ==> 0 <= y' < h && RowDone(img.buffer[..], w, h, y', f)
          invariant forall j, y' :: 0 <= j < id && y' in WorkerRows(n, 0, h, j) ==> RowDone(img.buffer[..], w, h, y', f)
          invariant KeptOutside(old(img.buffer[..]), img.buffer[..], 0, ImageBytes(w, h))
          decreases h - y
        {
          ghost var before := img.buffer[..];
          var _ := RenderRow(img, f, y);
          OtherRowsKept(before, img.buffer[..], w, h, y, f);
          RowInBuffer(w, h, y);
          forall j, y' | 0 <= j < id && y' in WorkerRows(n, 0, h, j)
            ensures RowDone(img.buffer[..], w, h, y', f)
          {
            StripeInRange(j, n, h);
          }
          rows := rows + [y];
          y := y + n;
        }
        assert rows == WorkerRows(n, 0, h, id);
        stripes := stripes + [rows];
        id := id + 1;
      }
      if n >= 1 {
        forall y | 0 <= y < h
          ensures RowDone(img.buffer[..], w, h, y, f)
        {
          StripesPartition(n, 0, h, y);
        }
      }
    }

    /**
     * AdaptiveAntiAliasing with its workers run in turn: worker `id` takes the interior rows
     * id + 1, id + 1 + n, ... below h - 1, and each interior pixel is kept or replaced by its
     * supersampled colour (AntiAliasPixel says which); the border rows and columns are kept.
     */
    method AdaptiveAntiAliasing(sd: SceneData, img: ImgBuffer, k: Kernels, n: int, numSuperSample: int)
      returns (ghost stripes: seq<seq<int>>)
      requires img.Valid() && Parallel(sd) && n >= 0 && numSuperSample >= 1
      modifies img.buffer
      ensures AntiAliasedImage(old(img.buffer[..]), img.buffer[..], img.width, img.height, FrameOf(sd, k), numSuperSample)
      ensures KeptOutside(old(img.buffer[..]), img.buffer[..], 0, ImageBytes(img.width, img.height))
      ensures n == 0 ==> img.buffer[..] == old(img.buffer[..])
      ensures |stripes| == n && forall id :: 0 <= id < n ==> stripes[id] == WorkerRows(n, 1, img.height - 1, id)
    {
      var f := FrameOf(sd, k);
      var w, h := img.width, img.height;
      AntiAliasedUntouched(img.buffer[..], w, h, f, numSuperSample);
      stripes := [];
      var id := 0;
      while id < n
        invariant 0 <= id <= n
        invariant |stripes| == id && forall j :: 0 <= j < id ==> stripes[j] == WorkerRows(n, 1, h - 1, j)
        invariant AntiAliasedImage(old(img.buffer[..]), img.buffer[..], w, h, f, numSuperSample)
        invariant KeptOutside(old(img.buffer[..]), img.buffer[..], 0, ImageBytes(w, h))
        invariant id == 0 ==> img.buffer[..] == old(img.buffer[..])
      {
        ghost var rows: seq<int> := [];
        var y := id + 1;
        while y < h - 1
          invariant id + 1 <= y
          invariant rows + Stripe(y, n, h - 1) == Stripe(id + 1, n, h - 1)
          invariant AntiAliasedImage(old(img.buffer[..]), img.buffer[..], w, h, f, numSuperSample)
          invariant KeptOutside(old(img.buffer[..]), img.buffer[..], 0, ImageBytes(w, h))
          decreases h - y
        {
          ghost var before := img.buffer[..];
          AntiAliasRow(img, f, y, numSuperSample);
          RowPassSound(before, w, h, y, f, numSuperSample);
          AntiAliasedImageStep(old(img.buffer[..]), before, img.buffer[..], w, h, y, f, numSuperSample);
          rows := rows + [y];
          y := y + n;
        }
        assert rows == WorkerRows(n, 1, h - 1, id);
        stripes := stripes + [rows];
        id := id + 1;
      }
    }

    /**
     * Render: the single-thread render when the configuration asks for one thread, the
     * parallel render otherwise, then, when anti-aliasing is on, the anti-aliasing pass with
     * as many workers and 8 samples per pixel. `firstPass` is the image between the passes.
     */
    method Render(sd: SceneData, img: ImgBuffer, k: Kernels) returns (ghost firstPass: seq<byte>)
      requires img.Valid() && Parallel(sd) && configuration.numThreads >= 0
      modifies img.buffer
      ensures |firstPass| == img.buffer.Length
      ensures configuration.numThreads >= 1 ==> Rendered(firstPass, img.width, img.height, FrameOf(sd, k))
      ensures configuration.numThreads == 0 ==> firstPass == old(img.buffer[..])
      ensures KeptOutside(old(img.buffer[..]), firstPass, 0, ImageBytes(img.width, img.height))
      ensures !configuration.antiAliasing ==> img.buffer[..] == firstPass
      ensures configuration.antiAliasing ==>
        && AntiAliasedImage(firstPass, img.buffer[..], img.width, img.height, FrameOf(sd, k), SuperSamples)
        && KeptOutside(firstPass, img.buffer[..], 0, ImageBytes(img.width, img.height))
    {
      if configuration.numThreads == 1 {
        var _ := RenderSequential(sd, img, k);
      } else {
        var _ := ParallelRender(sd, img, k, configuration.numThreads as int);
      }
      firstPass := img.buffer[..];
      if configuration.antiAliasing {
        var _ := AdaptiveAntiAliasing(sd, img, k, configuration.numThreads as int, SuperSamples);
      }
    }
  }
}

=== FILE: RenderingConfig.dfy ===
/**
 * The rendering configuration (renderer/parsing/RenderingConfig.h, RenderingConfig.cpp): six
 * settings, a lenient reader of `key value` pairs and a fixed six-line writer.
 *
 * A file is its text. Reading splits it into whitespace-separated words, one `operator>>`
 * into a string per word; `file >> value` for an int reads a word that is, as a whole, a
 * decimal integer within the 32-bit range, and fails on any other word.
 */
module Config {
  import opened Wrappers

  /** C++ `int`. */
  newtype int32 = x: int | -0x8000_0000 <= x < 0x8000_0000

  /** The six fields of a RenderingConfig, as one value. */
  datatype Settings = Settings(width: int32, height: int32, depth: int32, antiAliasing: bool,
                               numThreads: int32, useKdTree: bool)

  /** 800 x 600, recursion depth 4, no anti-aliasing, one thread, no k-d tree. */
  const Defaults := Settings(800, 600, 4, false, 1, false)

  // ---------------------------------------------------------------------------
  // Words of a text

  /** `isspace` in the "C" locale: blank, tab, newline, vertical tab, form feed, carriage return. */
  predicate IsSpace(c: char) {
    c == ' ' || '\t' <= c <= '\r'
  }

  /** A word: one or more characters, none of them blank. */
  predicate IsWord(w: string) {
    |w| > 0 && forall i :: 0 <= i < |w| ==> !IsSpace(w[i])
  }

  /** The length of the word at the start of `s`: its characters up to the first blank. */
  function WordLength(s: string): (n: nat)
    ensures n <= |s|
    ensures forall i :: 0 <= i < n ==> !IsSpace(s[i])
    ensures n < |s| ==> IsSpace(s[n])
  {
    if |s| == 0 || IsSpace(s[0]) then 0 else 1 + WordLength(s[1..])
  }

  /** The words of a text, in the order successive `file >> word` calls return them. */
  function Words(s: string): seq<string>
    decreases |s|
  {
    if |s| == 0 then []
    else if IsSpace(s[0]) then Words(s[1..])
    else
      var n := WordLength(s);
      [s[..n]] + Words(s[n..])
  }

  /** The word at the start of `s` is its longest blank-free prefix. */
  lemma {:induction false} WordLengthIs(s: string, n: nat)
    requires n <= |s| && (forall i :: 0 <= i < n ==> !IsSpace(s[i])) && (n < |s| ==> IsSpace(s[n]))
    ensures WordLength(s) == n
    decreases n
  {
    if n > 0 {
      assert forall i :: 0 <= i < n - 1 ==> s[1..][i] == s[i + 1];
      WordLengthIs(s[1..], n - 1);
    }
  }

  /** A text that ends in a blank reads as its own words and then those of what follows it. */
  lemma {:induction false} WordsAppend(a: string, b: string)
    requires |a| == 0 || IsSpace(a[|a| - 1])
    ensures Words(a + b) == Words(a) + Words(b)
    decreases |a|
  {
    if |a| == 0 {
      assert a + b == b;
    } else if IsSpace(a[0]) {
      assert (a + b)[1..] == a[1..] + b;
      WordsAppend(a[1..], b);
    } else {
      var n := WordLength(a);
      WordLengthIs(a + b, n);
      assert (a + b)[..n] == a[..n];
      assert (a + b)[n..] == a[n..] + b;
      WordsAppend(a[n..], b);
    }
  }

  /** A word followed by one blank reads as that word alone. */
  lemma WordThenBlank(w: string, c: char)
    requires IsWord(w) && IsSpace(c)
    ensures Words(w + [c]) == [w]
  {
    var s := w + [c];
    WordLengthIs(s, |w|);
    assert s[..|w|] == w;
    assert s[|w|..] == [c];
    assert Words([c]) == [] by {
      assert [c][1..] == [];
    }
  }

  // ---------------------------------------------------------------------------
  // Integers as text

  function DigitChar(d: int): char
    requires 0 <= d < 10
  {
    ('0' as int + d) as char
  }

  predicate IsDigit(c: char) {
    '0' <= c <= '9'
  }

  predicate AllDigits(s: string) {
    forall i :: 0 <= i < |s| ==> IsDigit(s[i])
  }

  /** The decimal digits of `n`, most significant first, as `operator<<` writes them. */
  function NatToString(n: nat): string
    decreases n
  {
    if n < 10 then [DigitChar(n)] else NatToString(n / 10) + [DigitChar(n % 10)]
  }

  /** `file << x` for an int: a minus sign before a negative number's digits. */
  function IntToString(x: int32): string {
    if x < 0 then "-" + NatToString(-(x as int)) else NatToString(x as int)
  }

  /** The number a string of decimal digits denotes. */
  function DigitsValue(s: string): nat
    requires AllDigits(s)
    decreases |s|
  {
    if |s| == 0 then 0 else 10 * DigitsValue(s[..|s| - 1]) + (s[|s| - 1] as int - '0' as int)
  }

  /**
   * `file >> value` for an int on a whole word: an optional sign and then one or more digits,
   * denoting a number in the 32-bit range.
   */
  function ParseInt(w: string): (r: Option<int32>)
    ensures r.Some? ==> |w| > 0
  {
    var signed := |w| > 0 && (w[0] == '-' || w[0] == '+');
    var body := if signed then w[1..] else w;
    if |body| == 0 || !AllDigits(body) then None
    else
      var v := if signed && w[0] == '-' then -(DigitsValue(body) as int) else DigitsValue(body) as int;
      if -0x8000_0000 <= v < 0x8000_0000 then Some(v as int32) else None
  }

  /** The digits of `n` are a non-empty string of digits that denotes `n`. */
  lemma {:induction false} NatToStringDigits(n: nat)
    ensures var s := NatToString(n);
      |s| > 0 && AllDigits(s) && DigitsValue(s) == n
    decreases n
  {
    if n >= 10 {
      NatToStringDigits(n / 10);
      var s := NatToString(n);
      assert s[..|s| - 1] == NatToString(n / 10);
    }
  }

  /** Writing an int and reading it back gives the same int, and the text is one word. */
  lemma IntRoundTrip(x: int32)
    ensures IsWord(IntToString(x))
    ensures ParseInt(IntToString(x)) == Some(x)
  {
    var m := if x < 0 then -(x as int) else x as int;
    NatToStringDigits(m);
    var s := IntToString(x);
    if x < 0 {
      assert s[1..] == NatToString(m);
      assert forall i :: 1 <= i < |s| ==> s[i] == NatToString(m)[i - 1];
    }
  }

  // ---------------------------------------------------------------------------
  // LoadFromFile

  /** One `key value` pair read from the file; keys are matched exactly, unknown keys are ignored. */
  function Apply(s: Settings, key: string, v: int32): Settings {
    if key == "w" then s.(width := v)
    else if key == "h" then s.(height := v)
    else if key == "depth" then s.(depth := AtLeastOne(v))
    else if key == "anti-aliasing" then s.(antiAliasing := v != 0)
    else if key == "num-threads" then s.(numThreads := AtLeastOne(v))
    else if key == "use-kd-tree" then s.(useKdTree := v != 0)
    else s
  }

  /** `(value > 0) ? value : 1`. */
  function AtLeastOne(v: int32): (r: int32)
    ensures r >= 1 && (v >= 1 ==> r == v)
  {
    if v > 0 then v else 1
  }

  /**
   * The loop `while (file >> property)`: pairs in order, until the words run out or a value
   * does not read as an int. A failed value read `continue`s into the loop condition, which
   * then fails on the failed stream, so nothing after it is read.
   */
  function LoadWords(s: Settings, ws: seq<string>): Settings
    decreases |ws|
  {
    if |ws| < 2 then s
    else match ParseInt(ws[1])
      case None => s
      case Some(v) => LoadWords(Apply(s, ws[0], v), ws[2..])
  }

  /** The (key, value) pairs the loop reads before it stops. */
  function PairsRead(ws: seq<string>): seq<(string, int32)>
    decreases |ws|
  {
    if |ws| < 2 then []
    else match ParseInt(ws[1])
      case None => []
      case Some(v) => [(ws[0], v)] + PairsRead(ws[2..])
  }

  /** The value of the last pair whose key is `key`, None when no pair has that key. */
  function LastValue(pairs: seq<(string, int32)>, key: string): Option<int32>
    decreases |pairs|
  {
    if |pairs| == 0 then None
    else
      var later := LastValue(pairs[1..], key);
      if later.Some? then later
      else if pairs[0].0 == key then Some(pairs[0].1)
      else None
  }

  /** LastValue finds the pair with that key that no other pair with that key follows. */
  lemma {:induction false} LastValueIsLast(pairs: seq<(string, int32)>, key: string)
    ensures var r := LastValue(pairs, key);
      && (r.None? <==> forall i :: 0 <= i < |pairs| ==> pairs[i].0 != key)
      && (r.Some? ==> exists i :: 0 <= i < |pairs| && pairs[i] == (key, r.value)
                                  && forall j :: i < j < |pairs| ==> pairs[j].0 != key)
    decreases |pairs|
  {
    if |pairs| > 0 {
      var tail := pairs[1..];
      LastValueIsLast(tail, key);
      assert forall i :: 0 <= i < |tail| ==> tail[i] == pairs[i + 1];
      var later := LastValue(tail, key);
      if later.Some? {
        var i :| 0 <= i < |tail| && tail[i] == (key, later.value)
                 && forall j :: i < j < |tail| ==> tail[j].0 != key;
        assert pairs[i + 1] == (key, later.value);
      }
    }
  }

  function OrElse(o: Option<int32>, d: int32): int32 {
    if o.Some? then o.value else d
  }

  /**
   * A load leaves in `w` and `h` the last value read for that key, or the prior value when
   * the key was not read.
   */
  lemma {:induction false} LoadedSize(s: Settings, ws: seq<string>)
    ensures var p, r := PairsRead(ws), LoadWords(s, ws);
      && r.width == OrElse(LastValue(p, "w"), s.width)
      && r.height == OrElse(LastValue(p, "h"), s.height)
    decreases |ws|
  {
    if |ws| >= 2 && ParseInt(ws[1]).Some? {
      LoadedSize(Apply(s, ws[0], ParseInt(ws[1]).value), ws[2..]);
      assert PairsRead(ws)[1..] == PairsRead(ws[2..]);
    }
  }

  /**
   * A load leaves in the recursion depth and the thread count the last value read for
   * `depth` and `num-threads`, raised to 1 when it is not positive, or the prior value when the
   * key was not read.
   */
  lemma {:induction false} LoadedCounts(s: Settings, ws: seq<string>)
    ensures var p, r := PairsRead(ws), LoadWords(s, ws);
      && r.depth == (if LastValue(p, "depth").Some? then AtLeastOne(LastValue(p, "depth").value) else s.depth)
      && r.numThreads == (if LastValue(p, "num-threads").Some? then AtLeastOne(LastValue(p, "num-threads").value)
                          else s.numThreads)
    decreases |ws|
  {
    if |ws| >= 2 && ParseInt(ws[1]).Some? {
      LoadedCounts(Apply(s, ws[0], ParseInt(ws[1]).value), ws[2..]);
      assert PairsRead(ws)[1..] == PairsRead(ws[2..]);
    }
  }

  /**
   * A load turns anti-aliasing and the k-d tree on exactly when the last value read for
   * their key is non-zero, and leaves them as they were when the key was not read.
   */
  lemma {:induction false} LoadedSwitches(s: Settings, ws: seq<string>)
    ensures var p, r := PairsRead(ws), LoadWords(s, ws);
      && r.antiAliasing == (if LastValue(p, "anti-aliasing").Some? then LastValue(p, "anti-aliasing").value != 0
                            else s.antiAliasing)
      && r.useKdTree == (if LastValue(p, "use-kd-tree").Some? then LastValue(p, "use-kd-tree").value != 0
                         else s.useKdTree)
    decreases |ws|
  {
    if |ws| >= 2 && ParseInt(ws[1]).Some? {
      LoadedSwitches(Apply(s, ws[0], ParseInt(ws[1]).value), ws[2..]);
      assert PairsRead(ws)[1..] == PairsRead(ws[2..]);
    }
  }

  /** Every value among the words reads as an int, so the load goes through all of them. */
  predicate AllValuesRead(ws: seq<string>)
    decreases |ws|
  {
    |ws| == 0 || (|ws| >= 2 && ParseInt(ws[1]).Some? && AllValuesRead(ws[2..]))
  }

  /** After words that all load, one more pair whose value is an int is applied last. */
  lemma {:induction false} LoadSnoc(s: Settings, ws: seq<string>, key: string, value: string, v: int32)
    requires AllValuesRead(ws) && ParseInt(value) == Some(v)
    ensures AllValuesRead(ws + [key, value])
    ensures LoadWords(s, ws + [key, value]) == Apply(LoadWords(s, ws), key, v)
    decreases |ws|
  {
    var all := ws + [key, value];
    if |ws| == 0 {
      assert all == [key, value];
      assert all[2..] == [];
    } else {
      assert all[0] == ws[0] && all[1] == ws[1];
      assert all[2..] == ws[2..] + [key, value];
      LoadSnoc(Apply(s, ws[0], ParseInt(ws[1]).value), ws[2..], key, value, v);
    }
  }

  /**
   * A value that is not an int ends the load: whatever follows it is ignored, and the pairs
   * before it stay applied.
   */
  lemma {:induction false} NonIntegerStops(s: Settings, pre: seq<string>, key: string, value: string, rest: seq<string>)
    requires |pre| % 2 == 0 && ParseInt(value).None?
    ensures LoadWords(s, pre + [key, value] + rest) == LoadWords(s, pre)
    decreases |pre|
  {
    var ws := pre + [key, value] + rest;
    if |pre| == 0 {
      assert ws[1] == value;
    } else {
      assert ws[1] == pre[1] && ws[0] == pre[0];
      if ParseInt(pre[1]).Some? {
        assert ws[2..] == pre[2..] + [key, value] + rest;
        NonIntegerStops(Apply(s, pre[0], ParseInt(pre[1]).value), pre[2..], key, value, rest);
      }
    }
  }

  // ---------------------------------------------------------------------------
  // SaveIntoFile

  /** One line `key value`. */
  function Line(key: string, v: int32): string {
    key + " " + IntToString(v) + "\n"
  }

  /** `file << bool`: 1 or 0. */
  function BoolValue(b: bool): int32 {
    if b then 1 else 0
  }

  /** Reading on after a line adds its key and its value's text; the line ends in a blank. */
  lemma WordsAfterLine(prefix: string, key: string, v: int32)
    requires |prefix| == 0 || IsSpace(prefix[|prefix| - 1])
    requires IsWord(key)
    ensures Words(prefix + Line(key, v)) == Words(prefix) + [key, IntToString(v)]
    ensures IsSpace((prefix + Line(key, v))[|prefix + Line(key, v)| - 1])
  {
    WordsAppend(prefix, Line(key, v));
    WordsOfLine(key, v);
  }

  /** None of the six keys holds a blank. */
  lemma KeysAreWords()
    ensures IsWord("w") && IsWord("h") && IsWord("depth") && IsWord("anti-aliasing")
    ensures IsWord("num-threads") && IsWord("use-kd-tree")
  {
  }

  /** A switch is written as the digit 1 or 0. */
  lemma BoolText(b: bool)
    ensures IntToString(BoolValue(b)) == if b then "1" else "0"
  {
    assert NatToString(1) == "1" && NatToString(0) == "0";
  }

  /** The text SaveIntoFile writes: six lines in a fixed order. */
  function SaveText(s: Settings): string {
    Line("w", s.width) + Line("h", s.height) + Line("depth", s.depth)
    + Line("anti-aliasing", BoolValue(s.antiAliasing)) + Line("num-threads", s.numThreads)
    + Line("use-kd-tree", BoolValue(s.useKdTree))
  }

  /** A line reads back as its key and its value's text. */
  lemma WordsOfLine(key: string, v: int32)
    requires IsWord(key)
    ensures Words(Line(key, v)) == [key, IntToString(v)]
  {
    var d := IntToString(v);
    IntRoundTrip(v);
    assert Line(key, v) == (key + [' ']) + (d + ['\n']);
    WordsAppend(key + [' '], d + ['\n']);
    WordThenBlank(key, ' ');
    WordThenBlank(d, '\n');
  }

  /**
   * The saved text is twelve words: each key in the order w, h, depth, anti-aliasing,
   * num-threads, use-kd-tree, followed by its value, the switches written as 1 or 0.
   */
  lemma SaveWords(s: Settings)
    ensures Words(SaveText(s))
         == ["w", IntToString(s.width)] + ["h", IntToString(s.height)] + ["depth", IntToString(s.depth)]
            + ["anti-aliasing", if s.antiAliasing then "1" else "0"] + ["num-threads", IntToString(s.numThreads)]
            + ["use-kd-tree", if s.useKdTree then "1" else "0"]
  {
    KeysAreWords();
    var t1 := Line("w", s.width);
    WordsAfterLine([], "w", s.width);
    assert [] + t1 == t1;
    assert Words(t1) == ["w", IntToString(s.width)];
    var t2 := t1 + Line("h", s.height);
    WordsAfterLine(t1, "h", s.height);
    var t3 := t2 + Line("depth", s.depth);
    WordsAfterLine(t2, "depth", s.depth);
    var t4 := t3 + Line("anti-aliasing", BoolValue(s.antiAliasing));
    WordsAfterLine(t3, "anti-aliasing", BoolValue(s.antiAliasing));
    var t5 := t4 + Line("num-threads", s.numThreads);
    WordsAfterLine(t4, "num-threads", s.numThreads);
    WordsAfterLine(t5, "use-kd-tree", BoolValue(s.useKdTree));
    BoolText(s.antiAliasing);
    BoolText(s.useKdTree);
  }

  /**
   * Saving and loading again restores every field, whatever the loading configuration held
   * before, as long as depth and thread count are at least 1 (the loader would coerce
   * anything else to 1).
   */
  lemma SaveLoadRoundTrip(prior: Settings, s: Settings)
    requires s.depth >= 1 && s.numThreads >= 1
    ensures LoadWords(prior, Words(SaveText(s))) == s
  {
    SaveWords(s);
    BoolText(s.antiAliasing);
    BoolText(s.useKdTree);
    var aa, kd := BoolValue(s.antiAliasing), BoolValue(s.useKdTree);
    IntRoundTrip(s.width);
    IntRoundTrip(s.height);
    IntRoundTrip(s.depth);
    IntRoundTrip(aa);
    IntRoundTrip(s.numThreads);
    IntRoundTrip(kd);
    var w1 := ["w", IntToString(s.width)];
    assert [] + w1 == w1;
    LoadSnoc(prior, [], "w", IntToString(s.width), s.width);
    var w2 := w1 + ["h", IntToString(s.height)];
    LoadSnoc(prior, w1, "h", IntToString(s.height), s.height);
    var w3 := w2 + ["depth", IntToString(s.depth)];
    LoadSnoc(prior, w2, "depth", IntToString(s.depth), s.depth);
    var w4 := w3 + ["anti-aliasing", IntToString(aa)];
    LoadSnoc(prior, w3, "anti-aliasing", IntToString(aa), aa);
    var w5 := w4 + ["num-threads", IntToString(s.numThreads)];
    LoadSnoc(prior, w4, "num-threads", IntToString(s.numThreads), s.numThreads);
    LoadSnoc(prior, w5, "use-kd-tree", IntToString(kd), kd);
  }

  // ---------------------------------------------------------------------------
  // The configuration object

  class RenderingConfig {
    var width: int32
    var height: int32
    var recursionDepth: int32
    var antiAliasing: bool
    var numThreads: int32
    var useKdTree: bool

    function Current(): Settings
      reads this
    {
      Settings(width, height, recursionDepth, antiAliasing, numThreads, useKdTree)
    }

    /** The member initialisers. */
    constructor()
      ensures Current() == Defaults
    {
      width, height := 800, 600;
      recursionDepth := 4;
      antiAliasing := false;
      numThreads := 1;
      useKdTree := false;
    }

    function GetImgWidth(): int32
      reads this
    {
      width
    }

    function GetImgHeight(): int32
      reads this
    {
      height
    }

    function GetRecursionDepth(): int32
      reads this
    {
      recursionDepth
    }

    function AntiAliasingOn(): bool
      reads this
    {
      antiAliasing
    }

    /** The setters store their argument as given: no coercion, unlike the loader. */
    method SetImgWidth(w: int32)
      modifies this
      ensures Current() == old(Current()).(width := w)
    {
      width := w;
    }

    method SetImgHeight(h: int32)
      modifies this
      ensures Current() == old(Current()).(height := h)
    {
      height := h;
    }

    method SetRecursionDepth(depth: int32)
      modifies this
      ensures Current() == old(Current()).(depth := depth)
    {
      recursionDepth := depth;
    }

    method SetAntiAliasingOn(on: bool)
      modifies this
      ensures Current() == old(Current()).(antiAliasing := on)
    {
      antiAliasing := on;
    }

    /**
     * RenderingConfig::LoadFromFile; `file` is None when the file cannot be opened, which
     * returns false and changes nothing. Otherwise the pairs of the file's words are applied
     * in order and the load returns true.
     */
    method LoadFromFile(file: Option<string>) returns (ok: bool)
      modifies this
      ensures file.None? ==> !ok && Current() == old(Current())
      ensures file.Some? ==> ok && Current() == LoadWords(old(Current()), Words(file.value))
    {
      if file.None? {
        return false;
      }
      var words := Words(file.value);
      var i := 0;
      while i < |words|
        invariant 0 <= i <= |words|
        invariant LoadWords(Current(), words[i..]) == LoadWords(old(Current()), words)
        decreases |words| - i
      {
        var property := words[i];
        if i + 1 == |words| {
          break;
        }
        var value := ParseInt(words[i + 1]);
        if value.None? {
          break;
        }
        var v := value.value;
        if property == "w" {
          width := v;
        } else if property == "h" {
          height := v;
        } else if property == "depth" {
          recursionDepth := if v > 0 then v else 1;
        } else if property == "anti-aliasing" {
          antiAliasing := v != 0;
        } else if property == "num-threads" {
          numThreads := if v > 0 then v else 1;
        } else if property == "use-kd-tree" {
          useKdTree := v != 0;
        }
        assert words[i..][2..] == words[i + 2..];
        i := i + 2;
      }
      return true;
    }

    /**
     * RenderingConfig::SaveIntoFile; `canOpen` is false when the file cannot be opened, which
     * returns false and writes nothing. Otherwise the six lines are written in order.
     */
    method SaveIntoFile(canOpen: bool) returns (ok: bool, text: string)
      ensures ok == canOpen
      ensures ok ==> text == SaveText(Current())
      ensures !ok ==> text == ""
    {
      if !canOpen {
        return false, "";
      }
      text := Line("w", width);
      text := text + Line("h", height);
      text := text + Line("depth", recursionDepth);
      text := text + Line("anti-aliasing", if antiAliasing then 1 else 0);
      text := text + Line("num-threads", numThreads);
      text := text + Line("use-kd-tree", if useKdTree then 1 else 0);
      ok := true;
    }
  }
}

=== FILE: Scene.dfy ===
/**
 * The scene (renderer/scene/Scene.cpp, Scene.h, Camera.h): the primitive and attribute lists,
 * the brute-force nearest-primitive scans, the shadow rule of ComputePhongIllumination, and
 * the scene-file loader over the words of the file.
 */
module Scene {
  import opened Wrappers
  import opened Primitives
  import opened MathFunctions
  import opened HitScan
  import opened SceneParser
  import opened SceneFormat

  /** The camera's view and projection parameters, with Camera.h's defaults below. */
  datatype Camera = Camera(pos: Vec3, rot: Vec3, scale: Vec3, fovy: real, farZ: real, nearZ: real)

  const DefaultCamera := Camera(Zero3, Zero3, One3, 3.141592 / 3.0, 10000.0, 0.01)

  /** Everything a Scene holds, as one value. */
  datatype SceneData = SceneData(
    triangles: seq<Triangle>, triangleAttribs: seq<TriangleAttrib>,
    spheres: seq<Sphere>, sphereAttribs: seq<SphereAttrib>,
    lights: seq<Light>, ambLight: Vec3, background: Vec4, camera: Camera)

  /** Each primitive has its attribute record at the same index. */
  predicate Parallel(sd: SceneData) {
    |sd.triangles| == |sd.triangleAttribs| && |sd.spheres| == |sd.sphereAttribs|
  }

  // ---------------------------------------------------------------------------
  // Nearest-primitive scans

  /** Scene::NearestTriangle's verdict: the nearest-hit scan over every triangle in index order. */
  function BruteForceTriangle(tris: seq<Triangle>, r: Vec3, o: Vec3, glm: Glm): Option<Hit> {
    Nearest(TriangleCandidates(tris, Range(|tris|), r, o, glm))
  }

  /** The brute-force scan is the subset scan over all indices, the reference of the k-d tree query. */
  lemma BruteForceIsNearestTriangleIn(tris: seq<Triangle>, r: Vec3, o: Vec3, glm: Glm)
    ensures BruteForceTriangle(tris, r, o, glm) == NearestTriangleIn(tris, Range(|tris|), r, o, glm)
  {
  }

  /**
   * The triangle scan is None exactly when no triangle reports a hit nearer than FLT_MAX;
   * otherwise it is a triangle's own test result whose t is at most every hit's t and below
   * the t of every lower-indexed hit (the lowest index wins ties).
   */
  lemma BruteForceTriangleSound(tris: seq<Triangle>, r: Vec3, o: Vec3, glm: Glm)
    ensures var h := BruteForceTriangle(tris, r, o, glm);
      && (h.None? <==> forall i :: 0 <= i < |tris| ==> !Visible(TriangleHit(tris, i, r, o, glm)))
      && (h.Some? ==> h.value.t < FloatMax && 0 <= h.value.index < |tris|
                      && TriangleHit(tris, h.value.index, r, o, glm) == h)
      && (h.Some? ==> forall i :: 0 <= i < |tris| && TriangleHit(tris, i, r, o, glm).Some? ==>
            h.value.t <= TriangleHit(tris, i, r, o, glm).value.t)
      && (h.Some? ==> forall i :: 0 <= i < h.value.index && TriangleHit(tris, i, r, o, glm).Some? ==>
            h.value.t < TriangleHit(tris, i, r, o, glm).value.t)
  {
    var all := Range(|tris|);
    var cands := TriangleCandidates(tris, all, r, o, glm);
    assert forall i :: 0 <= i < |tris| ==> cands[i] == TriangleHit(tris, i, r, o, glm) by {
      forall i | 0 <= i < |tris| ensures cands[i] == TriangleHit(tris, i, r, o, glm) {
        assert all[i] == i;
      }
    }
    var k := NearestIn(cands);
    assert k >= 0 ==> cands[k].value.index == k;
  }

  /** Scene::NearestSphere's verdict: the nearest-hit scan over every sphere in index order. */
  function BruteForceSphere(spheres: seq<Sphere>, r: Vec3, o: Vec3, glm: Glm): Option<Hit> {
    Nearest(SphereCandidates(spheres, r, o, glm))
  }

  /** The sphere scan has the same guarantees as the triangle scan. */
  lemma BruteForceSphereSound(spheres: seq<Sphere>, r: Vec3, o: Vec3, glm: Glm)
    ensures var h := BruteForceSphere(spheres, r, o, glm);
      && (h.None? <==> forall i :: 0 <= i < |spheres| ==> !Visible(SphereHitAt(spheres, i, r, o, glm)))
      && (h.Some? ==> h.value.t < FloatMax && 0 <= h.value.index < |spheres|
                      && SphereHitAt(spheres, h.value.index, r, o, glm) == h)
      && (h.Some? ==> forall i :: 0 <= i < |spheres| && SphereHitAt(spheres, i, r, o, glm).Some? ==>
            h.value.t <= SphereHitAt(spheres, i, r, o, glm).value.t)
      && (h.Some? ==> forall i :: 0 <= i < h.value.index && SphereHitAt(spheres, i, r, o, glm).Some? ==>
            h.value.t < SphereHitAt(spheres, i, r, o, glm).value.t)
  {
    var cands := SphereCandidates(spheres, r, o, glm);
    var k := NearestIn(cands);
    assert k >= 0 ==> cands[k].value.index == k;
  }

  // ---------------------------------------------------------------------------
  // ComputePhongIllumination

  /** The shadow ray towards a light: normalize(light.pos - f_pos). */
  function ShadowRay(light: Light, fPos: Vec3, glm: Glm): Vec3 {
    glm.normalize(Sub(light.pos, fPos))
  }

  /** The distance from the fragment to the light. */
  function LightDistance(light: Light, fPos: Vec3, glm: Glm): real {
    Length(glm, Sub(light.pos, fPos))
  }

  /**
   * The shadow rule: a light is seen from `fPos` when neither the nearest triangle nor the
   * nearest sphere along the shadow ray is hit at a distance within the light's distance
   * plus epsilon.
   */
  predicate Lit(sd: SceneData, light: Light, fPos: Vec3, glm: Glm) {
    var l := ShadowRay(light, fPos, glm);
    var d := LightDistance(light, fPos, glm);
    var th := BruteForceTriangle(sd.triangles, l, fPos, glm);
    var sh := BruteForceSphere(sd.spheres, l, fPos, glm);
    (th.None? || th.value.t > d + Epsilon) && (sh.None? || sh.value.t > d + Epsilon)
  }

  /**
   * The test of the source's loop, on the index and distance its two scans return (-1 for
   * none), decides Lit.
   */
  lemma LitFromScans(sd: SceneData, light: Light, fPos: Vec3, glm: Glm, triIndex: int, tTriangle: real,
                     sphIndex: int, tSphere: real)
    requires var th := BruteForceTriangle(sd.triangles, ShadowRay(light, fPos, glm), fPos, glm);
      (th.None? ==> triIndex == -1) && (th.Some? ==> triIndex == th.value.index && tTriangle == th.value.t)
    requires var sh := BruteForceSphere(sd.spheres, ShadowRay(light, fPos, glm), fPos, glm);
      (sh.None? ==> sphIndex == -1) && (sh.Some? ==> sphIndex == sh.value.index && tSphere == sh.value.t)
    ensures var d := LightDistance(light, fPos, glm);
      Lit(sd, light, fPos, glm) <==>
        (triIndex == -1 || tTriangle > d + Epsilon) && (sphIndex == -1 || tSphere > d + Epsilon)
  {
    BruteForceTriangleSound(sd.triangles, ShadowRay(light, fPos, glm), fPos, glm);
    BruteForceSphereSound(sd.spheres, ShadowRay(light, fPos, glm), fPos, glm);
  }

  /** A candidate the scan would accept, no farther than the light (plus epsilon). */
  predicate Blocks(c: Option<Hit>, d: real) {
    Visible(c) && c.value.t <= d + Epsilon
  }

  /**
   * The shadow rule, primitive by primitive: a light is seen exactly when no triangle and no
   * sphere blocks the shadow ray before the light.
   */
  lemma LitIffNoBlocker(sd: SceneData, light: Light, fPos: Vec3, glm: Glm)
    ensures var l := ShadowRay(light, fPos, glm);
      var d := LightDistance(light, fPos, glm);
      Lit(sd, light, fPos, glm) <==>
        && (forall i :: 0 <= i < |sd.triangles| ==> !Blocks(TriangleHit(sd.triangles, i, l, fPos, glm), d))
        && (forall i :: 0 <= i < |sd.spheres| ==> !Blocks(SphereHitAt(sd.spheres, i, l, fPos, glm), d))
  {
    var l := ShadowRay(light, fPos, glm);
    var d := LightDistance(light, fPos, glm);
    var th := BruteForceTriangle(sd.triangles, l, fPos, glm);
    var sh := BruteForceSphere(sd.spheres, l, fPos, glm);
    BruteForceTriangleSound(sd.triangles, l, fPos, glm);
    BruteForceSphereSound(sd.spheres, l, fPos, glm);
    if th.Some? && th.value.t <= d + Epsilon {
      assert Blocks(TriangleHit(sd.triangles, th.value.index, l, fPos, glm), d);
    }
    if sh.Some? && sh.value.t <= d + Epsilon {
      assert Blocks(SphereHitAt(sd.spheres, sh.value.index, l, fPos, glm), d);
    }
  }

  /** The diffuse term of one light: light.col * Kd * max(dot(l, n), 0). */
  function Diffuse(light: Light, l: Vec3, n: Vec3, kd: Vec3): Vec3 {
    Scale(Max(Dot(l, n), 0.0), Mul(light.col, kd))
  }

  /** Id after the loop over `lights`: the diffuse terms of the lights that are seen. */
  function DiffuseSum(sd: SceneData, lights: seq<Light>, fPos: Vec3, n: Vec3, kd: Vec3, glm: Glm): Vec3
    decreases |lights|
  {
    if |lights| == 0 then Zero3
    else
      var light := lights[|lights| - 1];
      var rest := DiffuseSum(sd, lights[..|lights| - 1], fPos, n, kd, glm);
      if Lit(sd, light, fPos, glm) then Add(rest, Diffuse(light, ShadowRay(light, fPos, glm), n, kd)) else rest
  }

  /** One more light in the loop adds its diffuse term exactly when it is seen. */
  lemma DiffuseSumStep(sd: SceneData, lights: seq<Light>, i: int, fPos: Vec3, n: Vec3, kd: Vec3, glm: Glm)
    requires 0 <= i < |lights|
    ensures var rest := DiffuseSum(sd, lights[..i], fPos, n, kd, glm);
      DiffuseSum(sd, lights[..i + 1], fPos, n, kd, glm)
        == if Lit(sd, lights[i], fPos, glm) then Add(rest, Diffuse(lights[i], ShadowRay(lights[i], fPos, glm), n, kd)) else rest
  {
    assert lights[..i + 1][..i] == lights[..i];
  }

  /**
   * ComputePhongIllumination's result: the ambient light plus the diffuse terms of the seen
   * lights. The specular sum Is stays zero, so Ks and the shininess do not enter.
   */
  function PhongIllumination(sd: SceneData, fPos: Vec3, n: Vec3, kd: Vec3, glm: Glm): Vec3 {
    Add(sd.ambLight, DiffuseSum(sd, sd.lights, fPos, n, kd, glm))
  }

  /** Lights that are all in shadow contribute nothing. */
  lemma {:induction false} DiffuseSumInShadow(sd: SceneData, lights: seq<Light>, fPos: Vec3, n: Vec3, kd: Vec3, glm: Glm)
    requires forall i :: 0 <= i < |lights| ==> !Lit(sd, lights[i], fPos, glm)
    ensures DiffuseSum(sd, lights, fPos, n, kd, glm) == Zero3
    decreases |lights|
  {
    if |lights| > 0 {
      var prefix := lights[..|lights| - 1];
      assert forall i :: 0 <= i < |prefix| ==> prefix[i] == lights[i];
      DiffuseSumInShadow(sd, prefix, fPos, n, kd, glm);
    }
  }

  /** A fragment that sees no light gets exactly the ambient light. */
  lemma AllInShadowIsAmbient(sd: SceneData, fPos: Vec3, n: Vec3, kd: Vec3, glm: Glm)
    requires forall i :: 0 <= i < |sd.lights| ==> !Lit(sd, sd.lights[i], fPos, glm)
    ensures PhongIllumination(sd, fPos, n, kd, glm) == sd.ambLight
  {
    DiffuseSumInShadow(sd, sd.lights, fPos, n, kd, glm);
  }

  predicate NonNegative(v: Vec3) {
    v.x >= 0.0 && v.y >= 0.0 && v.z >= 0.0
  }

  lemma DiffuseNonNegative(light: Light, l: Vec3, n: Vec3, kd: Vec3)
    requires NonNegative(kd) && NonNegative(light.col)
    ensures NonNegative(Diffuse(light, l, n, kd))
  {
    var s := Max(Dot(l, n), 0.0);
    var m := Mul(light.col, kd);
    assert m.x >= 0.0 && m.y >= 0.0 && m.z >= 0.0;
    assert s * m.x >= 0.0 && s * m.y >= 0.0 && s * m.z >= 0.0;
  }

  /** With non-negative light colours and diffuse material, the diffuse sum is non-negative. */
  lemma {:induction false} DiffuseSumNonNegative(sd: SceneData, lights: seq<Light>, fPos: Vec3, n: Vec3, kd: Vec3, glm: Glm)
    requires NonNegative(kd)
    requires forall i :: 0 <= i < |lights| ==> NonNegative(lights[i].col)
    ensures NonNegative(DiffuseSum(sd, lights, fPos, n, kd, glm))
    decreases |lights|
  {
    if |lights| > 0 {
      var prefix := lights[..|lights| - 1];
      var light := lights[|lights| - 1];
      assert forall i :: 0 <= i < |prefix| ==> prefix[i] == lights[i];
      DiffuseSumNonNegative(sd, prefix, fPos, n, kd, glm);
      DiffuseNonNegative(light, ShadowRay(light, fPos, glm), n, kd);
    }
  }

  /** Lighting only adds to the ambient term when colours and material are non-negative. */
  lemma PhongAtLeastAmbient(sd: SceneData, fPos: Vec3, n: Vec3, kd: Vec3, glm: Glm)
    requires NonNegative(kd)
    requires forall i :: 0 <= i < |sd.lights| ==> NonNegative(sd.lights[i].col)
    ensures var c := PhongIllumination(sd, fPos, n, kd, glm);
      c.x >= sd.ambLight.x && c.y >= sd.ambLight.y && c.z >= sd.ambLight.z
  {
    DiffuseSumNonNegative(sd, sd.lights, fPos, n, kd, glm);
  }

  // ---------------------------------------------------------------------------
  // Scene-file objects

  const NoTriangle := Triangle(Zero3, Zero3, Zero3)
  const ZeroMat3 := Mat3(Zero3, Zero3, Zero3)
  const NoTriangleAttrib := TriangleAttrib(ZeroMat3, ZeroMat3, ZeroMat3, Zero3, 0.0)

  /** Storing vertex `i`'s material: column `i` of Kd, Ks and n, component `i` of shininess. */
  function StoreVertex(attrib: TriangleAttrib, i: int, kd: Vec3, ks: Vec3, normal: Vec3, shininess: real,
                       nRefr: real): TriangleAttrib
    requires 0 <= i < 3
  {
    attrib.(kd := attrib.kd.WithCol(i, kd), ks := attrib.ks.WithCol(i, ks), n := attrib.n.WithCol(i, normal),
            shininess := attrib.shininess.Set(i, shininess), nRefr := nRefr)
  }

  datatype TriangleRead = TriangleRead(st: Stream, triangle: Triangle, attrib: TriangleAttrib, ok: bool, message: string)

  /**
   * One pass of the vertex loop of a triangle block: read vertex block `i` into vertex `i`
   * and column `i` of the material; a read that has already failed stays as it is.
   */
  function ReadVertex(words: seq<Token>, rd: TriangleRead, i: nat, nRefr: real): (r: TriangleRead)
    requires InRange(words, rd.st) && i < 3
    ensures Advanced(words, rd.st, r.st)
  {
    if !rd.ok then rd
    else
      var v := ParseBlock(words, rd.st, VertexFields, rd.message);
      if !v.ok then rd.(st := v.st, ok := false, message := v.message)
      else
        var x := v.values;
        TriangleRead(v.st, rd.triangle.WithV(i, ValueAt(x, 0)),
                     StoreVertex(rd.attrib, i, ValueAt(x, 2), ValueAt(x, 3), ValueAt(x, 1), ValueAt(x, 4).x, nRefr),
                     true, v.message)
  }

  /** The first `n` passes of the vertex loop. */
  function ReadVertices(words: seq<Token>, rd: TriangleRead, n: nat, nRefr: real): (r: TriangleRead)
    requires InRange(words, rd.st) && n <= 3
    ensures Advanced(words, rd.st, r.st)
    decreases n, rd
  {
    if n == 0 then rd else ReadVertex(words, ReadVertices(words, rd, n - 1, nRefr), n - 1, nRefr)
  }

  /** A triangle block: the vertex loop run to the end on a blank triangle and material. */
  function ParseTriangle(words: seq<Token>, st: Stream, nRefr: real, message: string): TriangleRead
    requires InRange(words, st)
  {
    ReadVertices(words, TriangleStart(st, message), 3, nRefr)
  }

  /**
   * The vertex loop of a triangle block as the loader runs it: read the three vertex blocks
   * in turn into a blank triangle and material, and stop at the first block that fails.
   */
  method ReadTriangle(words: seq<Token>, st0: Stream, nRefr: real, message0: string) returns (r: TriangleRead)
    requires InRange(words, st0)
    ensures r == ParseTriangle(words, st0, nRefr, message0)
  {
    var st, message := st0, message0;
    var triangle, attrib := NoTriangle, NoTriangleAttrib;
    ghost var start := TriangleStart(st0, message0);
    for i := 0 to 3
      invariant InRange(words, st)
      invariant ReadVertices(words, start, i, nRefr) == TriangleRead(st, triangle, attrib, true, message)
    {
      var vertex := ParseBlock(words, st, VertexFields, message);
      st, message := vertex.st, vertex.message;
      if !vertex.ok {
        FailureStays(words, start, i + 1, 3, nRefr);
        return TriangleRead(st, triangle, attrib, false, message);
      }
      var x := vertex.values;
      triangle := triangle.WithV(i, ValueAt(x, 0));
      attrib := StoreVertex(attrib, i, ValueAt(x, 2), ValueAt(x, 3), ValueAt(x, 1), ValueAt(x, 4).x, nRefr);
    }
    return TriangleRead(st, triangle, attrib, true, message);
  }

  /** Once a vertex has failed, the later passes of the loop change nothing. */
  lemma {:induction false} FailureStays(words: seq<Token>, rd: TriangleRead, k: nat, n: nat, nRefr: real)
    requires InRange(words, rd.st) && k <= n <= 3
    requires !ReadVertices(words, rd, k, nRefr).ok
    ensures ReadVertices(words, rd, n, nRefr) == ReadVertices(words, rd, k, nRefr)
    decreases n
  {
    if n > k {
      FailureStays(words, rd, k, n - 1, nRefr);
    }
  }

  /** A vertex block reads exactly when its 18 words have the vertex shape, and its five values come from them. */
  lemma VertexBlock(words: seq<Token>, st: Stream, message: string)
    requires InRange(words, st)
    ensures var v := ParseBlock(words, st, VertexFields, message);
      v.ok <==> !st.failed && FieldsAt(words, st.pos, VertexFields)
    ensures var v := ParseBlock(words, st, VertexFields, message);
      v.ok ==> && v.st == st.(pos := st.pos + 18) && v.message == message
               && ValueAt(v.values, 0) == VecAt(words, st.pos + 1) && ValueAt(v.values, 1) == VecAt(words, st.pos + 5)
               && ValueAt(v.values, 2) == VecAt(words, st.pos + 9) && ValueAt(v.values, 3) == VecAt(words, st.pos + 13)
               && ValueAt(v.values, 4).x == Num(words, st.pos + 17)
  {
    BlockShape(words, st, VertexFields, message);
    BlockValues(words, st, VertexFields, message);
    VertexLayout(ParseBlock(words, st, VertexFields, message).values, words, st.pos);
  }

  /**
   * A pass of the vertex loop on a good read succeeds exactly when the next 18 words are a
   * vertex block; it then stores pos: as vertex `i`, and dif:, spe:, nor: and shi: as
   * column `i` of Kd, Ks, the normals and the shininess.
   */
  lemma VertexStep(words: seq<Token>, rd: TriangleRead, i: nat, nRefr: real)
    requires InRange(words, rd.st) && i < 3 && rd.ok
    ensures var r := ReadVertex(words, rd, i, nRefr);
      var w, p := words, rd.st.pos;
      && (r.ok <==> !rd.st.failed && FieldsAt(w, p, VertexFields))
      && (r.ok ==> && r.st == rd.st.(pos := p + 18) && r.message == rd.message
                   && r.triangle == rd.triangle.WithV(i, VecAt(w, p + 1))
                   && r.attrib == StoreVertex(rd.attrib, i, VecAt(w, p + 9), VecAt(w, p + 13), VecAt(w, p + 5),
                                              Num(w, p + 17), nRefr))
  {
    VertexBlock(words, rd.st, rd.message);
  }

  /** The shape half of VertexStep: when a pass reads, and how far. */
  lemma VertexReads(words: seq<Token>, rd: TriangleRead, i: nat, nRefr: real)
    requires InRange(words, rd.st) && i < 3 && rd.ok
    ensures var r := ReadVertex(words, rd, i, nRefr);
      && (r.ok <==> !rd.st.failed && FieldsAt(words, rd.st.pos, VertexFields))
      && (r.ok ==> r.st == rd.st.(pos := rd.st.pos + 18) && r.message == rd.message)
  {
    VertexStep(words, rd, i, nRefr);
  }

  /** The values half of VertexStep: what a pass that reads stores. */
  lemma VertexStored(words: seq<Token>, rd: TriangleRead, i: nat, nRefr: real)
    requires InRange(words, rd.st) && i < 3 && rd.ok
    ensures var r := ReadVertex(words, rd, i, nRefr);
      var w, p := words, rd.st.pos;
      r.ok ==> && r.triangle == rd.triangle.WithV(i, VecAt(w, p + 1))
               && r.attrib == StoreVertex(rd.attrib, i, VecAt(w, p + 9), VecAt(w, p + 13), VecAt(w, p + 5),
                                          Num(w, p + 17), nRefr)
  {
    VertexStep(words, rd, i, nRefr);
  }

  /** Where vertex block `j` of a triangle block starting at word `p` begins. */
  function VertexStart(p: nat, j: nat): nat {
    p + 18 * j
  }

  /** The blank triangle and material a triangle block starts from. */
  function TriangleStart(st: Stream, message: string): TriangleRead {
    TriangleRead(st, NoTriangle, NoTriangleAttrib, true, message)
  }

  /** The first `n` passes of the vertex loop, when they read, consume 18 words each and keep the message. */
  lemma {:induction false} VerticesAdvance(words: seq<Token>, st: Stream, nRefr: real, message: string, n: nat)
    requires InRange(words, st) && n <= 3
    ensures var r := ReadVertices(words, TriangleStart(st, message), n, nRefr);
      r.ok ==> r.st == Stream(VertexStart(st.pos, n), st.failed) && r.message == message
    decreases n
  {
    if n > 0 {
      VerticesAdvance(words, st, nRefr, message, n - 1);
      var prev := ReadVertices(words, TriangleStart(st, message), n - 1, nRefr);
      if prev.ok {
        VertexReads(words, prev, n - 1, nRefr);
      }
    }
  }

  /**
   * The first `n` passes of the vertex loop read exactly when the stream is good and the
   * first `n` vertex blocks have the vertex shape; then they consume 18 words each and keep
   * the message.
   */
  lemma {:induction false} VerticesShape(words: seq<Token>, st: Stream, nRefr: real, message: string, n: nat)
    requires InRange(words, st) && n <= 3
    ensures var r := ReadVertices(words, TriangleStart(st, message), n, nRefr);
      r.ok <==> (n == 0 || !st.failed) && forall j :: 0 <= j < n ==> FieldsAt(words, VertexStart(st.pos, j), VertexFields)
    ensures var r := ReadVertices(words, TriangleStart(st, message), n, nRefr);
      r.ok ==> r.st == Stream(VertexStart(st.pos, n), st.failed) && r.message == message
    decreases n
  {
    VerticesAdvance(words, st, nRefr, message, n);
    if n > 0 {
      var start := TriangleStart(st, message);
      VerticesShape(words, st, nRefr, message, n - 1);
      VerticesAdvance(words, st, nRefr, message, n - 1);
      VertexBlocksExtend(words, st.pos, n);
      var prev := ReadVertices(words, start, n - 1, nRefr);
      var r := ReadVertices(words, start, n, nRefr);
      assert r == ReadVertex(words, prev, n - 1, nRefr);
      if prev.ok {
        VertexReads(words, prev, n - 1, nRefr);
        assert r.ok <==> !st.failed && FieldsAt(words, VertexStart(st.pos, n - 1), VertexFields);
      } else {
        assert !r.ok;
      }
    }
  }

  /** The first `n` vertex blocks have the vertex shape when the first `n - 1` and block `n - 1` do. */
  lemma VertexBlocksExtend(words: seq<Token>, p: nat, n: nat)
    requires n > 0
    ensures (forall j :: 0 <= j < n ==> FieldsAt(words, VertexStart(p, j), VertexFields))
        <==> (forall j :: 0 <= j < n - 1 ==> FieldsAt(words, VertexStart(p, j), VertexFields))
             && FieldsAt(words, VertexStart(p, n - 1), VertexFields)
  {
  }

  /**
   * When the first `n` passes read, vertex `j` and column `j` of each material matrix come
   * from vertex block `j`, and the attributes carry the current index of refraction.
   */
  lemma {:induction false} VerticesValues(words: seq<Token>, st: Stream, nRefr: real, message: string, n: nat)
    requires InRange(words, st) && n <= 3
    ensures var r := ReadVertices(words, TriangleStart(st, message), n, nRefr);
      r.ok ==> && (n > 0 ==> r.attrib.nRefr == nRefr)
               && forall j :: 0 <= j < n ==> VertexFrom(r, words, VertexStart(st.pos, j), j)
    decreases n
  {
    if n > 0 {
      var start := TriangleStart(st, message);
      VerticesValues(words, st, nRefr, message, n - 1);
      VerticesAdvance(words, st, nRefr, message, n - 1);
      var prev := ReadVertices(words, start, n - 1, nRefr);
      var r := ReadVertices(words, start, n, nRefr);
      if prev.ok && r.ok {
        VertexStoredFrom(words, prev, n - 1, nRefr);
        forall j | 0 <= j < n
          ensures VertexFrom(r, words, VertexStart(st.pos, j), j)
        {
          if j < n - 1 {
            assert VertexFrom(prev, words, VertexStart(st.pos, j), j);
          }
        }
      }
    }
  }

  /** Vertex `j` and column `j` of each material matrix of `r` come from the vertex block at word `p`. */
  predicate VertexFrom(r: TriangleRead, words: seq<Token>, p: nat, j: int)
    requires 0 <= j < 3
  {
    && r.triangle.V(j) == VecAt(words, p + 1)
    && r.attrib.n.Col(j) == VecAt(words, p + 5)
    && r.attrib.kd.Col(j) == VecAt(words, p + 9)
    && r.attrib.ks.Col(j) == VecAt(words, p + 13)
    && r.attrib.shininess.Get(j) == Num(words, p + 17)
  }

  /**
   * A pass of the vertex loop that reads fills vertex `i` and column `i` from its block,
   * stamps the index of refraction, and keeps every other vertex and column.
   */
  lemma VertexStoredFrom(words: seq<Token>, rd: TriangleRead, i: nat, nRefr: real)
    requires InRange(words, rd.st) && i < 3 && rd.ok
    ensures var r := ReadVertex(words, rd, i, nRefr);
      r.ok ==> && VertexFrom(r, words, rd.st.pos, i) && r.attrib.nRefr == nRefr
               && forall j, q :: 0 <= j < 3 && j != i && VertexFrom(rd, words, q, j) ==> VertexFrom(r, words, q, j)
  {
    VertexStored(words, rd, i, nRefr);
  }

  /**
   * A triangle block is three vertex blocks in a row (54 words). When it reads, vertex `j`
   * and column `j` of each material matrix come from the `j`-th block, and the index of
   * refraction current at that point is stamped on the attributes.
   */
  lemma TriangleBlock(words: seq<Token>, st: Stream, nRefr: real, message: string)
    requires InRange(words, st)
    ensures var r := ParseTriangle(words, st, nRefr, message);
      var p := st.pos;
      r.ok <==> && !st.failed && FieldsAt(words, p, VertexFields) && FieldsAt(words, p + 18, VertexFields)
                && FieldsAt(words, p + 36, VertexFields)
    ensures var r := ParseTriangle(words, st, nRefr, message);
      var p := st.pos;
      var w := words;
      r.ok ==>
        && r.st == st.(pos := p + 54) && r.message == message
        && r.triangle == Triangle(VecAt(w, p + 1), VecAt(w, p + 19), VecAt(w, p + 37))
        && r.attrib == TriangleAttrib(
             Mat3(VecAt(w, p + 9), VecAt(w, p + 27), VecAt(w, p + 45)),
             Mat3(VecAt(w, p + 13), VecAt(w, p + 31), VecAt(w, p + 49)),
             Mat3(VecAt(w, p + 5), VecAt(w, p + 23), VecAt(w, p + 41)),
             Vec3(Num(w, p + 17), Num(w, p + 35), Num(w, p + 53)),
             nRefr)
  {
    VerticesShape(words, st, nRefr, message, 3);
    VerticesValues(words, st, nRefr, message, 3);
    assert VertexStart(st.pos, 0) == st.pos && VertexStart(st.pos, 1) == st.pos + 18;
    assert VertexStart(st.pos, 2) == st.pos + 36 && VertexStart(st.pos, 3) == st.pos + 54;
  }

  /** The sphere of a sphere block's numbers: pos:, rad:. */
  function SphereOf(x: seq<Vec3>): Sphere {
    Sphere(ValueAt(x, 0), ValueAt(x, 1).x)
  }

  /** The attributes of a sphere block's numbers: dif:, spe:, shi:, with the current index of refraction. */
  function SphereAttribOf(x: seq<Vec3>, nRefr: real): SphereAttrib {
    SphereAttrib(ValueAt(x, 2), ValueAt(x, 3), ValueAt(x, 4).x, nRefr)
  }

  /** A sphere block reads exactly when its 16 words have the sphere shape; then the sphere and its attributes come from them. */
  lemma SphereBlock(words: seq<Token>, st: Stream, nRefr: real, message: string)
    requires InRange(words, st)
    ensures var r := ParseBlock(words, st, SphereFields, message);
        r.ok <==> !st.failed && FieldsAt(words, st.pos, SphereFields)
    ensures var r := ParseBlock(words, st, SphereFields, message);
        r.ok ==> var p := st.pos;
        && r.st == st.(pos := p + 16) && r.message == message
        && SphereOf(r.values) == Sphere(VecAt(words, p + 1), Num(words, p + 5))
        && SphereAttribOf(r.values, nRefr) == SphereAttrib(VecAt(words, p + 7), VecAt(words, p + 11), Num(words, p + 15), nRefr)
  {
    var r := ParseBlock(words, st, SphereFields, message);
    BlockShape(words, st, SphereFields, message);
    BlockValues(words, st, SphereFields, message);
    SphereLayout(r.values, words, st.pos);
  }

  /** The light of a light block's numbers: pos:, col:. */
  function LightOf(x: seq<Vec3>): Light {
    Light(ValueAt(x, 0), ValueAt(x, 1))
  }

  /** The camera after a camera block: SetPosition(pos:), SetRotation(rot:), SetScale(scale:). */
  function CameraOf(c: Camera, x: seq<Vec3>): Camera {
    Reposition(c, ValueAt(x, 0), ValueAt(x, 1), ValueAt(x, 2).x)
  }

  /** The background colour of a background block's numbers: vec4(rgb:, alpha:). */
  function BackgroundOf(x: seq<Vec3>): Vec4 {
    WithAlpha(ValueAt(x, 0), ValueAt(x, 1).x)
  }

  /**
   * Light, camera and background blocks read exactly when their words have the block's
   * shape; then the light, the camera placement and the colour come from those words.
   */
  lemma SettingsBlocks(words: seq<Token>, st: Stream, c: Camera, message: string)
    requires InRange(words, st)
    ensures var r := ParseBlock(words, st, LightFields, message);
      && (r.ok <==> !st.failed && FieldsAt(words, st.pos, LightFields))
      && (r.ok ==> r.st == st.(pos := st.pos + 8) && r.message == message
                   && LightOf(r.values) == Light(VecAt(words, st.pos + 1), VecAt(words, st.pos + 5)))
    ensures var r := ParseBlock(words, st, CameraFields, message);
      && (r.ok <==> !st.failed && FieldsAt(words, st.pos, CameraFields))
      && (r.ok ==> r.st == st.(pos := st.pos + 10) && r.message == message
                   && CameraOf(c, r.values)
                      == Reposition(c, VecAt(words, st.pos + 1), VecAt(words, st.pos + 5), Num(words, st.pos + 9)))
    ensures var r := ParseBlock(words, st, BackgroundFields, message);
      && (r.ok <==> !st.failed && FieldsAt(words, st.pos, BackgroundFields))
      && (r.ok ==> r.st == st.(pos := st.pos + 6) && r.message == message
                   && BackgroundOf(r.values) == WithAlpha(VecAt(words, st.pos + 1), Num(words, st.pos + 5)))
  {
    LightBlock(words, st, message);
    CameraBlock(words, st, c, message);
    BackgroundBlock(words, st, message);
  }

  /** The light-block part of SettingsBlocks. */
  lemma LightBlock(words: seq<Token>, st: Stream, message: string)
    requires InRange(words, st)
    ensures var r := ParseBlock(words, st, LightFields, message);
      && (r.ok <==> !st.failed && FieldsAt(words, st.pos, LightFields))
      && (r.ok ==> r.st == st.(pos := st.pos + 8) && r.message == message
                   && LightOf(r.values) == Light(VecAt(words, st.pos + 1), VecAt(words, st.pos + 5)))
  {
    BlockShape(words, st, LightFields, message);
    BlockValues(words, st, LightFields, message);
    SettingsLayout(ParseBlock(words, st, LightFields, message).values, words, st.pos);
  }

  /** The camera-block part of SettingsBlocks. */
  lemma CameraBlock(words: seq<Token>, st: Stream, c: Camera, message: string)
    requires InRange(words, st)
    ensures var r := ParseBlock(words, st, CameraFields, message);
      && (r.ok <==> !st.failed && FieldsAt(words, st.pos, CameraFields))
      && (r.ok ==> r.st == st.(pos := st.pos + 10) && r.message == message
                   && CameraOf(c, r.values)
                      == Reposition(c, VecAt(words, st.pos + 1), VecAt(words, st.pos + 5), Num(words, st.pos + 9)))
  {
    BlockShape(words, st, CameraFields, message);
    BlockValues(words, st, CameraFields, message);
    SettingsLayout(ParseBlock(words, st, CameraFields, message).values, words, st.pos);
  }

  /** The background-block part of SettingsBlocks. */
  lemma BackgroundBlock(words: seq<Token>, st: Stream, message: string)
    requires InRange(words, st)
    ensures var r := ParseBlock(words, st, BackgroundFields, message);
      && (r.ok <==> !st.failed && FieldsAt(words, st.pos, BackgroundFields))
      && (r.ok ==> r.st == st.(pos := st.pos + 6) && r.message == message
                   && BackgroundOf(r.values) == WithAlpha(VecAt(words, st.pos + 1), Num(words, st.pos + 5)))
  {
    BlockShape(words, st, BackgroundFields, message);
    BlockValues(words, st, BackgroundFields, message);
    SettingsLayout(ParseBlock(words, st, BackgroundFields, message).values, words, st.pos);
  }

  /** The camera after SetPosition(pos), SetRotation(rot) and SetScale(scale). */
  function Reposition(c: Camera, pos: Vec3, rot: Vec3, scale: real): Camera {
    c.(pos := pos, rot := rot, scale := Vec3(scale, scale, scale))
  }

  // ---------------------------------------------------------------------------
  // Scene::Load

  function OpenFailedMessage(filePath: string): string {
    "Scene file at '" + filePath + "' couldn't be opened.\n"
  }

  const NRefrMessage := "Scene file parsing error - expected n_refr value.\n"

  function InvalidTypeMessage(typ: string): string {
    "Scene file parsing error - invalid object type: '" + typ + "'.\n"
  }

  /** The seven object keywords the loader knows. */
  predicate KnownType(typ: string) {
    typ in ["triangle", "sphere", "light", "obj", "n_refr", "camera", "background-color"]
  }

  /** What a load returns: the verdict, the output message, and the scene afterwards. */
  datatype Outcome = Outcome(ok: bool, message: string, scene: SceneData)

  /** One pass of the object loop: go on reading from `st`, or return false. */
  datatype Step =
    | Continue(scene: SceneData, st: Stream, nRefr: real, message: string)
    | Stop(message: string, scene: SceneData)

  /** The body of the object loop, once the (lower-cased) type word `typ` has been read. */
  function ObjectStep(words: seq<Token>, sd: SceneData, st: Stream, nRefr: real, message: string, typ: string): (s: Step)
    requires InRange(words, st)
    ensures s.Continue? ==> Advanced(words, st, s.st)
  {
    if typ == "triangle" then
      var t := ParseTriangle(words, st, nRefr, message);
      if !t.ok then Stop(t.message, sd)
      else Continue(sd.(triangles := sd.triangles + [t.triangle], triangleAttribs := sd.triangleAttribs + [t.attrib]),
                    t.st, nRefr, t.message)
    else if typ == "sphere" then
      var s := ParseBlock(words, st, SphereFields, message);
      if !s.ok then Stop(s.message, sd)
      else Continue(sd.(spheres := sd.spheres + [SphereOf(s.values)],
                        sphereAttribs := sd.sphereAttribs + [SphereAttribOf(s.values, nRefr)]),
                    s.st, nRefr, s.message)
    else if typ == "light" then
      var l := ParseBlock(words, st, LightFields, message);
      if !l.ok then Stop(l.message, sd)
      else Continue(sd.(lights := sd.lights + [LightOf(l.values)]), l.st, nRefr, l.message)
    else if typ == "obj" then
      Continue(sd, ReadWord(words, st).st, nRefr, message)
    else if typ == "n_refr" then
      var x := ReadNumber(words, st, nRefr);
      Continue(sd, x.st, x.value, if x.st.failed then NRefrMessage else message)
    else if typ == "camera" then
      var c := ParseBlock(words, st, CameraFields, message);
      Continue(if c.ok then sd.(camera := CameraOf(sd.camera, c.values)) else sd, c.st, nRefr, c.message)
    else if typ == "background-color" then
      var b := ParseBlock(words, st, BackgroundFields, message);
      Continue(if b.ok then sd.(background := BackgroundOf(b.values)) else sd, b.st, nRefr, b.message)
    else
      Stop(InvalidTypeMessage(typ), sd)
  }

  /** The object loop: read a type word; a failed read ends the loop and the load succeeds. */
  function LoadObjects(words: seq<Token>, sd: SceneData, st: Stream, nRefr: real, message: string): Outcome
    requires InRange(words, st)
    decreases |words| - st.pos
  {
    var w := ReadWord(words, st);
    if w.st.failed then Outcome(true, message, sd)
    else
      match ObjectStep(words, sd, w.st, nRefr, message, Lower(w.word))
      case Stop(m, sd') => Outcome(false, m, sd')
      case Continue(sd', st', n', m') => LoadObjects(words, sd', st', n', m')
  }

  /**
   * Scene::Load(filePath, outputMessage) on a scene holding `sd`; `file` is None when the
   * file cannot be opened. The ambient light is read straight into the scene, then the
   * objects follow with the index of refraction starting at 1.
   */
  function LoadScene(sd: SceneData, filePath: string, file: Option<seq<Token>>, message: string): Outcome {
    if file.None? then Outcome(false, OpenFailedMessage(filePath), sd)
    else
      var words := file.value;
      var a := ParseVectorAttribute(words, Stream(0, false), "amb:", sd.ambLight, message);
      var sd' := sd.(ambLight := a.v);
      if !a.ok then Outcome(false, a.message, sd')
      else LoadObjects(words, sd', a.st, 1.0, a.message)
  }

  // ---------------------------------------------------------------------------
  // Properties of the loader

  /**
   * A file that cannot be opened fails with its path in the message and changes nothing;
   * a load that succeeds began with `amb:` and three numbers, which are the ambient light.
   */
  lemma LoadNeedsAmbient(sd: SceneData, filePath: string, file: Option<seq<Token>>, message: string)
    ensures file.None? ==> LoadScene(sd, filePath, file, message) == Outcome(false, OpenFailedMessage(filePath), sd)
    ensures var o := LoadScene(sd, filePath, file, message);
      o.ok ==> file.Some? && AttributeAt(file.value, 0, VectorField("amb:")) && o.scene.ambLight == VecAt(file.value, 1)
  {
    if file.Some? {
      var words := file.value;
      var a := ParseVectorAttribute(words, Stream(0, false), "amb:", sd.ambLight, message);
      if a.ok {
        LoadObjectsExtends(words, sd.(ambLight := a.v), a.st, 1.0, a.message);
      }
    }
  }

  /** Running out of words (or a failed stream) where a type is expected ends the load with success. */
  lemma EndOfInputSucceeds(words: seq<Token>, sd: SceneData, st: Stream, nRefr: real, message: string)
    requires InRange(words, st)
    requires st.failed || st.pos == |words|
    ensures LoadObjects(words, sd, st, nRefr, message) == Outcome(true, message, sd)
  {
  }

  /**
   * One object: a failed triangle, sphere or light block and an unknown type return false
   * and append nothing; otherwise each list grows by at most the one object read, the
   * ambient light is kept, a primitive and its attributes are appended together, and the
   * attributes carry the index of refraction current at that point, which only an
   * `n_refr` object changes.
   */
  lemma ObjectStepSound(words: seq<Token>, sd: SceneData, st: Stream, nRefr: real, message: string, typ: string)
    requires InRange(words, st)
    ensures var s := ObjectStep(words, sd, st, nRefr, message, typ);
      && (s.Stop? ==> typ in ["triangle", "sphere", "light"] || !KnownType(typ))
      && (!KnownType(typ) ==> s.Stop?)
      && (s.Stop? ==> s.scene == sd)
      && (s.Continue? ==> && Grows(sd.triangles, s.scene.triangles) && Grows(sd.triangleAttribs, s.scene.triangleAttribs)
                          && Grows(sd.spheres, s.scene.spheres) && Grows(sd.sphereAttribs, s.scene.sphereAttribs)
                          && Grows(sd.lights, s.scene.lights) && s.scene.ambLight == sd.ambLight
                          && |s.scene.triangles| - |sd.triangles| == |s.scene.triangleAttribs| - |sd.triangleAttribs|
                          && |s.scene.spheres| - |sd.spheres| == |s.scene.sphereAttribs| - |sd.sphereAttribs|
                          && (forall k :: |sd.triangleAttribs| <= k < |s.scene.triangleAttribs| ==>
                                s.scene.triangleAttribs[k].nRefr == nRefr)
                          && (forall k :: |sd.sphereAttribs| <= k < |s.scene.sphereAttribs| ==>
                                s.scene.sphereAttribs[k].nRefr == nRefr)
                          && (typ != "n_refr" ==> s.nRefr == nRefr))
  {
    if typ == "triangle" {
      TriangleBlock(words, st, nRefr, message);
    }
  }

  /** `b` is `a` with at most one element appended. */
  predicate Grows<T(==)>(a: seq<T>, b: seq<T>) {
    a <= b && |b| <= |a| + 1
  }

  /**
   * The whole object loop only appends: the lists read before are prefixes of the lists
   * after (attributes are never re-stamped), the ambient light is kept, and primitive and
   * attribute lists that had equal lengths still do.
   */
  lemma {:induction false} LoadObjectsExtends(words: seq<Token>, sd: SceneData, st: Stream, nRefr: real, message: string)
    requires InRange(words, st)
    ensures var o := LoadObjects(words, sd, st, nRefr, message).scene;
      && sd.triangles <= o.triangles && sd.triangleAttribs <= o.triangleAttribs
      && sd.spheres <= o.spheres && sd.sphereAttribs <= o.sphereAttribs && sd.lights <= o.lights
      && o.ambLight == sd.ambLight && (Parallel(sd) ==> Parallel(o))
    decreases |words| - st.pos
  {
    var w := ReadWord(words, st);
    if !w.st.failed {
      var typ := Lower(w.word);
      ObjectStepSound(words, sd, w.st, nRefr, message, typ);
      match ObjectStep(words, sd, w.st, nRefr, message, typ)
      case Stop(_, _) =>
      case Continue(sd', st', n', m') =>
        LoadObjectsExtends(words, sd', st', n', m');
    }
  }

  /**
   * With no `n_refr` word left in the file, every triangle and sphere appended from here on
   * carries the current index of refraction.
   */
  lemma {:induction false} NRefrStamped(words: seq<Token>, sd: SceneData, st: Stream, nRefr: real, message: string)
    requires InRange(words, st)
    requires forall i :: st.pos <= i < |words| ==> Lower(words[i].text) != "n_refr"
    ensures var o := LoadObjects(words, sd, st, nRefr, message).scene;
      && (forall k :: |sd.triangleAttribs| <= k < |o.triangleAttribs| ==> o.triangleAttribs[k].nRefr == nRefr)
      && (forall k :: |sd.sphereAttribs| <= k < |o.sphereAttribs| ==> o.sphereAttribs[k].nRefr == nRefr)
    decreases |words| - st.pos
  {
    var w := ReadWord(words, st);
    if !w.st.failed {
      var typ := Lower(w.word);
      assert typ == Lower(words[st.pos].text);
      ObjectStepSound(words, sd, w.st, nRefr, message, typ);
      match ObjectStep(words, sd, w.st, nRefr, message, typ)
      case Stop(_, _) =>
      case Continue(sd', st', n', m') =>
        NRefrStamped(words, sd', st', n', m');
        LoadObjectsExtends(words, sd', st', n', m');
    }
  }

  /** An unknown object type ends the load with false and a message that names it. */
  lemma UnknownTypeFails(words: seq<Token>, sd: SceneData, st: Stream, nRefr: real, message: string)
    requires InRange(words, st) && !st.failed && st.pos < |words|
    requires !KnownType(Lower(words[st.pos].text))
    ensures LoadObjects(words, sd, st, nRefr, message)
      == Outcome(false, InvalidTypeMessage(Lower(words[st.pos].text)), sd)
  {
  }

  /** `obj` consumes the next word and nothing else. */
  lemma ObjSkipsOneWord(words: seq<Token>, sd: SceneData, st: Stream, nRefr: real, message: string)
    requires InRange(words, st) && !st.failed && st.pos + 1 < |words|
    requires Lower(words[st.pos].text) == "obj"
    ensures LoadObjects(words, sd, st, nRefr, message) == LoadObjects(words, sd, st.(pos := st.pos + 2), nRefr, message)
  {
  }

  /**
   * A camera block whose first name is not `pos:` is not fatal: loading goes on after that
   * word with the camera unchanged and the "expected attribute" message set.
   */
  lemma CameraMismatchContinues(words: seq<Token>, sd: SceneData, st: Stream, nRefr: real, message: string)
    requires InRange(words, st) && !st.failed && st.pos + 1 < |words|
    requires Lower(words[st.pos].text) == "camera" && Lower(words[st.pos + 1].text) != "pos:"
    ensures LoadObjects(words, sd, st, nRefr, message)
      == LoadObjects(words, sd, st.(pos := st.pos + 2), nRefr, ExpectedMessage("pos:"))
  {
    AttributeFailures(words, st.(pos := st.pos + 1), "pos:", Zero3, 0.0, message);
  }

  /** Likewise for a background block whose first name is not `rgb:`. */
  lemma BackgroundMismatchContinues(words: seq<Token>, sd: SceneData, st: Stream, nRefr: real, message: string)
    requires InRange(words, st) && !st.failed && st.pos + 1 < |words|
    requires Lower(words[st.pos].text) == "background-color" && Lower(words[st.pos + 1].text) != "rgb:"
    ensures LoadObjects(words, sd, st, nRefr, message)
      == LoadObjects(words, sd, st.(pos := st.pos + 2), nRefr, ExpectedMessage("rgb:"))
  {
    AttributeFailures(words, st.(pos := st.pos + 1), "rgb:", Zero3, 0.0, message);
  }

  /**
   * A failed camera or background block never ends the load by itself and leaves the camera
   * and background as they were.
   */
  lemma FailedSettingsKept(words: seq<Token>, sd: SceneData, st: Stream, nRefr: real, message: string)
    requires InRange(words, st)
    ensures var s := ObjectStep(words, sd, st, nRefr, message, "camera");
      s.Continue? && (!FieldsAt(words, st.pos, CameraFields) || st.failed ==> s.scene == sd)
    ensures var s := ObjectStep(words, sd, st, nRefr, message, "background-color");
      s.Continue? && (!FieldsAt(words, st.pos, BackgroundFields) || st.failed ==> s.scene == sd)
  {
    BlockShape(words, st, CameraFields, message);
    BlockShape(words, st, BackgroundFields, message);
  }

  // ---------------------------------------------------------------------------
  // The scene object

  class Scene {
    var triangles: seq<Triangle>
    var triangleAttribs: seq<TriangleAttrib>
    var spheres: seq<Sphere>
    var sphereAttribs: seq<SphereAttrib>
    var lights: seq<Light>
    var ambLight: Vec3
    var background: Vec4
    var camera: Camera

    function Data(): SceneData
      reads this
    {
      SceneData(triangles, triangleAttribs, spheres, sphereAttribs, lights, ambLight, background, camera)
    }

    ghost predicate Valid()
      reads this
    {
      Parallel(Data())
    }

    /** An empty scene with a default camera; the unset ambient light and background are 0. */
    constructor()
      ensures Data() == SceneData([], [], [], [], [], Zero3, Vec4(0.0, 0.0, 0.0, 0.0), DefaultCamera)
      ensures Valid()
    {
      triangles, triangleAttribs := [], [];
      spheres, sphereAttribs := [], [];
      lights := [];
      ambLight := Zero3;  // left uninitialised by the source; Load always reads it (LoadNeedsAmbient)
      background := Vec4(0.0, 0.0, 0.0, 0.0);
      camera := DefaultCamera;
    }

    /**
     * Scene::NearestTriangle: the brute-force scan. The out-parameters keep the caller's
     * values (`intersection0`, `baryCoord0`, `t0`) unless some triangle is accepted.
     */
    method NearestTriangle(r: Vec3, o: Vec3, glm: Glm, intersection0: Vec3, baryCoord0: Vec3, t0: real)
      returns (index: int, intersection: Vec3, baryCoord: Vec3, t: real)
      ensures var h := BruteForceTriangle(triangles, r, o, glm);
        && (h.None? ==> index == -1 && intersection == intersection0 && baryCoord == baryCoord0 && t == t0)
        && (h.Some? ==> index == h.value.index && intersection == h.value.intersection
                        && baryCoord == h.value.aux && t == h.value.t)
    {
      ghost var cands := TriangleCandidates(triangles, Range(|triangles|), r, o, glm);
      var nearestT := FloatMax;
      index := -1;
      intersection, baryCoord, t := intersection0, baryCoord0, t0;
      ghost var k := -1;
      var i := 0;
      while i < |triangles|
        invariant 0 <= i <= |triangles|
        invariant k == NearestIn(cands[..i])
        invariant nearestT == BestT(cands[..i], k)
        invariant k < 0 ==> index == -1 && intersection == intersection0 && baryCoord == baryCoord0 && t == t0
        invariant k >= 0 ==> && index == k && cands[k].Some? && intersection == cands[k].value.intersection
                             && baryCoord == cands[k].value.aux && t == cands[k].value.t
      {
        var test := IntersectionRayTriangle(triangles[i], r, o, glm);
        NearestInStep(cands, i);
        if test.hit {
          if test.t < nearestT {
            index := i;
            nearestT := test.t;
            intersection, baryCoord, t := test.intersection, test.baryCoord, test.t;
            k := i;
          }
        }
        i := i + 1;
      }
      assert cands[..|triangles|] == cands;
    }

    /** Scene::NearestSphere: the brute-force scan over the spheres (normal in place of barycentrics). */
    method NearestSphere(r: Vec3, o: Vec3, glm: Glm, intersection0: Vec3, normal0: Vec3, t0: real)
      returns (index: int, intersection: Vec3, normal: Vec3, t: real)
      ensures var h := BruteForceSphere(spheres, r, o, glm);
        && (h.None? ==> index == -1 && intersection == intersection0 && normal == normal0 && t == t0)
        && (h.Some? ==> index == h.value.index && intersection == h.value.intersection
                        && normal == h.value.aux && t == h.value.t)
    {
      ghost var cands := SphereCandidates(spheres, r, o, glm);
      var nearestT := FloatMax;
      index := -1;
      intersection, normal, t := intersection0, normal0, t0;
      ghost var k := -1;
      var i := 0;
      while i < |spheres|
        invariant 0 <= i <= |spheres|
        invariant k == NearestIn(cands[..i])
        invariant nearestT == BestT(cands[..i], k)
        invariant k < 0 ==> index == -1 && intersection == intersection0 && normal == normal0 && t == t0
        invariant k >= 0 ==> && index == k && cands[k].Some? && intersection == cands[k].value.intersection
                             && normal == cands[k].value.aux && t == cands[k].value.t
      {
        var test := SphereHitAt(spheres, i, r, o, glm);
        NearestInStep(cands, i);
        if test.Some? {
          if test.value.t < nearestT {
            index := i;
            nearestT := test.value.t;
            intersection, normal, t := test.value.intersection, test.value.aux, test.value.t;
            k := i;
          }
        }
        i := i + 1;
      }
      assert cands[..|spheres|] == cands;
    }

    /**
     * Scene::ComputePhongIllumination: Id accumulates the diffuse term of every light whose
     * shadow ray is not blocked. `ks` and `alpha` feed only the specular term, which is
     * never added.
     */
    method ComputePhongIllumination(fPos: Vec3, n: Vec3, kd: Vec3, ks: Vec3, alpha: real, glm: Glm)
      returns (c: Vec3)
      ensures c == PhongIllumination(Data(), fPos, n, kd, glm)
    {
      var id := Zero3;
      var i := 0;
      while i < |lights|
        invariant 0 <= i <= |lights|
        invariant id == DiffuseSum(Data(), lights[..i], fPos, n, kd, glm)
      {
        var light := lights[i];
        var l := glm.normalize(Sub(light.pos, fPos));
        var triIndex, _, _, tTriangle := NearestTriangle(l, fPos, glm, Zero3, Zero3, 0.0);
        var sphIndex, _, _, tSphere := NearestSphere(l, fPos, glm, Zero3, Zero3, 0.0);
        var d := Length(glm, Sub(light.pos, fPos));
        DiffuseSumStep(Data(), lights, i, fPos, n, kd, glm);
        LitFromScans(Data(), light, fPos, glm, triIndex, tTriangle, sphIndex, tSphere);
        if (triIndex == -1 || tTriangle > d + Epsilon) && (sphIndex == -1 || tSphere > d + Epsilon) {
          id := Add(id, Scale(Max(Dot(l, n), 0.0), Mul(light.col, kd)));
        }
        i := i + 1;
      }
      assert lights[..|lights|] == lights;
      c := Add(ambLight, id);
    }

    /**
     * Scene::Load(filePath, outputMessage): the new state, verdict and message are those of
     * LoadScene. Objects read before a failure stay in the scene.
     */
    method Load(filePath: string, file: Option<seq<Token>>, message0: string) returns (ok: bool, message: string)
      requires Valid()
      modifies this
      ensures var o := LoadScene(old(Data()), filePath, file, message0);
        ok == o.ok && message == o.message && Data() == o.scene
      ensures Valid()
    {
      LoadKeepsParallel(Data(), filePath, file, message0);
      if file.None? {
        ok, message := false, OpenFailedMessage(filePath);
        return;
      }
      var words, st := file.value, Stream(0, false);
      var nRefr := 1.0;
      var amb := ParseVectorAttribute(words, st, "amb:", ambLight, message0);
      ambLight, st, message := amb.v, amb.st, amb.message;
      if !amb.ok {
        ok := false;
        return;
      }
      ghost var goal := LoadObjects(words, Data(), st, nRefr, message);
      assert goal == LoadScene(old(Data()), filePath, file, message0);
      while true
        invariant InRange(words, st)
        invariant LoadObjects(words, Data(), st, nRefr, message) == goal
        decreases |words| - st.pos
      {
        ghost var sd0, st0, message1 := Data(), st, message;
        var word := ReadWord(words, st);
        st := word.st;
        if st.failed {
          break;
        }
        var typ := Lower(word.word);
        if typ == "triangle" {
          var t := ReadTriangle(words, st, nRefr, message);
          st, message := t.st, t.message;
          if !t.ok {
            ok := false;
            return;
          }
          triangles := triangles + [t.triangle];
          triangleAttribs := triangleAttribs + [t.attrib];
        } else if typ == "sphere" {
          var parsed := ParseBlock(words, st, SphereFields, message);
          st, message := parsed.st, parsed.message;
          if !parsed.ok {
            ok := false;
            return;
          }
          spheres := spheres + [SphereOf(parsed.values)];
          sphereAttribs := sphereAttribs + [SphereAttribOf(parsed.values, nRefr)];
        } else if typ == "light" {
          var parsed := ParseBlock(words, st, LightFields, message);
          st, message := parsed.st, parsed.message;
          if !parsed.ok {
            ok := false;
            return;
          }
          lights := lights + [LightOf(parsed.values)];
        } else if typ == "obj" {
          var path := ReadWord(words, st);
          st := path.st;
        } else if typ == "n_refr" {
          var value := ReadNumber(words, st, nRefr);
          st, nRefr := value.st, value.value;
          if st.failed {
            message := NRefrMessage;
          }
        } else if typ == "camera" {
          var parsed := ParseBlock(words, st, CameraFields, message);
          st, message := parsed.st, parsed.message;
          if parsed.ok {
            camera := CameraOf(camera, parsed.values);
          }
        } else if typ == "background-color" {
          var parsed := ParseBlock(words, st, BackgroundFields, message);
          st, message := parsed.st, parsed.message;
          if parsed.ok {
            background := BackgroundOf(parsed.values);
          }
        } else {
          ok, message := false, InvalidTypeMessage(typ);
          return;
        }
      }
      ok := true;
    }
  }

  /** Loading keeps every primitive paired with its attributes. */
  lemma LoadKeepsParallel(sd: SceneData, filePath: string, file: Option<seq<Token>>, message: string)
    requires Parallel(sd)
    ensures Parallel(LoadScene(sd, filePath, file, message).scene)
  {
    if file.Some? {
      var words := file.value;
      var a := ParseVectorAttribute(words, Stream(0, false), "amb:", sd.ambLight, message);
      if a.ok {
        LoadObjectsExtends(words, sd.(ambLight := a.v), a.st, 1.0, a.message);
      }
    }
  }
}

=== FILE: SceneFormat.dfy ===
/**
 * The layout of the scene file's object blocks: which attributes each block holds, in the
 * order Scene::Load reads them, and where each attribute's numbers sit among the block's words.
 */
module SceneFormat {
  import opened Primitives
  import opened SceneParser

  /** The attributes of each object block, in the order the loader reads them. */
  const VertexFields := [VectorField("pos:"), VectorField("nor:"), VectorField("dif:"), VectorField("spe:"), ScalarField("shi:")]
  const SphereFields := [VectorField("pos:"), ScalarField("rad:"), VectorField("dif:"), VectorField("spe:"), ScalarField("shi:")]
  const LightFields := [VectorField("pos:"), VectorField("col:")]
  const CameraFields := [VectorField("pos:"), VectorField("rot:"), ScalarField("scale:")]
  const BackgroundFields := [VectorField("rgb:"), ScalarField("alpha:")]

  /**
   * A vertex block occupies 18 words: pos:, nor:, dif: and spe: each start 4 words after
   * the previous one, and shi: 4 words after spe:.
   */
  lemma VertexLayout(x: seq<Vec3>, w: seq<Token>, p: nat)
    ensures Width(VertexFields) == 18
    ensures ReadFrom(x, w, p, VertexFields) ==>
      && ValueAt(x, 0) == VecAt(w, p + 1) && ValueAt(x, 1) == VecAt(w, p + 5) && ValueAt(x, 2) == VecAt(w, p + 9)
      && ValueAt(x, 3) == VecAt(w, p + 13) && ValueAt(x, 4).x == Num(w, p + 17)
  {
    var f := VertexFields;
    assert f[1..][1..][1..][1..][1..] == [];
    assert Offset(f, 1) == 4 && Offset(f, 2) == 8 && Offset(f, 3) == 12 && Offset(f, 4) == 16;
  }

  /** A sphere block occupies 16 words: pos: at 0, rad: at 4, dif: at 6, spe: at 10, shi: at 14. */
  lemma SphereLayout(x: seq<Vec3>, w: seq<Token>, p: nat)
    ensures Width(SphereFields) == 16
    ensures ReadFrom(x, w, p, SphereFields) ==>
      && ValueAt(x, 0) == VecAt(w, p + 1) && ValueAt(x, 1).x == Num(w, p + 5) && ValueAt(x, 2) == VecAt(w, p + 7)
      && ValueAt(x, 3) == VecAt(w, p + 11) && ValueAt(x, 4).x == Num(w, p + 15)
  {
    var f := SphereFields;
    assert f[1..][1..][1..][1..][1..] == [];
    assert Offset(f, 1) == 4 && Offset(f, 2) == 6 && Offset(f, 3) == 10 && Offset(f, 4) == 14;
  }

  /** A light block occupies 8 words, a camera block 10, a background block 6. */
  lemma SettingsLayout(x: seq<Vec3>, w: seq<Token>, p: nat)
    ensures Width(LightFields) == 8 && Width(CameraFields) == 10 && Width(BackgroundFields) == 6
    ensures ReadFrom(x, w, p, LightFields) ==> ValueAt(x, 0) == VecAt(w, p + 1) && ValueAt(x, 1) == VecAt(w, p + 5)
    ensures ReadFrom(x, w, p, CameraFields) ==>
      ValueAt(x, 0) == VecAt(w, p + 1) && ValueAt(x, 1) == VecAt(w, p + 5) && ValueAt(x, 2).x == Num(w, p + 9)
    ensures ReadFrom(x, w, p, BackgroundFields) ==> ValueAt(x, 0) == VecAt(w, p + 1) && ValueAt(x, 1).x == Num(w, p + 5)
  {
    assert LightFields[1..][1..] == [] && CameraFields[1..][1..][1..] == [] && BackgroundFields[1..][1..] == [];
    assert Offset(LightFields, 1) == 4 && Offset(CameraFields, 1) == 4 && Offset(CameraFields, 2) == 8;
    assert Offset(BackgroundFields, 1) == 4;
  }
}

=== FILE: SceneParser.dfy ===
/**
 * The token-level reading of a scene file (renderer/scene/Scene.cpp:112-159): the stream
 * of whitespace-separated words read with `operator>>`, its sticky failure flag, ASCII
 * lower-casing, and the two ParseAttribute overloads (a named 3-vector, a named scalar).
 *
 * A word that reads as a number carries that number; a word that does not is a failed
 * numeric read. Once the stream has failed every later read fails and leaves its target
 * untouched; a numeric read that meets a word that is not a number stores 0, as `operator>>`
 * does, while one that meets the end of input keeps its target.
 */
module SceneParser {
  import opened Wrappers
  import opened Primitives

  /** One whitespace-separated word of the file, and its value when it reads as a float. */
  datatype Token = Token(text: string, number: Option<real>)

  /**
   * The state of an input file stream over the file's words (which every reading function
   * takes alongside): the read position and the fail bit.
   */
  datatype Stream = Stream(pos: nat, failed: bool)

  /** The read position never passes the end of the words. */
  predicate InRange(words: seq<Token>, st: Stream) {
    st.pos <= |words|
  }

  /** `st` has read no less far than `st0`, not past the end, and failed if `st0` had. */
  predicate Advanced(words: seq<Token>, st0: Stream, st: Stream) {
    st0.pos <= st.pos <= |words| && (st0.failed ==> st.failed)
  }

  // ---------------------------------------------------------------------------
  // Reading words and numbers

  datatype WordRead = WordRead(st: Stream, word: string)
  datatype NumberRead = NumberRead(st: Stream, value: real)

  /** `file >> word`: fails at end of input or on a failed stream, leaving the word empty. */
  function ReadWord(words: seq<Token>, st: Stream): WordRead
    requires InRange(words, st)
  {
    if st.failed || st.pos == |words| then WordRead(st.(failed := true), "")
    else WordRead(st.(pos := st.pos + 1), words[st.pos].text)
  }

  /**
   * `file >> x` for a float whose current value is `prior`. A failed stream, or a good one
   * at end of input (where the sentry fails before any conversion), fails and leaves
   * `prior`; a word that is not a number fails the stream and stores 0.
   */
  function ReadNumber(words: seq<Token>, st: Stream, prior: real): NumberRead
    requires InRange(words, st)
  {
    if st.failed || st.pos == |words| then NumberRead(st.(failed := true), prior)
    else if words[st.pos].number.None? then NumberRead(st.(failed := true), 0.0)
    else NumberRead(st.(pos := st.pos + 1), words[st.pos].number.value)
  }

  /** `::tolower` in the "C" locale: only 'A'..'Z' change. */
  function LowerChar(c: char): char {
    if 'A' <= c <= 'Z' then (c as int + 32) as char else c
  }

  /** std::transform(.., ::tolower) over a word. */
  function Lower(s: string): string {
    if |s| == 0 then [] else [LowerChar(s[0])] + Lower(s[1..])
  }

  /**
   * Lower-casing keeps the length, lower-cases each character on its own, and leaves no
   * upper-case letter.
   */
  lemma {:induction false} LowerLowers(s: string)
    ensures var r := Lower(s);
      && |r| == |s|
      && (forall i :: 0 <= i < |r| ==> r[i] == LowerChar(s[i]))
      && (forall i :: 0 <= i < |r| ==> !('A' <= r[i] <= 'Z'))
  {
    if |s| > 0 {
      LowerLowers(s[1..]);
      var r := Lower(s);
      forall i | 0 <= i < |r| ensures r[i] == LowerChar(s[i]) {
        if i > 0 {
          assert r[i] == Lower(s[1..])[i - 1];
        }
      }
    }
  }

  /** Lower-casing a lower-cased word changes nothing. */
  lemma LowerIdempotent(s: string)
    ensures Lower(Lower(s)) == Lower(s)
  {
    var l := Lower(s);
    LowerLowers(s);
    LowerLowers(l);
    forall i | 0 <= i < |l|
      ensures Lower(l)[i] == l[i]
    {
      assert !('A' <= l[i] <= 'Z');
    }
  }

  // ---------------------------------------------------------------------------
  // ParseAttribute

  function ExpectedMessage(name: string): string {
    "Scene file parsing error - expected attribute " + name + ".\n"
  }

  function IncorrectMessage(name: string): string {
    "Scene file parsing error - incorrect attribute " + name + ".\n"
  }

  /** The word at the read position is the attribute name `name`, whatever its case. */
  predicate NameAt(words: seq<Token>, st: Stream, name: string) {
    !st.failed && st.pos < |words| && Lower(words[st.pos].text) == name
  }

  /** One attribute of an object block: a name and three numbers, or a name and one number. */
  datatype Field = VectorField(name: string) | ScalarField(name: string) {
    function Arity(): nat {
      if VectorField? then 3 else 1
    }
  }

  /**
   * Words `p`, `p+1`, .. hold attribute `f`: its name, whatever its case, then its numbers.
   * This is the shape ParseAttribute accepts when it starts reading at word `p` of a good
   * stream.
   */
  predicate AttributeAt(tokens: seq<Token>, p: nat, f: Field) {
    && p + 1 + f.Arity() <= |tokens| && Lower(tokens[p].text) == f.name && tokens[p + 1].number.Some?
    && (f.VectorField? ==> tokens[p + 2].number.Some? && tokens[p + 3].number.Some?)
  }

  /** The number in word `k` (0 when there is none). */
  function Num(tokens: seq<Token>, k: nat): real {
    if k < |tokens| && tokens[k].number.Some? then tokens[k].number.value else 0.0
  }

  /** The numbers in words `p`, `p+1`, `p+2`, as a vector. */
  function VecAt(tokens: seq<Token>, p: nat): Vec3 {
    Vec3(Num(tokens, p), Num(tokens, p + 1), Num(tokens, p + 2))
  }

  /** The outcome of one ParseAttribute call: stream, target value, verdict, message. */
  datatype VectorAttribute = VectorAttribute(st: Stream, v: Vec3, ok: bool, message: string)
  datatype ScalarAttribute = ScalarAttribute(st: Stream, a: real, ok: bool, message: string)

  /**
   * ParseAttribute(file, expectedName, vec3&, outputMessage): the lower-cased name must be
   * `expected`, then three numbers follow. A missing or different name gives the "expected
   * attribute" message and consumes at most that word without failing the stream; numbers
   * that do not read give the "incorrect attribute" message and fail the stream. The target
   * keeps the components read before a failure.
   */
  function ParseVectorAttribute(words: seq<Token>, st: Stream, expected: string, v: Vec3, message: string): (r: VectorAttribute)
    requires InRange(words, st)
    ensures Advanced(words, st, r.st)
    ensures r.ok <==> !st.failed && AttributeAt(words, st.pos, VectorField(expected))
    ensures r.ok ==> r.st == st.(pos := st.pos + 4) && r.message == message && r.v == VecAt(words, st.pos + 1)
  {
    var w := ReadWord(words, st);
    if w.st.failed || Lower(w.word) != expected then
      VectorAttribute(w.st, v, false, ExpectedMessage(expected))
    else
      var x := ReadNumber(words, w.st, v.x);
      var y := ReadNumber(words, x.st, v.y);
      var z := ReadNumber(words, y.st, v.z);
      if z.st.failed then VectorAttribute(z.st, Vec3(x.value, y.value, z.value), false, IncorrectMessage(expected))
      else VectorAttribute(z.st, Vec3(x.value, y.value, z.value), true, message)
  }

  /** ParseAttribute(file, expectedName, float&, outputMessage): as above, with one number. */
  function ParseScalarAttribute(words: seq<Token>, st: Stream, expected: string, a: real, message: string): (r: ScalarAttribute)
    requires InRange(words, st)
    ensures Advanced(words, st, r.st)
    ensures r.ok <==> !st.failed && AttributeAt(words, st.pos, ScalarField(expected))
    ensures r.ok ==> && r.st == st.(pos := st.pos + 2) && r.message == message
                     && r.a == Num(words, st.pos + 1)
  {
    var w := ReadWord(words, st);
    if w.st.failed || Lower(w.word) != expected then
      ScalarAttribute(w.st, a, false, ExpectedMessage(expected))
    else
      var x := ReadNumber(words, w.st, a);
      if x.st.failed then ScalarAttribute(x.st, x.value, false, IncorrectMessage(expected))
      else ScalarAttribute(x.st, x.value, true, message)
  }

  /**
   * How ParseAttribute fails. A missing or different name gives the "expected attribute"
   * message and keeps the target: a different name is consumed without failing the
   * stream, while a failed stream or the end of input fails it where it stands. Numbers
   * that do not read give the "incorrect attribute" message and fail the stream; the
   * scalar then holds 0 when a word that is no number was met, and keeps its value when
   * the input ended right after the name.
   */
  lemma AttributeFailures(words: seq<Token>, st: Stream, expected: string, v: Vec3, a: real, message: string)
    requires InRange(words, st)
    ensures var r := ParseVectorAttribute(words, st, expected, v, message);
      && (!NameAt(words, st, expected) ==> !r.ok && r.v == v && r.message == ExpectedMessage(expected))
      && (NameAt(words, st, expected) && !r.ok ==> r.st.failed && r.message == IncorrectMessage(expected))
      && (!r.ok && !r.st.failed ==> !st.failed && r.st.pos == st.pos + 1)
      && (st.failed || st.pos == |words| ==> r.st == st.(failed := true))
      && (!st.failed && st.pos < |words| && !NameAt(words, st, expected) ==> r.st == st.(pos := st.pos + 1))
    ensures var r := ParseScalarAttribute(words, st, expected, a, message);
      && (!NameAt(words, st, expected) ==> !r.ok && r.a == a && r.message == ExpectedMessage(expected))
      && (NameAt(words, st, expected) && !r.ok ==>
            r.st.failed && r.message == IncorrectMessage(expected) && r.a == (if st.pos + 1 == |words| then a else 0.0))
      && (!r.ok && !r.st.failed ==> !st.failed && r.st.pos == st.pos + 1)
      && (st.failed || st.pos == |words| ==> r.st == st.(failed := true))
      && (!st.failed && st.pos < |words| && !NameAt(words, st, expected) ==> r.st == st.(pos := st.pos + 1))
  {
  }

  // ---------------------------------------------------------------------------
  // Object blocks: ParseAttribute calls joined by &&

  /** The number of words a block of `fields` occupies. */
  function Width(fields: seq<Field>): nat
    decreases |fields|
  {
    if |fields| == 0 then 0 else 1 + fields[0].Arity() + Width(fields[1..])
  }

  /** Words `p`, `p+1`, .. hold the attributes `fields` in order, each with its numbers. */
  predicate FieldsAt(tokens: seq<Token>, p: nat, fields: seq<Field>)
    decreases |fields|, p
  {
    |fields| == 0 ||
    (AttributeAt(tokens, p, fields[0]) && FieldsAt(tokens, p + 1 + fields[0].Arity(), fields[1..]))
  }

  /** The numbers of attribute `f` at word `p`: the vector, or the scalar in the x component. */
  function FieldValue(tokens: seq<Token>, p: nat, f: Field): Vec3 {
    if f.VectorField? then VecAt(tokens, p + 1) else Vec3(Num(tokens, p + 1), 0.0, 0.0)
  }

  /** Where attribute `k` of a block starts, counted in words from the block's first word. */
  function Offset(fields: seq<Field>, k: nat): nat
    requires k <= |fields|
    decreases k
  {
    if k == 0 then 0 else 1 + fields[0].Arity() + Offset(fields[1..], k - 1)
  }

  /** The outcome of one attribute: stream, its numbers (a scalar in x), verdict, message. */
  datatype FieldRead = FieldRead(st: Stream, value: Vec3, ok: bool, message: string)

  /**
   * The ParseAttribute overload that fits `f`, into a fresh target. It reads exactly when
   * the stream is good and the words have the attribute's shape, and then consumes exactly
   * those words and keeps the message; otherwise the message names the attribute.
   */
  function ParseField(words: seq<Token>, st: Stream, f: Field, message: string): (r: FieldRead)
    requires InRange(words, st)
    ensures Advanced(words, st, r.st)
    ensures r.ok <==> !st.failed && AttributeAt(words, st.pos, f)
    ensures r.ok ==> r.st == st.(pos := st.pos + 1 + f.Arity()) && r.message == message
                     && r.value == FieldValue(words, st.pos, f)
    ensures !r.ok ==> r.message == ExpectedMessage(f.name) || r.message == IncorrectMessage(f.name)
  {
    AttributeFailures(words, st, f.name, Zero3, 0.0, message);
    if f.VectorField? then
      var a := ParseVectorAttribute(words, st, f.name, Zero3, message);
      FieldRead(a.st, a.v, a.ok, a.message)
    else
      var a := ParseScalarAttribute(words, st, f.name, 0.0, message);
      FieldRead(a.st, Vec3(a.a, 0.0, 0.0), a.ok, a.message)
  }

  /** The outcome of a block: stream, one value per attribute read, verdict, message. */
  datatype BlockRead = BlockRead(st: Stream, values: seq<Vec3>, ok: bool, message: string)

  /**
   * `ParseAttribute(file, f0, ..) && ParseAttribute(file, f1, ..) && ..`: the attributes in
   * order, stopping at the first that fails, whose message is kept. The values of a block
   * that fails are never used by the loader, so they are not kept.
   */
  function ParseBlock(words: seq<Token>, st: Stream, fields: seq<Field>, message: string): (r: BlockRead)
    requires InRange(words, st)
    ensures Advanced(words, st, r.st)
    decreases |fields|, st
  {
    if |fields| == 0 then BlockRead(st, [], true, message)
    else
      var a := ParseField(words, st, fields[0], message);
      if !a.ok then BlockRead(a.st, [], false, a.message)
      else
        var rest := ParseBlock(words, a.st, fields[1..], a.message);
        rest.(values := [a.value] + rest.values)
  }

  /**
   * A block reads exactly when the stream is good and the words have its shape; it then
   * consumes exactly its words and keeps the message.
   */
  lemma {:induction false} BlockShape(words: seq<Token>, st: Stream, fields: seq<Field>, message: string)
    requires InRange(words, st)
    ensures var r := ParseBlock(words, st, fields, message);
      r.ok <==> (|fields| == 0 || !st.failed) && FieldsAt(words, st.pos, fields)
    ensures var r := ParseBlock(words, st, fields, message);
      r.ok ==> r.st == st.(pos := st.pos + Width(fields)) && r.message == message
    decreases |fields|
  {
    if |fields| > 0 {
      var a := ParseField(words, st, fields[0], message);
      if a.ok {
        BlockShape(words, a.st, fields[1..], a.message);
      }
    }
  }

  /** Values `values` were read, one per attribute, from a block of shape `fields` at word `p`. */
  predicate ReadFrom(values: seq<Vec3>, tokens: seq<Token>, p: nat, fields: seq<Field>) {
    && |values| == |fields|
    && forall k :: 0 <= k < |fields| ==> values[k] == FieldValue(tokens, p + Offset(fields, k), fields[k])
  }

  /** Reading the first attribute and then the rest reads the whole block. */
  lemma ReadFromCons(v: Vec3, tail: seq<Vec3>, tokens: seq<Token>, p: nat, fields: seq<Field>)
    requires |fields| > 0 && v == FieldValue(tokens, p, fields[0])
    requires ReadFrom(tail, tokens, p + 1 + fields[0].Arity(), fields[1..])
    ensures ReadFrom([v] + tail, tokens, p, fields)
  {
    var values := [v] + tail;
    forall k | 0 <= k < |fields|
      ensures values[k] == FieldValue(tokens, p + Offset(fields, k), fields[k])
    {
      if k > 0 {
        assert values[k] == tail[k - 1];
        assert fields[1..][k - 1] == fields[k];
      }
    }
  }

  /** A block whose first attribute reads goes on with the rest of the block from there. */
  lemma BlockStep(words: seq<Token>, st: Stream, fields: seq<Field>, message: string)
    requires InRange(words, st) && |fields| > 0
    ensures var a := ParseField(words, st, fields[0], message);
      a.ok ==> var tail := ParseBlock(words, a.st, fields[1..], a.message);
        ParseBlock(words, st, fields, message) == tail.(values := [a.value] + tail.values)
  {
  }

  /** When a block reads, it has one value per attribute, each read from that attribute's words. */
  lemma {:induction false} BlockValues(words: seq<Token>, st: Stream, fields: seq<Field>, message: string)
    requires InRange(words, st)
    ensures var r := ParseBlock(words, st, fields, message);
      r.ok ==> ReadFrom(r.values, words, st.pos, fields)
    decreases |fields|
  {
    if |fields| > 0 {
      var a := ParseField(words, st, fields[0], message);
      if a.ok {
        BlockValues(words, a.st, fields[1..], a.message);
        BlockStep(words, st, fields, message);
        var tail := ParseBlock(words, a.st, fields[1..], a.message);
        if tail.ok {
          ReadFromCons(a.value, tail.values, words, st.pos, fields);
          assert ReadFrom(ParseBlock(words, st, fields, message).values, words, st.pos, fields);
        } else {
          assert !ParseBlock(words, st, fields, message).ok;
        }
      } else {
        assert !ParseBlock(words, st, fields, message).ok;
      }
    }
  }

  /** A block that fails ends on the message of one of its attributes. */
  lemma {:induction false} BlockFailure(words: seq<Token>, st: Stream, fields: seq<Field>, message: string)
    requires InRange(words, st)
    ensures var r := ParseBlock(words, st, fields, message);
      !r.ok ==> exists k :: 0 <= k < |fields| &&
                  (r.message == ExpectedMessage(fields[k].name) || r.message == IncorrectMessage(fields[k].name))
    decreases |fields|
  {
    if |fields| > 0 {
      var a := ParseField(words, st, fields[0], message);
      if a.ok {
        BlockFailure(words, a.st, fields[1..], a.message);
        var r := ParseBlock(words, st, fields, message);
        if !r.ok {
          var k :| 0 <= k < |fields[1..]| &&
            (r.message == ExpectedMessage(fields[1..][k].name) || r.message == IncorrectMessage(fields[1..][k].name));
          assert fields[1..][k] == fields[k + 1];
        }
      }
    }
  }

  /** Value `k` of a block (zero past the end). */
  function ValueAt(values: seq<Vec3>, k: nat): Vec3 {
    if k < |values| then values[k] else Zero3
  }
}

=== FILE: Wrappers.dfy ===
/** Optional values used across the renderer model. */
module Wrappers {

  datatype Option<+T> = None | Some(value: T)
}
